=== FILE: README.md ===
# VibeReps in Dafny

VibeReps prompts a Claude Code user to do a short set of exercises, such as
squats or push-ups, while Claude works. Hook scripts launch a webcam page.
An Electron menu-bar app keeps a registry of Claude sessions. A local MCP
server and a remote FastAPI server keep statistics. Small scripts handle
configuration, account setup, usage reports and project tracking.

This project is a functional model of the decision logic of that system. It
covers:

- the Electron session registry and the views built on it (`SessionManager`,
  `ElectronApi`);
- the Python hook with its launch lock, HTTP handler and daemon exit rules
  (`Hook`);
- the Node.js tracker (`NodeTracker`);
- the notification hook (`Notify`);
- the statistics of the local MCP server (`McpStats`);
- the remote server's streak, stats, leaderboard, user creation and JSON-RPC
  endpoint (`RemoteServer`);
- the user configuration file (`VibeConfig`);
- remote-sync setup (`Setup`);
- the usage report (`Usage`);
- project tracking (`TrackProject`);
- detection-engine configuration (`Configure`).

`Common` holds the helpers they share: JSON values, Python and JavaScript
truthiness, string splitting, joining, stripping and replacing, and sorting.

Every operation is a pure function or a small method. The clock (`now`),
directory listings, file contents, environment variables and the outcomes of
HTTP requests and subprocesses are parameters. A Python exception that is not
caught is modelled as an explicit outcome (`None`, `Raised`, `Crashed`,
`LoaderRaised`), never as a precondition.

Some facts about the code that shape the model:

- The hook and its daemon always use port 8765. There is no port-discovery
  file and no `/update-context` route.
- The hook reports only the statuses "success" and "skipped"; a failure shows
  up as an uncaught exception and exit status 1.
- After spawning the daemon, the hook sleeps for a fixed 0.5 s before asking
  for a window.
- `/api/status` reports `active_sessions` as the number of all sessions,
  whatever their status.

## Model

| member | source | states |
|---|---|---|
| SessionManager.Put | electron/session-manager.js:40 | `Map.set`: a new key is appended to the iteration order, an existing key keeps its place, and the registry invariant is kept |
| SessionManager.GetAll | electron/session-manager.js:131-133 | the sessions come out in insertion order, one per key |
| SessionManager.SessionCount | electron/session-manager.js:131-133 | `getAll()` has exactly as many sessions as the map has keys |
| SessionManager.Register | electron/session-manager.js:29-43 | a fresh record replaces any previous one. Defaults are pid null (also for pid 0), context {} and status "active" (also for ""). Both timestamps are `now` and the activity log is empty. The invariant and the log bound are kept |
| SessionManager.Basename | electron/session-manager.js:190-193 | the result contains no '/' or '\\', is a suffix of the path, and is preceded by a separator when shorter than the path |
| SessionManager.ActivityObject | electron/session-manager.js:51-56 | the auto-registration context holds exactly the activity's present fields |
| SessionManager.MergeActivity | electron/session-manager.js:58-70 | `lastTool` is set iff a tool name is present. `lastFile` and `summary` are set iff a file path is present. The report's own context wins over both. No other key changes, and an empty report changes nothing |
| SessionManager.AppendLog | electron/session-manager.js:72-79 | the new entry is last. Below ten entries nothing is dropped; at ten or more exactly the oldest entry goes. A log within ten stays within ten |
| SessionManager.StatusAfterActivity | electron/session-manager.js:81-84 | "complete" becomes "active"; every other status, "exercising" included, is unchanged |
| SessionManager.UpdateActivity | electron/session-manager.js:51-88 | an answer always exists. An unknown id is registered with the activity as its context and an empty log. A known id is refreshed, merged, logged and reactivated. No other session changes |
| SessionManager.SetStatus | electron/session-manager.js:95-116 | a known id gets the status and `lastActivity = now`, and nothing else changes. An unknown id leaves the registry unchanged and answers null |
| SessionManager.MarkComplete | electron/session-manager.js:95-103 | sets "complete" on a known session; an unknown id changes nothing |
| SessionManager.MarkExercising | electron/session-manager.js:109-116 | sets "exercising" on a known session; an unknown id changes nothing |
| SessionManager.Get | electron/session-manager.js:123-125 | the stored record iff the id is present, otherwise null |
| SessionManager.Remove | electron/session-manager.js:147-150 | exactly that key disappears from the map and the order; the other keys keep their relative order, and the invariant is kept |
| SessionManager.GetActive | electron/session-manager.js:139-141 | exactly the sessions whose status is not "complete", as a sub-list of `getAll()` in its order |
| SessionManager.Cleanup | electron/session-manager.js:155-172 | removes exactly the sessions idle for more than 600000 ms, keeping the others in order. A session idle for exactly the limit, like every fresh one, is kept unchanged |
| SessionManager.CountsOf | electron/session-manager.js:178-185 | the four fixed buckets are always present |
| SessionManager.GetCounts | electron/session-manager.js:178-185 | the four fixed buckets are always present |
| SessionManager.CountsOfCorrect | electron/session-manager.js:178-185 | `total` is the number of sessions, each bucket counts the sessions with that status, and a status without a bucket has no sessions (given that no status is named "total") |
| SessionManager.CountsOfKeys | electron/session-manager.js:178-185 | a bucket exists iff it is one of the fixed four or some session has that status |
| SessionManager.BucketsSumToTotal | electron/session-manager.js:178-185 | with only the three app statuses in use, the three counts add up to the number of sessions |
| SessionManager.CountsMatchRegistry | electron/session-manager.js:178-185 | `getCounts().total` equals the number of sessions and equals active + exercising + complete |
| SessionManager.LogBoundAfterActivity | electron/session-manager.js:72-79 | no report takes any activity log past ten entries |
| SessionManager.LogKeepsNewest | electron/session-manager.js:77-79 | appending to a full log keeps ten entries: the old ones minus the oldest, then the new one |
| SessionManager.ReportReactivates | electron/session-manager.js:82-84 | a session marked complete is "active" again after its next report |
| ElectronApi.ApiStatusView | electron/main.js:238-246 | `active_sessions` is the number of all sessions; `claude_complete` holds iff some session is "complete"; `sessions` lists them in order |
| ElectronApi.LegacyStatusView | electron/main.js:249-256 | `exercise_complete` is always false, and `claude_complete` follows the same any-complete rule as `/api/status` |
| ElectronApi.ContextView | electron/main.js:271-278 | the first registered session's context, or {} without sessions |
| ElectronApi.ContextStaysWithFirst | electron/main.js:271-278 | registering a new session never changes what `/context` shows once a session exists |
| ElectronApi.TooltipText | electron/main.js:321-323 | "VibeReps" iff the count is 0. Otherwise "VibeReps - N Claude…", with "Claudes working" iff N > 1 |
| ElectronApi.OneClaudeTooltip | electron/main.js:321-323 | one session reads "VibeReps - 1 Claude working" |
| ElectronApi.TrayTooltip | electron/main.js:315-325 | only sessions whose status is exactly "active" are counted for the tooltip |
| ElectronApi.RegisterKey | electron/main.js:143-144 | the request's id when it is non-empty, otherwise "session-" followed by the decimal time |
| ElectronApi.DefaultKeysFollowTime | electron/main.js:143-144 | two registrations without an id get the same key iff they happen at the same millisecond |
| ElectronApi.HandleRegister | electron/main.js:142-158 | always stores a fresh "active" session under the chosen key, with the request's context or {} |
| ElectronApi.HandleActivity | electron/main.js:162-186 | always answers 200, so the 404 branch is unreachable. The window is shown iff the tool is Edit or Write. The stored session is the one `updateActivity` produces: a new id starts active with an empty log, a known one keeps its creation time and is re-activated if complete, and its last activity is now. Every other session is unchanged |
| ElectronApi.ActivityAfterNotifyReactivates | electron/main.js:162-196 | a session marked complete by /api/notify is active again after its next activity report |
| ElectronApi.HandleNotify | electron/main.js:189-195 | marks the named session complete only when a non-empty id is given and known; otherwise nothing changes; no other session changes |
| ElectronApi.NotifyMakesStatusComplete | electron/main.js:189-256 | after a notify for a registered session, both status endpoints report `claude_complete` |
| ElectronApi.PermissionGranted | electron/main.js:338-352 | exactly "media" and "mediaKeySystem" are granted |
| ElectronApi.ListedFiles | electron/main.js:103-105 | exactly the `.json` names not starting with '_', sorted, as a permutation of the filtered listing |
| ElectronApi.ExerciseEntry | electron/main.js:109-117 | each of id, name, description, category and reps is the file's value when truthy, and otherwise the fallback: the file name with its first ".json" removed (for both id and name), "", "general" and {normal: 10, quick: 5} |
| ElectronApi.EntriesFor | electron/main.js:107-121 | an entry is listed iff its file was listed and parsed to something other than null, and each entry is built from its own file |
| ElectronApi.EntriesSorted | electron/main.js:103-121 | entries built from a sorted listing come out sorted by file |
| ElectronApi.ListExercises | electron/main.js:100-127 | an unreadable directory gives []. Otherwise each entry is a listed file of the directory, in sorted order. Every listed, readable, parsable `.json` file has its entry, and each entry is built from its own file's document. When the directory lists no name twice, no file has two entries |
| ElectronApi.ListedFileGetsDefaults | electron/main.js:100-127 | a listed file whose document has no `category` and no `reps` appears with category "general" and the default reps |
| Hook.KeptExercises | exercise_tracker.py:83-84 | a name is kept iff it is a stripped item of the comma list and not a leg exercise; no kept name contains a comma. The kept names keep their order, and each one occurs exactly as often as in the stripped list (a leg exercise not at all) |
| Hook.FilteredExercises | exercise_tracker.py:79-86 | unchanged unless skip-leg-day is set and the list is non-empty; then the kept names joined by commas |
| Hook.FilteredHasNoLegExercise | exercise_tracker.py:76-86 | with skip-leg-day set, no comma-separated name of the result is a leg exercise |
| Hook.FilteredKeepsOrder | exercise_tracker.py:83-85 | the result splits back into exactly the kept names, and those names are a subsequence of the stripped comma list, so their original order survives |
| Hook.AcquireLock | exercise_tracker.py:449-466 | acquired iff the lock is absent, or stale (10 s or older) and the single retry wins. A lock younger than 10 s is untouched and gives "skipped". A lost retry gives "skipped" with the winner's lock |
| Hook.LaunchUrl | exercise_tracker.py:490-493 | "http://localhost:8765?quick=true", plus "&exercises=…" iff the filtered list is non-empty |
| Hook.HandleHook | exercise_tracker.py:443-523 | a daemon is spawned iff the event is a quick event, the lock is acquired and no server answers. A busy lock gives "skipped" and keeps the lock. An answering server deletes the lock and gives "skipped". A launch keeps the lock and opens the launch URL iff no window is open yet. task_complete crashes iff port 8765 is taken (then it opens nothing) or the completion is truthy and not a dict; otherwise it opens http://localhost:8765 and succeeds with its data. Other events are skipped with a message naming them |
| Hook.SecondHookWithinWindowSkips | exercise_tracker.py:443-498 | two quick hooks less than 10 s apart spawn at most one daemon, and the second is "skipped" |
| Hook.ExitCode | exercise_tracker.py:547-548 | exit 0 iff the status is "success", otherwise 1 |
| Hook.RunExitCode | exercise_tracker.py:547-548 | exit 0 iff the run returned with status "success"; an uncaught exception exits 1 |
| Hook.TaskCompleteDuringDaemonCrashes | exercise_tracker.py:499-505 | a task_complete hook while the daemon holds port 8765 exits 1 and opens no browser, because binding the port (line 392) raises before the browser is opened |
| Hook.OnlyKnownEventsSucceed | exercise_tracker.py:443-548 | only user_prompt_submit, post_tool_use and task_complete can exit 0 |
| Hook.Dispatch | exercise_tracker.py:526-541 | each mode holds iff its condition holds: the list and help flags come first (lines 21 and 42), then `VIBEREPS_DISABLED` (line 65), then `--daemon`, then a non-JSON second argument raising. The event is the first argument, defaulting to post_tool_use |
| Hook.ListExitCode | exercise_tracker.py:20-39 | exit 1 iff some listed file not starting with '_' raises something other than a JSON or key error; otherwise 0 |
| Hook.ModeExitCode | exercise_tracker.py:526-548 | help and `VIBEREPS_DISABLED` exit 0 (lines 42-66). Non-JSON hook data exits 1. The daemon exits 1 iff the port is taken. The listing exits as ListExitCode. A hook run exits as RunExitCode |
| Hook.StartWebServer | exercise_tracker.py:383-400 | both flags and the data are reset and the mode recorded; the URL carries "?quick=true" iff quick |
| Hook.RemoteLogUrl | exercise_tracker.py:193 | the URL ends in "/api/log" |
| Hook.LogToRemote | exercise_tracker.py:187-211 | no request and False when the URL or key is empty. Otherwise True iff the answer is 200. A URL or HTTP error gives False. Any other exception propagates |
| Hook.DoPost | exercise_tracker.py:270-312 | /complete sets the data and the flag before reading fields, so a non-object body sets them and answers 500; an unparsable body changes nothing. The mode is "quick" iff quick. /notify sets `claude_complete`. An object body on /complete logs an entry with the `exercise`, `reps` and `duration` fields (defaults "unknown", 0, 0) and the mode, and tries the remote log; the answer is 200 iff the remote log returned, and 500 otherwise. Other paths give 404 |
| Hook.CompletionLoggedInStartMode | exercise_tracker.py:270-295 | on a freshly started server without remote settings, a completion is answered 200, logged locally with "quick" iff the server started in quick mode, and marks the exercise complete |
| Hook.OnlyCompleteEndsSession | exercise_tracker.py:270-312 | after a fresh start, only a parsed POST to /complete can set `exercise_complete` |
| Hook.ExerciseFileReply | exercise_tracker.py:353-374 | 200 iff the name ends in ".json", has no '/' or '\\', resolves inside the directory and names a non-empty file; otherwise 404 |
| Hook.DaemonTimeout | exercise_tracker.py:421 | 120 s in quick mode, 600 s otherwise |
| Hook.DaemonStep | exercise_tracker.py:424-437 | time out at the limit. Otherwise stop on completion, or when both window checks find no window. Keep serving otherwise |
| Hook.RunDaemon | exercise_tracker.py:413-437 | the loop stops at the first iteration that decides to stop, and every earlier iteration decided to keep serving |
| Hook.QuickDaemonStopsByTwoMinutes | exercise_tracker.py:421-424 | a quick-mode daemon never serves past 120 s |
| NodeTracker.HookType | src/tracker.js:29 | the first argument, or "user_prompt_submit" when it is absent |
| NodeTracker.DefaultIsQuick | src/tracker.js:29-30 | with no argument the tracker is in quick mode |
| NodeTracker.EntriesOf | src/tracker.js:37-40 | one entry per file, in order, carrying the file's `id` and `name` |
| NodeTracker.LoadExerciseList | src/tracker.js:35-48 | an unreadable directory, or any unreadable, unparsable or null file, gives the three built-in exercises. Otherwise entry i is the i-th `.json` file not starting with '_', with that file's `id` and `name` |
| NodeTracker.CatalogueHasEachFileOnce | src/tracker.js:35-41 | from a directory listing without repeats, every exercise file has an entry and no file has two |
| NodeTracker.AllowedIds | src/tracker.js:53 | one name per comma-separated item: item i, trimmed |
| NodeTracker.AvailableExercises | src/tracker.js:51-55 | the full list when `VIBEREPS_EXERCISES` is empty. Otherwise exactly the entries whose id is an allowed name, as a sub-list in catalogue order |
| NodeTracker.ConfigFileName | src/tracker.js:91 | the last '/'-segment of the path: no '/', a suffix, preceded by '/' |
| NodeTracker.HandleComplete | src/tracker.js:136-176 | `sessionComplete` is set iff the body is not null. A null body throws in the async function, and the unhandled rejection ends the process with status 1 |
| NodeTracker.Route | src/tracker.js:62-132 | OPTIONS gives 204. "/", "/index.html" and "/exercises" give 200. /status reports `claudeReady`. /notify and /complete act only on POST; other methods fall through to 404, as does every unmatched path. Invalid JSON on /complete gives 400 and changes nothing. Configuration files are looked up by basename. Only POST /notify changes `claudeReady`, and only POST /complete changes `sessionComplete`. The model ends the process (status 1) only for a null body there; the exits after a completion are not modelled (see Left out) |
| NodeTracker.NotifyThenStatusReady | src/tracker.js:102-112 | after POST /notify, GET /status reports `claude_ready: true` |
| NodeTracker.Serve | src/tracker.js:62-183 | requests are served in order until the process ends, after which nothing changes; a completed session stays completed, and then the timer never closes the server |
| NodeTracker.TimerClosesIffNoCompletion | src/tracker.js:113-218 | from a fresh state, the ten-minute timer closes the server iff no request was a POST to /complete with a parsable body |
| NodeTracker.CompletionIsPermanent | src/tracker.js:212-217 | once a session completed, no later request makes the timer close the server |
| Notify.ReadHookPayload | notify_complete.py:14-21 | ready, valid JSON is returned as parsed; anything else gives {} |
| Notify.TargetUrl | notify_complete.py:24-26 | the URL is "http://localhost:", then exactly the port's decimal digits, then "/notify" |
| Notify.DefaultTargetUrl | notify_complete.py:24-26 | with the default port 8765 the target is "http://localhost:8765/notify" |
| Notify.BuildPayload | notify_complete.py:29-32 | falsy data gives {}. A dict gives exactly `message` and `notification_type`, defaulting to "". Another truthy value raises |
| Notify.NotifyOutcome | notify_complete.py:34-50 | "success" iff the answer parses, with that result. "skipped" iff a URLError occurs. "error" for any other exception, non-JSON answers included |
| Notify.MainExitCode | notify_complete.py:53-63 | exit 0 iff the payload was built and the status is success or skipped |
| Notify.MissingInputSendsEmptyPayload | notify_complete.py:14-32 | missing or malformed stdin still notifies, with {} |
| Notify.TrackerDownIsNotFailure | notify_complete.py:46-63 | an unreachable tracker exits 0 |
| McpStats.RepsOf | mcp_exercise_server.py:395-398 | empty iff no session of that exercise exists |
| McpStats.TruncDiv | mcp_exercise_server.py:399 | `int(a / b)` truncates toward zero on both signs |
| McpStats.AverageReps | mcp_exercise_server.py:393-399 | 10 without sessions; otherwise the sum over the count truncated toward zero, `int(sum / n)`: for a non-negative sum `avg * n <= sum < avg * n + n`, and for a negative one `avg * n - n < sum <= avg * n` |
| McpStats.AverageOfConstant | mcp_exercise_server.py:393-399 | when every session of an exercise did k reps, the average is k |
| McpStats.AdjustDifficulty | mcp_exercise_server.py:401-408 | 10 below 10; +2 from 10 to 19; min(avg + 1, 50) from 20. Always within [10, 50] |
| McpStats.AdjustDifficultyMonotone | mcp_exercise_server.py:401-408 | a higher average never gets a lower recommendation |
| McpStats.HasDayScan | mcp_exercise_server.py:420-424 | found iff some history entry falls on the day |
| McpStats.CalculateStreak | mcp_exercise_server.py:410-429 | 0 for an empty history. Every counted day back from today has a session. The streak stops at the first day without one and never exceeds 365 |
| McpStats.TierOf | mcp_exercise_server.py:431-442 | the tiers 0, 1–2, 3–6, 7–29 and 30+ |
| McpStats.TierMonotone | mcp_exercise_server.py:431-442 | a longer positive streak never earns a lower tier |
| McpStats.MotivationMessage | mcp_exercise_server.py:431-442 | for each tier the exact message, with the streak written in decimal |
| McpStats.RecentExercises | mcp_exercise_server.py:301-302 | the exercises of the last five entries, in order (all of them when fewer) |
| McpStats.MinByCount | mcp_exercise_server.py:305-306 | a candidate with the least count; every earlier candidate has a strictly larger count |
| McpStats.SuggestExercise | mcp_exercise_server.py:298-318 | the exercise with the minimal count among the last five, ties going to the first in the list (squats, pushups, jumping_jacks), with recommended reps in [10, 50] from its adjusted average |
| McpStats.EmptyHistorySuggestion | mcp_exercise_server.py:298-318 | an empty history suggests squats at 12 reps |
| McpStats.LogExerciseSession | mcp_exercise_server.py:235-255 | exactly one history entry is appended. Only that exercise's total rises, by the reps. An exercise without a total raises after the append |
| McpStats.UpdateGoals | mcp_exercise_server.py:320-326 | only `daily_<exercise>` changes, to the target |
| McpStats.ProgressOf | mcp_exercise_server.py:379-388 | remaining = max(0, goal − completed): never negative, 0 iff the goal is met |
| McpStats.ProgressToday | mcp_exercise_server.py:350-390 | exactly the three exercises. Each shows today's reps against its goal (0 when unset) |
| McpStats.LogRaisesProgress | mcp_exercise_server.py:350-390 | logging a session today raises that exercise's progress by its reps and leaves the others unchanged |
| McpStats.OtherDayLeavesProgress | mcp_exercise_server.py:355-358 | a session on another day leaves today's progress unchanged |
| RemoteServer.DescendingDays | server/main.py:188 | the distinct exercise days, strictly descending |
| RemoteServer.CalculateStreak | server/main.py:183-202 | 0 without exercises or when the latest day is before yesterday. Otherwise 1 ≤ streak ≤ distinct days, and the streak counts exactly the consecutive days ending at the latest day |
| RemoteServer.OnDay | server/main.py:162 | exactly the exercises of that day |
| RemoteServer.FirstMaxIndex | server/main.py:171 | the first index holding the maximum, as `max` picks it |
| RemoteServer.CalculateStats | server/main.py:157-180 | the sessions are the count and the reps are the sum, overall and today. The streak is the one `calculate_streak` defines (IsStreak). The favourite is None iff there are no exercises; otherwise it has maximal summed reps |
| RemoteServer.TodayWithinTotal | server/main.py:174-177 | with non-negative reps, today's reps lie between 0 and the total |
| RemoteServer.RankRows | server/main.py:149-152 | ranks 1..n in result order, with the rows otherwise unchanged |
| RemoteServer.RanksFollowReps | server/main.py:144-152 | for rows sorted by reps, a better rank never has fewer reps |
| RemoteServer.CreateUser | server/main.py:92-105 | 400 "Username already exists" iff the name is taken; otherwise the user is appended |
| RemoteServer.CreateUserKeepsNamesUnique | server/main.py:94-97 | usernames stay unique |
| RemoteServer.RouteTool | server/main.py:266-330 | an unknown tool raises "Unknown tool: …". Logging needs `exercise` and `reps`, and duration defaults to 0 |
| RemoteServer.Render | server/main.py:348-352 | every reply carries "jsonrpc": "2.0" and echoes the id, with `result` or `error` |
| RemoteServer.McpEndpoint | server/main.py:333-389 | initialize, notifications/initialized and tools/list need no key. tools/call without a key gives -32001 "X-API-Key header required", and a key matching no user gives -32001 "Invalid API key". With a known key, a routing or tool error gives -32000 with its message, and a tool result is wrapped as one text content item. Any other method gives -32601 "Method not found: …" |
| RemoteServer.OpenMethodsIgnoreKey | server/main.py:354-367 | the open methods answer the same whatever the key |
| VibeConfig.PyContains | vibereps_config.py:43-45 | Python `in` is membership on dicts and lists, substring on strings, and a TypeError otherwise |
| VibeConfig.MergeRemote | vibereps_config.py:48-51 | each of the four remote-sync keys comes from the file when present, otherwise the default |
| VibeConfig.LoadConfig | vibereps_config.py:28-55 | read and parse errors give the defaults, but a file that does not decode as text raises. A dict contributes only the whitelisted keys, and a non-dict `remote_sync` is ignored. A scalar document raises. A list or string raises iff a looked-up key is "in" it, and otherwise gives the defaults |
| VibeConfig.ToDocument | vibereps_config.py:58-76 | the document written has exactly version, local_logging and remote_sync |
| VibeConfig.SaveLoadRoundTrip | vibereps_config.py:28-76 | loading what was saved gives the same configuration |
| VibeConfig.GetRemoteSettings | vibereps_config.py:79-114 | both env values set wins outright. Otherwise a falsy `enabled` gives none. With `enabled` truthy, the URL is the env value, else a truthy file URL, else the default; the key is the env value, else the file key; a truthy key gives exactly that target and a falsy one gives none |
| VibeConfig.EnableRemoteSync | vibereps_config.py:132-146 | remote sync becomes exactly (true, url, key, name), and version and local_logging are kept |
| VibeConfig.DisableRemoteSync | vibereps_config.py:149-156 | only `enabled` changes, to false; the credentials are kept |
| VibeConfig.EnableThenSettings | vibereps_config.py:79-146 | after enabling with a URL and a truthy key, the saved file sends to that URL with that key |
| VibeConfig.DisableThenNoSettings | vibereps_config.py:79-156 | after disabling, without both env values, nothing is sent |
| Setup.ValidateDisplayName | vibereps_setup.py:27-46 | valid iff the length is 3..20 and all characters are in [A-Za-z0-9_-], with an empty message iff valid. Error precedence is empty, too short, too long, bad characters |
| Setup.HexByte | vibereps_setup.py:24 | a byte becomes two lower-case hex digits, high nibble first, which read back as the byte |
| Setup.Hex | vibereps_setup.py:24 | two lower-case hex digits per byte: an even-length string of hex digits |
| Setup.HexRoundTrip | vibereps_setup.py:24 | decoding the hex form gives back the bytes |
| Setup.AnonymousName | vibereps_setup.py:22-24 | "anon_" followed by the token's hex form (four characters for the two bytes used) |
| Setup.AnonymousNameValid | vibereps_setup.py:22-46 | a generated name from a token of up to 7 bytes passes validation |
| Setup.PromptYesNo | vibereps_setup.py:123-131 | blank input gives the default. Otherwise yes iff the stripped, lower-cased input is "y" or "yes" |
| Setup.PromptIgnoresPadding | vibereps_setup.py:126-131 | any answer and its stripped form give the same result |
| Setup.PaddedUpperYes | vibereps_setup.py:126-131 | " YES " is a yes whatever the default |
| Setup.NoOverridesDefault | vibereps_setup.py:126-131 | "no" is a no even when the default is yes |
| Setup.BlankTakesDefault | vibereps_setup.py:128-129 | whitespace-only input gives the default |
| Setup.CreateAccount | vibereps_setup.py:49-84 | an object answer gives its api_key and username. 409, 422 and other HTTP errors are distinguished, all failures. A non-object answer raises |
| Setup.LeaderboardRank | vibereps_setup.py:87-99 | `len(leaderboard) + 1`: one more than the number of fields of an object, or characters of a string, or items of a list; None on any failure |
| Setup.ChosenName | vibereps_setup.py:212-214 | a blank name becomes the anonymous name; any other name is kept unstripped |
| Setup.RunNonInteractive | vibereps_setup.py:210-238 | an invalid name that does not start with "anon_" fails before any request. Otherwise the chosen name is sent. Success requires an account and a load. The saved remote sync is exactly (true, url, key, name) |
| Setup.NonInteractiveExitCode | vibereps_setup.py:281-283 | exit 0 iff setup finished and saved; a raising setup exits 1 |
| Setup.BlankNameSendsAnonymous | vibereps_setup.py:212-217 | a blank name is never rejected and the anonymous name is sent |
| Setup.AnonPrefixSkipsValidation | vibereps_setup.py:216-221 | "anon_!" is invalid but is still sent, because the prefix skips validation |
| Setup.SetupEnablesSync | vibereps_setup.py:230-238 | after a finished setup, the saved file sends to the setup URL with the account's key |
| Usage.Bump | vibereps-usage.py:34 | adds the reps to one exercise (from 0 when new); the others are unchanged |
| Usage.DateKey | vibereps-usage.py:31 | the prefix before the first "T" when there is one, otherwise the first ten characters |
| Usage.AddRecord | vibereps-usage.py:30-34 | only the record's day changes, by one bump |
| Usage.Group | vibereps-usage.py:24-38 | defined iff no line is non-object JSON (such a line raises); keys are unique |
| Usage.GroupSums | vibereps-usage.py:27-36 | a day or a (day, exercise) pair is present iff some record has it, and each cell is the sum of its records' reps with the defaults "", "unknown" and 0 |
| Usage.GroupDays | vibereps-usage.py:27-36 | a day appears in the grouping iff some record falls on it |
| Usage.GroupExercises | vibereps-usage.py:27-36 | an exercise appears under a day iff some record has both |
| Usage.GroupReps | vibereps-usage.py:27-36 | each cell is the sum of the matching records' reps, with the defaults "", "unknown" and 0 |
| Usage.LoadExerciseData | vibereps-usage.py:16-38 | a missing log gives {}; otherwise the grouping |
| Usage.ShortName | vibereps-usage.py:61 | the name with each '_' turned into a space and then each "jumping jacks" into "JJ"; a name without "jumping jacks" is only spaced; the result never contains '_' |
| Usage.JumpingJacksIsJJ | vibereps-usage.py:61 | "jumping_jacks" is shown as "JJ" |
| Usage.Cell | vibereps-usage.py:62 | the reps in decimal, a space, then the short name |
| Usage.ShownOrder | vibereps-usage.py:59 | the day's entries sorted by name, as a permutation |
| Usage.FormatExercises | vibereps-usage.py:53-64 | "" iff there are no exercises. Otherwise one cell per exercise in name order, joined by ", " |
| Usage.CellNameHasNoUnderscore | vibereps-usage.py:61-62 | the name part of a cell has no underscore |
| Usage.SummariseModels | vibereps-usage.py:95-101 | the first two labels (all of them when fewer) are shown; shown + more = all, with more > 0 iff there are more than two |
| Usage.ModelString | vibereps-usage.py:96-101 | the shown labels joined by ", "; with more than two models, followed by " +k" where k = count − 2 |
| Usage.AllDates | vibereps-usage.py:81-93 | the sorted, duplicate-free union of the report's dates and the log's days |
| Usage.RowFor | vibereps-usage.py:88-91 | a row of that date exists iff the date is listed; the row given is one of that date with no row of that date after it, so the last one wins |
| Usage.ExerciseOnlyDaysAddNoTokens | vibereps-usage.py:93-108 | days without a report row add no input tokens to the total |
| Usage.AddTallySums | vibereps-usage.py:118-119 | accumulating a day adds its reps to each exercise's total |
| Usage.TotalsAreSums | vibereps-usage.py:113-119 | each exercise's total is the sum of its reps over the printed dates |
| Usage.TallyRepsIsValue | vibereps-usage.py:118-119 | with unique keys, a day's reps for an exercise are its single entry |
| Usage.Main | vibereps-usage.py:133-154 | with `--exercises-only` ccusage is not run, otherwise it gets the arguments. Exit 1 iff neither source has data. A raising loader propagates |
| TrackProject.Sanitize | track_project.py:76-77 | the length is kept. A character is kept iff it is alphanumeric, '-' or '_'; otherwise it becomes '_' |
| TrackProject.SanitizeIdempotent | track_project.py:76-77 | sanitising twice is sanitising once |
| TrackProject.SanitizeKeepsClean | track_project.py:76-77 | a clean label passes unchanged |
| TrackProject.PushPath | track_project.py:91-92 | the path splits on '/' into exactly the fixed segments with the sanitised labels in place, so a label cannot add segments |
| TrackProject.RepoNameAsWritten | track_project.py:58 | the last '/'-segment with every ".git" removed, so a segment without ".git" is returned whole; it never contains '/' |
| TrackProject.RepoNameAsWrittenMangles | track_project.py:58 | "org/.github.git" becomes "hub" |
| TrackProject.RepoName | track_project.py:55-61 | the last segment with only a trailing ".git" removed. It never contains '/', and followed by ".git" (or alone, when there is no such suffix) it ends the URL |
| TrackProject.RepoNameRecovers | track_project.py:56-58 | "<prefix>/<name>.git" gives back exactly `name` |
| TrackProject.GetGitInfo | track_project.py:36-65 | as written: either run raising gives ("unknown", cwd). A failed branch query gives "unknown". A missing or blank URL gives the directory name; otherwise the repository is RepoNameAsWritten of the stripped URL |
| TrackProject.GetGitInfoIntended | track_project.py:36-65 | the same, with the repository name from RepoName |
| TrackProject.VersionsAgreeWithoutGit | track_project.py:55-61 | the two versions agree whenever the URL's last segment contains no ".git" |
| TrackProject.VersionsDisagreeOnDotGithub | track_project.py:58 | for the remote "org/.github.git" the as-written version names the repository "hub", the intended one ".github" |
| TrackProject.ProjectName | track_project.py:110-115 | the repository name unless it is "unknown", then the directory name |
| TrackProject.NoRemoteUsesDirectory | track_project.py:55-65 | without a usable remote the project is the working directory |
| TrackProject.PushUrl | track_project.py:90-92 | built from GetGitInfo as written: the URL starts with the gateway, and the rest splits on '/' into the fixed segments carrying the sanitised project (the directory name when the repository is "unknown") and branch |
| Configure.LoadConfig | configure.py:36-69 | a parsed file is returned as is. A missing or non-JSON file gives the default. A read or decoding error propagates |
| Configure.DefaultEngineIsMediaPipe | configure.py:44-46 | without a usable file the engine is "mediapipe" |
| Configure.MenuMatchesEngineKeys | configure.py:82-89 | the menu offers exactly the engines `--engine` accepts |
| Configure.ConfigureDetectionEngine | configure.py:78-116 | a change iff the choice is "1", "2" or "3", setting the matching engine. Otherwise, the empty choice included, the configuration is unchanged |
| Configure.ChoiceIsIdempotent | configure.py:106-110 | choosing twice is choosing once |
| Configure.CurrentEngine | configure.py:91 | "mediapipe" when no engine is set |
| Configure.ChosenEngineIsCurrent | configure.py:91-110 | after a valid choice, the chosen engine is current |
| Configure.DefaultConfigShows | configure.py:166-179 | the default configuration can be shown |
| Configure.Main | configure.py:182-233 | a read error raises. --help exits 0. --show exits 0 if the configuration can be shown and raises otherwise. --engine NAME saves iff the lower-cased name is an engine, otherwise exits 1 without saving. --engine-prompt saves exactly the result of applying the stripped menu choice. A configuration that is not an object raises when saved. Anything else, and --engine alone, goes to the interactive menu when the configuration can be shown, and raises otherwise. Every exit status is 0 or 1 |
| Configure.EngineFlagIgnoresCase | configure.py:215-218 | the engine name is case-insensitive |
| Configure.UnknownEngineSavesNothing | configure.py:215-223 | an unknown engine exits 1 with nothing saved |

## Left out

- Sockets, HTTP servers, Express and `http.createServer` plumbing, `urllib` and `fetch` calls, and response headers and bodies. Only each handler's decision is modelled. For `Content-Length` and CORS, only the 204 answer to OPTIONS in the Node.js tracker is kept.
- Processes, threads, timers and sleeps. This covers `subprocess`, `Popen`, `pgrep`, `osascript`, browser launch, `serve_forever`, `setInterval` and `setTimeout`. The daemon loop is one decision per observed tick. The 2 s grace between the two window checks is folded into the tick.
- File-system effects: O_EXCL atomicity, mtimes, `mkdir`, `chmod`, JSONL appends (`log_to_local`, `logExercise`) and config writes. The lock is an optional modification time. A lost retry race is a parameter. A save is the document that would be written. `save_config`'s OSError is a `saveOk` parameter in setup; configure's write errors are not modelled.
- The clock and randomness. `now` and the day numbers are parameters. `secrets.token_hex` is the `token` parameter. A timestamp "starting with" a day's ISO date is modelled as the entry's day number.
- Floating point: progress percentages, costs, the output and total token columns, and the floating-point thresholds in configure's default engine table (`min_detection_confidence`, `min_tracking_confidence`, `score_threshold`, `confidence_threshold`); the engine names, descriptions and other settings are modelled.
- Printed text, banners, help text, colours and table layout. Only the values that decide the outcome are modelled.
- Interactive flows: `run_setup`, `prompt_display_name`, `configure_engine_settings`, configure's menu loop and `show_current_config`'s printing. The menu is the `InteractiveMenu` outcome. `--show` is modelled only as far as whether it raises.
- `get_exercise_stats` in the MCP server, its tool schemas and resources, and `load_data`/`save_data`. `tools/list` is reduced to the tool names.
- The database and ORM of the remote server. Queries are sequences of rows. The 10-row `limit` of the leaderboard is the caller's. `require_user`, `/api/log`, `/api/stats` and `/health` are not modelled.
- The Electron renderer messages, Notification, showing and recreating windows, IPC (`setupIPC`) and the tray icon drawing. The `/api/complete`, `/complete`, `/notify` and `/shutdown` routes of `electron/main.js` only log or forward, so they are left out. So is `/exercises/:name.json`, which serves a file if it exists.
- Unicode: `isalnum`, `lower` and `strip` are modelled on ASCII, and JavaScript's `sort` is modelled as code-point order. This is exact for engine names, labels and the exercise names in use.
- RemoteServer.PyStr: a tool name that is a JSON list or object appears as "<container>" in the "Unknown tool" message, where Python's f-string would print its `str()` form; rendering containers in Python syntax is not modelled.
- Setup.CreateAccount: the exceptions other than `HTTPError`, `URLError`, `JSONDecodeError` and `KeyError` are not modelled as outcomes. These are a `ValueError` from `Request` for a malformed URL, a timeout while reading the answer, and a `UnicodeDecodeError` from `.decode()` (vibereps_setup.py:58-66). Each escapes `create_account`, and the setup run exits with status 1 as any uncaught exception does.
- Common.Strip: removes the six ASCII whitespace characters that Python's `strip` and JavaScript's `trim` share (space, \t, \n, \v, \f, \r). Python's `strip` also removes the separators \x1c to \x1f, and both remove non-ASCII spaces; neither case is modelled.
- Field types the sources do not check. Usage log fields other than a string timestamp and exercise and an integer reps are not modelled. Neither are session contexts that are not JSON objects, or `ccusage` documents that are not objects.
- `is_local_logging_enabled` and `get_display_name` in `vibereps_config.py`: both are single lookups on the loaded configuration.
- Usage.Main: `args.remove("--exercises-only")` is not modelled, because with that flag `ccusage` is never run and the remaining arguments are not used.
- SessionManager.CountsOfCorrect: assumes no session's status is literally "total". Such a status would share the `total` bucket, and `main.js` never sets one.
- SessionManager.UpdateActivity: the activity log entry keeps the report's fields and time, not a spread copy of arbitrary extra fields.
- Hook.HandleHook: task_complete's five-minute wait for completion is the `completion` parameter. Shutting the server down after the wait is not modelled.
- Hook.HandleHook: operating-system failures while writing the lock file or spawning the daemon, which would raise, are not modelled; only the port being taken and the completion summary can crash a run.
- Hook.ListExitCode: a truthy description that is a dict is taken to raise `TypeError` on slicing, as before Python 3.12. From Python 3.12 on, slicing a dict raises `KeyError`, which the loop catches.
- McpStats.AverageReps: `sum / len` is float division, so for sums beyond 2^53 the float result may round differently from the exact truncated quotient the model gives.
- NodeTracker.Serve and NodeTracker.Route: a completion sends a request to the Pushgateway (by default http://localhost:9091, src/tracker.js:20 and 148-153), and to the remote API when it is configured, without an 'error' listener. When a connection is refused, the process exits with status 1. Otherwise it exits 0 one second after the completion (src/tracker.js:179-182). Neither exit is modelled, so requests after a completion are still served.
- Hook.ExerciseFileReply: whether the resolved path stays inside the exercises directory is the `resolvesInside` parameter.

## Findings

| source | as written | input that shows it | evidently intended | confidence | as-written member | corrected member |
|---|---|---|---|---|---|---|
| track_project.py:58 | `url.split("/")[-1].replace(".git", "")` removes every ".git" in the last segment | remote "org/.github.git" gives the repository name "hub" | remove only a trailing ".git", giving ".github" | not executed | TrackProject.RepoNameAsWritten (RepoNameAsWrittenMangles) | TrackProject.RepoName (RepoNameRecovers), used by GetGitInfoIntended; VersionsDisagreeOnDotGithub compares the two |

=== FILE: common.dfy ===
/**
 * Shared vocabulary for the VibeReps model: optional values, a JSON value
 * type, the string operations the scripts use (split, join, strip, replace,
 * prefix tests, decimal rendering) and a stable lexicographic sort.
 *
 * Strings are `seq<char>`; characters compare by code point, which is how
 * Python orders `str` values.
 */
module Common {

  datatype Option<+T> = None | Some(value: T) {
    function GetOr(default: T): T {
      match this
      case Some(v) => v
      case None => default
    }
  }

  /** The outcome of an operation that can fail with an error of type `E`. */
  datatype Result<+T, +E> = Ok(value: T) | Err(error: E)

  /** A parsed JSON document. Objects are unordered maps. */
  datatype Value =
    | VNull
    | VBool(b: bool)
    | VInt(i: int)
    | VStr(s: string)
    | VList(items: seq<Value>)
    | VObj(fields: map<string, Value>)

  /** JavaScript truthiness of a JSON value (`if (x)`, `x || d`): objects and arrays are truthy. */
  predicate JsTruthy(v: Value) {
    match v
    case VNull => false
    case VBool(b) => b
    case VInt(i) => i != 0
    case VStr(s) => s != ""
    case VList(_) => true
    case VObj(_) => true
  }

  /** Python truthiness of a JSON value (`if x:`). */
  predicate PyTruthy(v: Value) {
    match v
    case VNull => false
    case VBool(b) => b
    case VInt(i) => i != 0
    case VStr(s) => s != ""
    case VList(items) => items != []
    case VObj(fields) => fields != map[]
  }

  /** `d.get(key, default)` on a dictionary. */
  function GetOr(fields: map<string, Value>, key: string, default: Value): Value {
    if key in fields then fields[key] else default
  }

  // ---------------------------------------------------------------------
  // Prefixes, suffixes, infixes

  predicate StartsWith(s: string, prefix: string) {
    |prefix| <= |s| && s[..|prefix|] == prefix
  }

  predicate EndsWith(s: string, suffix: string) {
    |suffix| <= |s| && s[|s| - |suffix|..] == suffix
  }

  /** `needle in haystack` for Python strings. */
  predicate IsInfix(needle: string, haystack: string) {
    exists k | 0 <= k <= |haystack| :: OccursAt(needle, haystack, k)
  }

  /** `needle` occurs in `haystack` starting at index `k`. */
  predicate OccursAt(needle: string, haystack: string, k: int) {
    0 <= k <= |haystack| - |needle| && haystack[k..k + |needle|] == needle
  }

  /** A suffix is an infix. */
  lemma SuffixIsInfix(needle: string, haystack: string)
    ensures EndsWith(haystack, needle) ==> IsInfix(needle, haystack)
  {
    if EndsWith(haystack, needle) {
      assert OccursAt(needle, haystack, |haystack| - |needle|);
    }
  }

  // ---------------------------------------------------------------------
  // Split and join on a single-character separator

  /**
   * `s.split(c)` in Python and JavaScript: the pieces between separators,
   * always at least one (an empty string splits into `[""]`).
   */
  function Split(s: string, c: char): (parts: seq<string>)
    ensures |parts| >= 1
    ensures forall i :: 0 <= i < |parts| ==> c !in parts[i]
  {
    if |s| == 0 then [""]
    else
      var rest := Split(s[1..], c);
      if s[0] == c then [""] + rest
      else [[s[0]] + rest[0]] + rest[1..]
  }

  /** `sep.join(parts)`. */
  function Join(parts: seq<string>, sep: string): string {
    if |parts| == 0 then ""
    else if |parts| == 1 then parts[0]
    else parts[0] + sep + Join(parts[1..], sep)
  }

  /** Splitting and re-joining on the same separator gives back the input. */
  lemma {:induction false} JoinSplit(s: string, c: char)
    ensures Join(Split(s, c), [c]) == s
  {
    if |s| == 0 {
    } else {
      var rest := Split(s[1..], c);
      JoinSplit(s[1..], c);
      assert Join(rest, [c]) == s[1..];
      if s[0] == c {
        assert Split(s, c) == [""] + rest;
        assert Join([""] + rest, [c]) == "" + [c] + Join(rest, [c]);
      } else {
        assert Split(s, c) == [[s[0]] + rest[0]] + rest[1..];
        JoinExtendsFirst(s[0], rest, [c]);
        assert s == [s[0]] + s[1..];
      }
    }
  }

  /** Putting a character in front of the first part puts it in front of the joined string. */
  lemma JoinExtendsFirst(x: char, parts: seq<string>, sep: string)
    requires |parts| >= 1
    ensures Join([[x] + parts[0]] + parts[1..], sep) == [x] + Join(parts, sep)
  {
    var first := [[x] + parts[0]] + parts[1..];
    if |parts| > 1 {
      assert first[1..] == parts[1..];
      assert Join(first, sep) == ([x] + parts[0]) + sep + Join(parts[1..], sep);
    }
  }

  /** A piece without the separator splits into itself. */
  lemma {:induction false} SplitNoSeparator(x: string, c: char)
    requires c !in x
    ensures Split(x, c) == [x]
  {
    if |x| > 0 {
      SplitNoSeparator(x[1..], c);
      assert [x[0]] + x[1..] == x;
    }
  }

  /** Splitting `x + c + y` with `c` not in `x` yields `x` followed by the pieces of `y`. */
  lemma {:induction false} SplitAtFirst(x: string, y: string, c: char)
    requires c !in x
    ensures Split(x + [c] + y, c) == [x] + Split(y, c)
  {
    var s := x + [c] + y;
    if |x| == 0 {
      assert s[1..] == y;
    } else {
      assert s[1..] == x[1..] + [c] + y;
      SplitAtFirst(x[1..], y, c);
      assert [x[0]] + x[1..] == x;
    }
  }

  /** Joining pieces that do not contain the separator and splitting again gives the pieces back. */
  lemma {:induction false} SplitJoin(parts: seq<string>, c: char)
    requires |parts| >= 1
    requires forall i :: 0 <= i < |parts| ==> c !in parts[i]
    ensures Split(Join(parts, [c]), c) == parts
  {
    if |parts| == 1 {
      SplitNoSeparator(parts[0], c);
    } else {
      SplitJoin(parts[1..], c);
      SplitAtFirst(parts[0], Join(parts[1..], [c]), c);
      assert parts == [parts[0]] + parts[1..];
    }
  }

  /** Every character of an infix occurs in the string that contains it. */
  lemma InfixChars(needle: string, haystack: string)
    requires IsInfix(needle, haystack)
    ensures forall ch :: ch in needle ==> ch in haystack
  {
    var k :| 0 <= k <= |haystack| && OccursAt(needle, haystack, k);
    forall ch | ch in needle ensures ch in haystack {
      var i :| 0 <= i < |needle| && needle[i] == ch;
      assert haystack[k + i] == ch;
    }
  }

  /** The part of `s` before the first `c` (all of `s` when there is none). */
  function BeforeFirst(s: string, c: char): (r: string)
    ensures |r| <= |s| && r == s[..|r|]
    ensures c !in r
    ensures c in s ==> |r| < |s| && s[|r|] == c
    ensures c !in s ==> r == s
  {
    if |s| == 0 then ""
    else if s[0] == c then ""
    else
      var rest := BeforeFirst(s[1..], c);
      assert c in s ==> c in s[1..];
      [s[0]] + rest
  }

  /** `s.split(c)[0]` is the part before the first separator. */
  lemma {:induction false} SplitHead(s: string, c: char)
    ensures Split(s, c)[0] == BeforeFirst(s, c)
  {
    if |s| > 0 && s[0] != c {
      SplitHead(s[1..], c);
    }
  }

  /** `[e.strip() for e in parts]`. */
  function StripAll(parts: seq<string>): (r: seq<string>)
    ensures |r| == |parts|
    ensures forall i :: 0 <= i < |r| ==> r[i] == Strip(parts[i])
  {
    seq(|parts|, i requires 0 <= i < |parts| => Strip(parts[i]))
  }

  /** The last piece of `s.split(c)`: everything after the last `c`. */
  function LastSegment(s: string, c: char): (r: string)
    ensures c !in r
    ensures EndsWith(s, r)
    ensures |r| < |s| ==> s[|s| - |r| - 1] == c
  {
    if |s| == 0 then ""
    else if s[|s| - 1] == c then ""
    else
      var r' := LastSegment(s[..|s| - 1], c);
      assert s[..|s| - 1][|s| - 1 - |r'|..] == r';
      assert s[|s| - |r' + [s[|s| - 1]]|..] == r' + [s[|s| - 1]];
      r' + [s[|s| - 1]]
  }

  // ---------------------------------------------------------------------
  // Whitespace and case

  /** ASCII whitespace as stripped by `str.strip()` / `String.prototype.trim`. */
  predicate IsSpace(c: char) {
    c == ' ' || c == '\t' || c == '\n' || c == '\r' || c == '\U{B}' || c == '\U{C}'
  }

  function TrimLeft(s: string): (r: string)
    ensures |r| <= |s| && r == s[|s| - |r|..]
    ensures |r| > 0 ==> !IsSpace(r[0])
    ensures forall i :: 0 <= i < |s| - |r| ==> IsSpace(s[i])
  {
    if |s| > 0 && IsSpace(s[0]) then TrimLeft(s[1..]) else s
  }

  function TrimRight(s: string): (r: string)
    ensures |r| <= |s| && r == s[..|r|]
    ensures |r| > 0 ==> !IsSpace(r[|r| - 1])
    ensures forall i :: |r| <= i < |s| ==> IsSpace(s[i])
  {
    if |s| > 0 && IsSpace(s[|s| - 1]) then TrimRight(s[..|s| - 1]) else s
  }

  /** `s.strip()`: no leading or trailing whitespace, and nothing else removed. */
  function Strip(s: string): (r: string)
    ensures |r| > 0 ==> !IsSpace(r[0]) && !IsSpace(r[|r| - 1])
    ensures IsInfix(r, s)
    ensures r == "" <==> forall i :: 0 <= i < |s| ==> IsSpace(s[i])
  {
    var left := TrimLeft(s);
    var both := TrimRight(left);
    assert s[|s| - |left|..][..|both|] == both;
    assert OccursAt(both, s, |s| - |left|);
    assert both == "" ==> forall i :: 0 <= i < |s| ==> IsSpace(s[i]) by {
      if both == "" {
        assert left == "";
      }
    }
    both
  }

  /** A string that neither starts nor ends with whitespace is its own strip. */
  lemma StripKeepsClean(s: string)
    requires |s| > 0 && !IsSpace(s[0]) && !IsSpace(s[|s| - 1])
    ensures Strip(s) == s
  {
    assert TrimLeft(s) == s;
  }

  /** Stripping twice is stripping once. */
  lemma StripIdempotent(s: string)
    ensures Strip(Strip(s)) == Strip(s)
  {
    if Strip(s) != "" {
      StripKeepsClean(Strip(s));
    }
  }

  /** Leading whitespace in front of a non-blank start is exactly what TrimLeft removes. */
  lemma {:induction false} TrimLeftPadding(pad: string, core: string)
    requires forall i :: 0 <= i < |pad| ==> IsSpace(pad[i])
    requires |core| > 0 && !IsSpace(core[0])
    ensures TrimLeft(pad + core) == core
  {
    if |pad| > 0 {
      assert (pad + core)[1..] == pad[1..] + core;
      TrimLeftPadding(pad[1..], core);
    }
  }

  /** Trailing whitespace after a non-blank end is exactly what TrimRight removes. */
  lemma {:induction false} TrimRightPadding(core: string, pad: string)
    requires forall i :: 0 <= i < |pad| ==> IsSpace(pad[i])
    requires |core| > 0 && !IsSpace(core[|core| - 1])
    ensures TrimRight(core + pad) == core
  {
    if |pad| > 0 {
      var init := pad[..|pad| - 1];
      assert (core + pad)[..|core + pad| - 1] == core + init;
      TrimRightPadding(core, init);
    } else {
      assert core + pad == core;
    }
  }

  /** `strip()` removes whitespace padding on both sides and nothing of the text between. */
  lemma StripPadding(left: string, core: string, right: string)
    requires forall i :: 0 <= i < |left| ==> IsSpace(left[i])
    requires forall i :: 0 <= i < |right| ==> IsSpace(right[i])
    requires |core| > 0 && !IsSpace(core[0]) && !IsSpace(core[|core| - 1])
    ensures Strip(left + core + right) == core
  {
    assert left + core + right == left + (core + right);
    TrimLeftPadding(left, core + right);
    TrimRightPadding(core, right);
  }

  /** ASCII lower-casing, character by character. */
  function LowerChar(c: char): char {
    if 'A' <= c <= 'Z' then (c as int + 32) as char else c
  }

  function Lower(s: string): (r: string)
    ensures |r| == |s|
    ensures forall i :: 0 <= i < |s| ==> r[i] == LowerChar(s[i])
  {
    if |s| == 0 then "" else [LowerChar(s[0])] + Lower(s[1..])
  }

  // ---------------------------------------------------------------------
  // Replacement

  /**
   * Python `s.replace(old, new)`: every non-overlapping occurrence of `old`,
   * scanning left to right, is replaced by `new`.
   */
  function ReplaceAll(s: string, pat: string, rep: string): (r: string)
    requires |pat| > 0
    ensures !IsInfix(pat, s) ==> r == s
    decreases |s|
  {
    if |s| < |pat| then
      s
    else if s[..|pat|] == pat then
      assert OccursAt(pat, s, 0);
      rep + ReplaceAll(s[|pat|..], pat, rep)
    else
      InfixOfTail(pat, s);
      [s[0]] + ReplaceAll(s[1..], pat, rep)
  }

  /** JavaScript `s.replace(pat, rep)` with a string pattern: only the first occurrence. */
  function ReplaceFirst(s: string, pat: string, rep: string): (r: string)
    requires |pat| > 0
    ensures !IsInfix(pat, s) ==> r == s
    ensures StartsWith(s, pat) ==> r == rep + s[|pat|..]
    decreases |s|
  {
    if |s| < |pat| then s
    else if s[..|pat|] == pat then
      assert OccursAt(pat, s, 0);
      rep + s[|pat|..]
    else
      InfixOfTail(pat, s);
      [s[0]] + ReplaceFirst(s[1..], pat, rep)
  }

  /** Replacing never introduces a character that was in neither the input nor the replacement. */
  lemma {:induction false} ReplaceAllChars(s: string, pat: string, rep: string, ch: char)
    requires |pat| > 0
    requires ch !in s && ch !in rep
    ensures ch !in ReplaceAll(s, pat, rep)
    decreases |s|
  {
    if |s| >= |pat| {
      if s[..|pat|] == pat {
        assert forall i :: 0 <= i < |s[|pat|..]| ==> s[|pat|..][i] == s[|pat| + i];
        ReplaceAllChars(s[|pat|..], pat, rep, ch);
      } else {
        assert forall i :: 0 <= i < |s[1..]| ==> s[1..][i] == s[1 + i];
        ReplaceAllChars(s[1..], pat, rep, ch);
      }
    }
  }

  /** Replacing a single character by text without it removes every occurrence. */
  lemma {:induction false} ReplaceAllRemoves(s: string, c: char, rep: string)
    requires c !in rep
    ensures c !in ReplaceAll(s, [c], rep)
    decreases |s|
  {
    if |s| >= 1 {
      if s[..1] == [c] {
        ReplaceAllRemoves(s[1..], c, rep);
      } else {
        assert s[0] != c;
        ReplaceAllRemoves(s[1..], c, rep);
      }
    }
  }

  /** Replacing a single character by a single character maps the string character by character. */
  lemma {:induction false} ReplaceCharMaps(s: string, c: char, d: char)
    ensures ReplaceAll(s, [c], [d]) == seq(|s|, i requires 0 <= i < |s| => if s[i] == c then d else s[i])
    decreases |s|
  {
    var mapped := seq(|s|, i requires 0 <= i < |s| => if s[i] == c then d else s[i]);
    if |s| >= 1 {
      ReplaceCharMaps(s[1..], c, d);
      var head := if s[0] == c then d else s[0];
      assert mapped == [head] + mapped[1..];
    }
  }

  lemma InfixOfTail(pat: string, s: string)
    requires |s| > 0
    ensures IsInfix(pat, s[1..]) ==> IsInfix(pat, s)
  {
    if IsInfix(pat, s[1..]) {
      var k :| 0 <= k <= |s[1..]| && OccursAt(pat, s[1..], k);
      assert s[1..][k..k + |pat|] == s[k + 1..k + 1 + |pat|];
      assert OccursAt(pat, s, k + 1);
    }
  }

  // ---------------------------------------------------------------------
  // Decimal rendering

  function DigitChar(d: nat): (c: char)
    requires d < 10
    ensures '0' <= c <= '9'
  {
    ['0', '1', '2', '3', '4', '5', '6', '7', '8', '9'][d]
  }

  /** The decimal digits of `n`, without leading zeros. */
  function NatToString(n: nat): (r: string)
    ensures |r| >= 1
    ensures forall i :: 0 <= i < |r| ==> '0' <= r[i] <= '9'
    ensures |r| > 1 ==> r[0] != '0'
  {
    if n < 10 then [DigitChar(n)] else NatToString(n / 10) + [DigitChar(n % 10)]
  }

  /** `str(i)` / `${i}` for an integer. */
  function IntToString(i: int): (r: string)
    ensures |r| >= 1
    ensures i < 0 <==> r[0] == '-'
  {
    if i < 0 then "-" + NatToString(-i) else NatToString(i)
  }

  /** Different numbers have different decimal renderings. */
  lemma {:induction false} NatToStringInjective(a: nat, b: nat)
    requires NatToString(a) == NatToString(b)
    ensures a == b
  {
    if a >= 10 && b >= 10 {
      var ra, rb := NatToString(a), NatToString(b);
      var n := |ra| - 1;
      assert ra[..n] == NatToString(a / 10) && ra[n] == DigitChar(a % 10);
      assert rb[..n] == NatToString(b / 10) && rb[n] == DigitChar(b % 10);
      DigitCharInjective(a % 10, b % 10);
      NatToStringInjective(a / 10, b / 10);
      DivModEqual(a, b);
    } else if a < 10 && b < 10 {
      DigitCharInjective(a, b);
    }
  }

  lemma DigitCharInjective(x: nat, y: nat)
    requires x < 10 && y < 10 && DigitChar(x) == DigitChar(y)
    ensures x == y
  {
  }

  lemma DivModEqual(a: nat, b: nat)
    requires a / 10 == b / 10 && a % 10 == b % 10
    ensures a == b
  {
    assert a == 10 * (a / 10) + a % 10;
    assert b == 10 * (b / 10) + b % 10;
  }

  /** Different integers have different renderings. */
  lemma IntToStringInjective(a: int, b: int)
    requires IntToString(a) == IntToString(b)
    ensures a == b
  {
    if a < 0 {
      assert IntToString(a)[1..] == NatToString(-a);
      assert IntToString(b)[1..] == NatToString(-b);
      NatToStringInjective(-a, -b);
    } else {
      NatToStringInjective(a, b);
    }
  }

  // ---------------------------------------------------------------------
  // Lexicographic order and a stable insertion sort

  /** Code-point lexicographic order on strings (Python's `<=` on `str`). */
  predicate LexLe(a: string, b: string) {
    |a| == 0 || (|b| > 0 && (a[0] < b[0] || (a[0] == b[0] && LexLe(a[1..], b[1..]))))
  }

  lemma {:induction false} LexLeTotal(a: string, b: string)
    ensures LexLe(a, b) || LexLe(b, a)
  {
    if |a| > 0 && |b| > 0 && a[0] == b[0] {
      LexLeTotal(a[1..], b[1..]);
    }
  }

  lemma {:induction false} LexLeTransitive(a: string, b: string, c: string)
    requires LexLe(a, b) && LexLe(b, c)
    ensures LexLe(a, c)
  {
    if |a| > 0 && a[0] == b[0] && b[0] == c[0] {
      LexLeTransitive(a[1..], b[1..], c[1..]);
    }
  }

  lemma {:induction false} LexLeAntisymmetric(a: string, b: string)
    requires LexLe(a, b) && LexLe(b, a)
    ensures a == b
  {
    if |a| > 0 {
      LexLeAntisymmetric(a[1..], b[1..]);
      assert a == [a[0]] + a[1..];
      assert b == [b[0]] + b[1..];
    }
  }

  predicate SortedBy<T>(s: seq<T>, key: T -> string) {
    forall i, j :: 0 <= i < j < |s| ==> LexLe(key(s[i]), key(s[j]))
  }

  function InsertBy<T(==)>(x: T, s: seq<T>, key: T -> string): (r: seq<T>)
    requires SortedBy(s, key)
    ensures SortedBy(r, key)
    ensures multiset(r) == multiset(s) + multiset{x}
    ensures |r| == |s| + 1
    ensures forall i :: 0 <= i < |r| ==> r[i] == x || r[i] in s
  {
    if |s| == 0 then [x]
    else if LexLe(key(x), key(s[0])) then
      BelowSortedHead(x, s, key);
      ConsSortedBy(x, s, key);
      [x] + s
    else
      LexLeTotal(key(x), key(s[0]));
      SortedByTail(s, key);
      var tail := InsertBy(x, s[1..], key);
      HeadBelowTail(s, tail, x, key);
      ConsSortedBy(s[0], tail, key);
      assert s == [s[0]] + s[1..];
      [s[0]] + tail
  }

  /** The tail of a sorted sequence is sorted, and its head comes no later than any of it. */
  lemma SortedByTail<T>(s: seq<T>, key: T -> string)
    requires |s| > 0 && SortedBy(s, key)
    ensures SortedBy(s[1..], key)
    ensures forall y :: y in s[1..] ==> LexLe(key(s[0]), key(y))
  {
    forall y | y in s[1..] ensures LexLe(key(s[0]), key(y)) {
      var k :| 0 <= k < |s[1..]| && s[1..][k] == y;
      assert s[k + 1] == y;
    }
  }

  /** Whatever comes no later than the head of a sorted sequence comes no later than all of it. */
  lemma BelowSortedHead<T>(x: T, s: seq<T>, key: T -> string)
    requires |s| > 0 && SortedBy(s, key) && LexLe(key(x), key(s[0]))
    ensures forall y :: y in s ==> LexLe(key(x), key(y))
  {
    forall y | y in s ensures LexLe(key(x), key(y)) {
      var j :| 0 <= j < |s| && s[j] == y;
      if j > 0 {
        LexLeTransitive(key(x), key(s[0]), key(s[j]));
      }
    }
  }

  /** The head of `s` comes no later than anything inserted after it. */
  lemma HeadBelowTail<T>(s: seq<T>, tail: seq<T>, x: T, key: T -> string)
    requires |s| > 0 && LexLe(key(s[0]), key(x))
    requires forall y :: y in s[1..] ==> LexLe(key(s[0]), key(y))
    requires forall i :: 0 <= i < |tail| ==> tail[i] == x || tail[i] in s[1..]
    ensures forall y :: y in tail ==> LexLe(key(s[0]), key(y))
  {
  }

  /** An element that comes no later than everything in a sorted sequence can go in front. */
  lemma ConsSortedBy<T>(h: T, rest: seq<T>, key: T -> string)
    requires SortedBy(rest, key)
    requires forall y :: y in rest ==> LexLe(key(h), key(y))
    ensures SortedBy([h] + rest, key)
  {
    var r := [h] + rest;
    forall i, j | 0 <= i < j < |r| ensures LexLe(key(r[i]), key(r[j])) {
      assert r[j] == rest[j - 1] && r[j] in rest;
      if i > 0 {
        assert r[i] == rest[i - 1];
      }
    }
  }

  /** A stable sort of `s` by `key`: sorted, and a permutation of its input. */
  function SortBy<T(==)>(s: seq<T>, key: T -> string): (r: seq<T>)
    ensures SortedBy(r, key)
    ensures multiset(r) == multiset(s)
    ensures |r| == |s|
  {
    if |s| == 0 then []
    else
      assert s == [s[0]] + s[1..];
      InsertBy(s[0], SortBy(s[1..], key), key)
  }

  /** `sorted(strings)`. */
  function SortStrings(s: seq<string>): (r: seq<string>)
    ensures multiset(r) == multiset(s)
    ensures forall i, j :: 0 <= i < j < |r| ==> LexLe(r[i], r[j])
  {
    SortBy(s, (x: string) => x)
  }

  // ---------------------------------------------------------------------
  // Sequence helpers

  /** The distinct elements of `s`, in order of first occurrence. */
  function Dedup<T(==, !new)>(s: seq<T>): (r: seq<T>)
    ensures forall x :: x in r <==> x in s
    ensures forall i, j :: 0 <= i < j < |r| ==> r[i] != r[j]
  {
    if |s| == 0 then []
    else
      var r' := Dedup(s[..|s| - 1]);
      assert s == s[..|s| - 1] + [s[|s| - 1]];
      if s[|s| - 1] in r' then r' else r' + [s[|s| - 1]]
  }

  predicate Distinct<T(==)>(s: seq<T>) {
    forall i, j :: 0 <= i < j < |s| ==> s[i] != s[j]
  }

  /** `r` is `s` with some elements left out and the rest in their original order. */
  predicate IsSubsequence<T(==)>(r: seq<T>, s: seq<T>)
    decreases |s|
  {
    |r| == 0 || (|s| > 0 && ((r[0] == s[0] && IsSubsequence(r[1..], s[1..])) || IsSubsequence(r, s[1..])))
  }

  /** Every sequence is a subsequence of itself. */
  lemma {:induction false} SubsequenceOfItself<T>(s: seq<T>)
    ensures IsSubsequence(s, s)
    decreases |s|
  {
    if |s| > 0 {
      SubsequenceOfItself(s[1..]);
    }
  }

  /** `[x for x in s if p(x)]`: order kept, membership exactly the elements satisfying `p`. */
  function Filter<T(==, !new)>(s: seq<T>, p: T -> bool): (r: seq<T>)
    ensures |r| <= |s|
    ensures forall x :: x in r <==> x in s && p(x)
    ensures IsSubsequence(r, s)
    ensures Distinct(s) ==> Distinct(r)
  {
    if |s| == 0 then []
    else
      var rest := Filter(s[1..], p);
      assert s[0] !in s[1..] ==> s[0] !in rest;
      if p(s[0]) then [s[0]] + rest else rest
  }

  /** Filtering keeps every element satisfying `p` as often as it occurs, and no other element. */
  lemma {:induction false} FilterCounts<T(!new)>(s: seq<T>, p: T -> bool, x: T)
    ensures Count(Filter(s, p), x) == if p(x) then Count(s, x) else 0
  {
    if |s| > 0 {
      FilterCounts(s[1..], p, x);
      var rest := Filter(s[1..], p);
      if p(s[0]) {
        assert ([s[0]] + rest)[1..] == rest;
      }
    }
  }

  /** Each element of a sequence without repetitions occurs in its multiset once. */
  lemma {:induction false} DistinctMultiplicity<T>(s: seq<T>, x: T)
    requires Distinct(s)
    ensures multiset(s)[x] <= 1
  {
    if |s| > 0 {
      var init := s[..|s| - 1];
      assert s == init + [s[|s| - 1]];
      DistinctMultiplicity(init, x);
      if x == s[|s| - 1] {
        assert x !in init;
      }
    }
  }

  /** A rearrangement of a sequence without repetitions has none either. */
  lemma PermutationKeepsDistinct<T>(s: seq<T>, r: seq<T>)
    requires Distinct(s) && multiset(r) == multiset(s)
    ensures Distinct(r)
  {
    forall i, j | 0 <= i < j < |r| ensures r[i] != r[j] {
      if r[i] == r[j] {
        assert r == r[..j] + [r[j]] + r[j + 1..];
        assert r[i] in r[..j];
        assert multiset(r)[r[i]] >= 2;
        DistinctMultiplicity(s, r[i]);
      }
    }
  }

  /** A sequence without repetitions has as many elements as the set of its elements. */
  lemma {:induction false} DistinctCardinality<T>(s: seq<T>)
    requires Distinct(s)
    ensures |set x | x in s| == |s|
  {
    if |s| > 0 {
      var init := s[..|s| - 1];
      DistinctCardinality(init);
      assert (set x | x in s) == (set x | x in init) + {s[|s| - 1]};
      assert s[|s| - 1] !in init;
    }
  }

  /** Number of elements of `s` equal to `x` (`list.count(x)`). */
  function Count<T(==)>(s: seq<T>, x: T): (n: nat)
    ensures n <= |s|
    ensures n == 0 <==> x !in s
  {
    if |s| == 0 then 0 else (if s[0] == x then 1 else 0) + Count(s[1..], x)
  }

  /** The last `n` elements of `s` (`s[-n:]` when `s` is non-empty). */
  function LastN<T(==)>(s: seq<T>, n: nat): (r: seq<T>)
    ensures |r| == if |s| < n then |s| else n
    ensures EndsWithSeq(s, r)
  {
    if |s| <= n then s else s[|s| - n..]
  }

  predicate EndsWithSeq<T(==)>(s: seq<T>, suffix: seq<T>) {
    |suffix| <= |s| && s[|s| - |suffix|..] == suffix
  }
}

=== FILE: configure.dfy ===
/**
 * Detection-engine configuration (configure.py): loading `config.json`
 * over a default, choosing an engine from the numbered menu, and the
 * command-line options that set it directly.
 *
 * The file is given as its read-and-parse outcome and the typed menu
 * choice as a string; saving is modelled as the document written.
 */
module Configure {
  import opened Common

  /**
   * The configuration file: absent, unreadable (an I/O error, or bytes that
   * are not valid in the encoding the text is read with), not JSON, or parsed.
   */
  datatype ConfigFile = Missing | Unreadable | Malformed | Parsed(doc: Value)

  /**
   * The default configuration's engine table. The floating-point thresholds
   * (`min_detection_confidence`, `min_tracking_confidence`,
   * `score_threshold`, `confidence_threshold`) are not part of the model.
   */
  const DEFAULT_ENGINES: Value := VObj(map[
    "mediapipe" := VObj(map[
      "name" := VStr("MediaPipe"),
      "description" := VStr("Google's MediaPipe Pose - Best accuracy, requires internet for CDN"),
      "model_complexity" := VInt(1), "smooth_landmarks" := VBool(true)]),
    "tensorflow" := VObj(map[
      "name" := VStr("TensorFlow.js MoveNet"),
      "description" := VStr("TensorFlow.js MoveNet - Fast, good accuracy, works offline after first load"),
      "model_type" := VStr("lightning")]),
    "simple" := VObj(map[
      "name" := VStr("Simple Landmarks"),
      "description" := VStr("Basic landmark detection - Fastest, lower accuracy, minimal resources"),
      "smoothing" := VBool(true)])
  ])

  const DEFAULT_CONFIG: Value := VObj(map["detection_engine" := VStr("mediapipe"), "detection_engines" := DEFAULT_ENGINES])

  /**
   * `load_config()`: the parsed file, whatever its type, when it exists and
   * is JSON; the default when it is missing or not JSON. A read or decoding
   * error is not caught (`None`).
   */
  function LoadConfig(file: ConfigFile): (r: Option<Value>)
    ensures file.Parsed? ==> r == Some(file.doc)
    ensures file == Missing || file == Malformed ==> r == Some(DEFAULT_CONFIG)
    ensures r.None? <==> file == Unreadable
  {
    match file
    case Parsed(doc) => Some(doc)
    case Unreadable => None
    case _ => Some(DEFAULT_CONFIG)
  }

  /** Without a usable file the engine is MediaPipe. */
  lemma DefaultEngineIsMediaPipe(file: ConfigFile)
    requires file == Missing || file == Malformed
    ensures LoadConfig(file).value.VObj?
    ensures LoadConfig(file).value.fields["detection_engine"] == VStr("mediapipe")
  {
  }

  /** The numbered menu: choice to engine key. */
  const ENGINES: map<string, string> := map["1" := "mediapipe", "2" := "tensorflow", "3" := "simple"]

  /** The engines `--engine` accepts. */
  const ENGINE_KEYS: set<string> := {"mediapipe", "tensorflow", "simple"}

  /** The menu offers exactly the engines the command line accepts. */
  lemma MenuMatchesEngineKeys()
    ensures ENGINES.Values == ENGINE_KEYS
  {
    assert ENGINES["1"] in ENGINES.Values && ENGINES["2"] in ENGINES.Values && ENGINES["3"] in ENGINES.Values;
  }

  /**
   * `configure_detection_engine(config, choice)`: a choice of "1", "2" or
   * "3" sets `detection_engine` to the matching engine and reports a
   * change; any other choice, the empty one included, leaves the
   * configuration as it was.
   */
  function ConfigureDetectionEngine(config: map<string, Value>, choice: string): (r: (bool, map<string, Value>))
    ensures r.0 <==> choice in ENGINES
    ensures r.0 ==> r.1 == config["detection_engine" := VStr(ENGINES[choice])]
    ensures !r.0 ==> r.1 == config
    ensures r.1.Keys == config.Keys || r.1.Keys == config.Keys + {"detection_engine"}
    ensures r.0 ==> "detection_engine" in r.1 && r.1["detection_engine"].VStr? && r.1["detection_engine"].s in ENGINE_KEYS
  {
    if choice in ENGINES then (true, config["detection_engine" := VStr(ENGINES[choice])])
    else (false, config)
  }

  /** Choosing the same engine twice is the same as choosing it once. */
  lemma ChoiceIsIdempotent(config: map<string, Value>, choice: string)
    ensures ConfigureDetectionEngine(ConfigureDetectionEngine(config, choice).1, choice).1
      == ConfigureDetectionEngine(config, choice).1
  {
  }

  /** The engine currently selected, as the menu shows it (`config.get("detection_engine", "mediapipe")`). */
  function CurrentEngine(config: map<string, Value>): (v: Value)
    ensures "detection_engine" !in config ==> v == VStr("mediapipe")
  {
    GetOr(config, "detection_engine", VStr("mediapipe"))
  }

  /** After a valid choice the menu shows the chosen engine. */
  lemma ChosenEngineIsCurrent(config: map<string, Value>, choice: string)
    requires choice in ENGINES
    ensures CurrentEngine(ConfigureDetectionEngine(config, choice).1) == VStr(ENGINES[choice])
  {
  }

  /**
   * Whether `show_current_config(config)` gets through its lookups on an
   * object: `detection_engines` (default `{}`) must be an object, the
   * selected engine must be hashable (not a list or object), and the entry
   * it names, if any, must be an object.
   */
  predicate ShowSucceeds(fields: map<string, Value>) {
    var engine := GetOr(fields, "detection_engine", VStr("mediapipe"));
    var engines := GetOr(fields, "detection_engines", VObj(map[]));
    engines.VObj? && !engine.VList? && !engine.VObj?
    && (engine.VStr? && engine.s in engines.fields ==> engines.fields[engine.s].VObj?)
  }

  /** The default configuration can always be shown. */
  lemma DefaultConfigShows()
    ensures ShowSucceeds(DEFAULT_CONFIG.fields)
  {
  }

  /**
   * What `main` did: raised, exited with a status and the document saved
   * (if any), or went on to the interactive menu (not modelled).
   */
  datatype ConfigureRun = Raised | Exit(code: int, saved: Option<Value>) | InteractiveMenu

  /**
   * `main(args)` with the command-line options. `--engine NAME` lower-cases
   * the name and saves only an accepted engine, exiting 1 otherwise;
   * `--engine-prompt` applies the typed menu choice and saves either way;
   * `--help` touches nothing; `--show` only reads, and raises when the
   * configuration cannot be shown. Anything else, and
   * `--engine` without a name, goes to the interactive menu, which first
   * shows the configuration and so raises when `--show` would. Options that
   * touch a configuration that is not a JSON object raise.
   */
  function Main(args: seq<string>, file: ConfigFile, typedChoice: string): (r: ConfigureRun)
    ensures LoadConfig(file).None? ==> r == Raised
    ensures |args| > 0 && args[0] in ["--help", "-h"] && LoadConfig(file).Some? ==> r == Exit(0, None)
    ensures |args| > 1 && args[0] == "--engine" && LoadConfig(file).Some? && LoadConfig(file).value.VObj? ==>
      (Lower(args[1]) in ENGINE_KEYS ==>
         r == Exit(0, Some(VObj(LoadConfig(file).value.fields["detection_engine" := VStr(Lower(args[1]))]))))
      && (Lower(args[1]) !in ENGINE_KEYS ==> r == Exit(1, None))
    ensures |args| > 0 && args[0] == "--engine-prompt" && LoadConfig(file).Some? ==>
      (LoadConfig(file).value.VObj? ==>
         r == Exit(0, Some(VObj(ConfigureDetectionEngine(LoadConfig(file).value.fields, Strip(typedChoice)).1))))
      && (!LoadConfig(file).value.VObj? ==> r == Raised)
    ensures (|args| > 1 && args[0] == "--engine" && Lower(args[1]) in ENGINE_KEYS
             && LoadConfig(file).Some? && !LoadConfig(file).value.VObj?) ==> r == Raised
    ensures r.Exit? && r.saved.Some? ==> |args| > 0 && args[0] in ["--engine", "--engine-prompt"]
    ensures |args| > 0 && args[0] == "--show" && LoadConfig(file).Some? ==>
      (r == Exit(0, None) <==> LoadConfig(file).value.VObj? && ShowSucceeds(LoadConfig(file).value.fields))
    ensures r.Exit? && r.code == 1 ==> |args| > 1 && args[0] == "--engine" && r.saved.None?
    ensures (|args| > 0 && args[0] == "--show" && LoadConfig(file).Some? && r != Exit(0, None)) ==> r == Raised
    ensures r.Exit? ==> r.code == 0 || r.code == 1
    ensures r == InteractiveMenu <==>
      LoadConfig(file).Some? && LoadConfig(file).value.VObj? && ShowSucceeds(LoadConfig(file).value.fields)
      && (|args| == 0
        || (args[0] !in ["--help", "-h", "--show", "--engine", "--engine-prompt"])
        || (args[0] == "--engine" && |args| == 1))
    ensures (LoadConfig(file).Some? && !(LoadConfig(file).value.VObj? && ShowSucceeds(LoadConfig(file).value.fields))
             && (|args| == 0 || args[0] !in ["--help", "-h", "--show", "--engine", "--engine-prompt"])) ==> r == Raised
  {
    match LoadConfig(file)
    case None => Raised
    case Some(config) =>
      var menu := if config.VObj? && ShowSucceeds(config.fields) then InteractiveMenu else Raised;
      if |args| == 0 then menu
      else if args[0] in ["--help", "-h"] then Exit(0, None)
      else if args[0] == "--show" then
        (if config.VObj? && ShowSucceeds(config.fields) then Exit(0, None) else Raised)
      else if args[0] == "--engine" && |args| > 1 then
        var engine := Lower(args[1]);
        if engine in ENGINE_KEYS then
          (if config.VObj? then Exit(0, Some(VObj(config.fields["detection_engine" := VStr(engine)]))) else Raised)
        else Exit(1, None)
      else if args[0] == "--engine-prompt" then
        (if config.VObj? then Exit(0, Some(VObj(ConfigureDetectionEngine(config.fields, Strip(typedChoice)).1))) else Raised)
      else menu
  }

  /** The engine name on the command line is case-insensitive. */
  lemma EngineFlagIgnoresCase(file: ConfigFile, name: string)
    requires LoadConfig(file).Some? && LoadConfig(file).value.VObj?
    requires Lower(name) == "tensorflow"
    ensures Main(["--engine", name], file, "").saved.value.fields["detection_engine"] == VStr("tensorflow")
  {
  }

  /** An unknown engine name is refused before anything is written. */
  lemma UnknownEngineSavesNothing(file: ConfigFile, name: string, typedChoice: string)
    requires LoadConfig(file).Some?
    requires Lower(name) !in ENGINE_KEYS
    ensures Main(["--engine", name], file, typedChoice) == Exit(1, None)
  {
  }
}

=== FILE: electron_api.dfy ===
/**
 * The decisions the menubar app's HTTP API and tray make on top of the
 * session registry (electron/main.js): the JSON views `/api/status`,
 * `/status` and `/context`, the three session endpoints, the tray tooltip,
 * the camera-permission predicate and the `/exercises` catalogue listing.
 *
 * Responses are modelled by their content; Express plumbing, the window,
 * IPC and desktop notifications are not.
 */
module ElectronApi {
  import opened Common
  import opened SessionManager

  // ---------------------------------------------------------------------
  // Read-only views

  /** `sessions.some(s => s.status === 'complete')`. */
  predicate AnyComplete(all: seq<Session>) {
    exists i | 0 <= i < |all| :: all[i].status == COMPLETE
  }

  datatype ApiStatus = ApiStatus(activeSessions: nat, claudeComplete: bool, sessions: seq<Session>)

  /**
   * `GET /api/status`. `active_sessions` is the number of ALL sessions,
   * whatever their status; `claude_complete` holds iff some session is
   * complete.
   */
  function ApiStatusView(reg: Registry): (r: ApiStatus)
    requires Valid(reg)
    ensures r.activeSessions == |reg.byId|
    ensures r.claudeComplete <==> exists k :: k in reg.byId && reg.byId[k].status == COMPLETE
    ensures r.sessions == GetAll(reg)
  {
    var all := GetAll(reg);
    SessionCount(reg);
    assert (exists k :: k in reg.byId && reg.byId[k].status == COMPLETE) ==> AnyComplete(all) by {
      if k :| k in reg.byId && reg.byId[k].status == COMPLETE {
        var i :| 0 <= i < |reg.order| && reg.order[i] == k;
        assert all[i].status == COMPLETE;
      }
    }
    ApiStatus(|all|, AnyComplete(all), all)
  }

  datatype LegacyStatus = LegacyStatus(claudeComplete: bool, exerciseComplete: bool)

  /** `GET /status`: the same any-complete rule, and never an exercise completion. */
  function LegacyStatusView(reg: Registry): (r: LegacyStatus)
    requires Valid(reg)
    ensures !r.exerciseComplete
    ensures r.claudeComplete == ApiStatusView(reg).claudeComplete
  {
    LegacyStatus(AnyComplete(GetAll(reg)), false)
  }

  /** `GET /context`: the first session's context, or `{}` when there are none. */
  function ContextView(reg: Registry): (r: Context)
    requires Valid(reg)
    ensures reg.byId == map[] ==> r == map[]
    ensures reg.byId != map[] ==> r == reg.byId[reg.order[0]].context
  {
    var all := GetAll(reg);
    SessionCount(reg);
    if |all| > 0 then all[0].context else map[]
  }

  /** Registering further sessions never changes what `/context` shows once one exists. */
  lemma ContextStaysWithFirst(reg: Registry, id: Key, data: RegisterData, now: int)
    requires Valid(reg) && reg.byId != map[]
    requires id !in reg.byId
    ensures ContextView(Register(reg, id, data, now).0) == ContextView(reg)
  {
    var r := Register(reg, id, data, now).0;
    assert reg.order != [] by {
      var k :| k in reg.byId;
      assert k in reg.order;
    }
    assert r.order[0] == reg.order[0];
    assert reg.order[0] != id;
  }

  /**
   * The tray tooltip for a given number of "active" sessions: "VibeReps"
   * alone for none, otherwise "VibeReps - N Claude working", with "Claudes"
   * for more than one.
   */
  function TooltipText(activeCount: nat): (r: string)
    ensures r == "VibeReps" <==> activeCount == 0
    ensures EndsWith(r, "Claudes working") <==> activeCount > 1
    ensures activeCount > 0 ==> StartsWith(r, "VibeReps - " + IntToString(activeCount) + " Claude")
  {
    if activeCount > 0 then
      var head := "VibeReps - " + IntToString(activeCount) + " Claude";
      assert head[|head| - 7..] == " Claude";
      TooltipEnding(head, activeCount > 1);
      var r := head + (if activeCount > 1 then "s" else "") + " working";
      assert r[..|head|] == head;
      r
    else "VibeReps"
  }

  /** A single session reads "VibeReps - 1 Claude working". */
  lemma OneClaudeTooltip()
    ensures TooltipText(1) == "VibeReps - 1 Claude working"
  {
    assert IntToString(1) == "1";
  }

  /** After the count comes "Claudes working" exactly when the count is plural. */
  lemma TooltipEnding(head: string, plural: bool)
    requires EndsWith(head, " Claude")
    ensures EndsWith(head + (if plural then "s" else "") + " working", "Claudes working") <==> plural
  {
    var r := head + (if plural then "s" else "") + " working";
    if plural {
      assert r[|r| - 15..] == head[|head| - 6..] + "s working";
      assert head[|head| - 6..] == " Claude"[1..];
    } else {
      assert r[|r| - 15..] == head[|head| - 7..] + " working";
      assert r[|r| - 15] == ' ';
    }
  }

  /** `updateTrayTooltip()`: only sessions whose status is exactly "active" count. */
  function TrayTooltip(reg: Registry): (r: string)
    requires Valid(reg)
    ensures r == "VibeReps" <==> CountStatus(GetAll(reg), ACTIVE) == 0
    ensures EndsWith(r, "Claudes working") <==> CountStatus(GetAll(reg), ACTIVE) > 1
  {
    TooltipText(CountStatus(GetAll(reg), ACTIVE))
  }

  // ---------------------------------------------------------------------
  // Session endpoints

  /** The JSON body of `POST /api/session/register`; `None` is an absent field. */
  datatype RegisterBody = RegisterBody(sessionId: Option<string>, pid: Option<int>, context: Option<Context>)

  /** The id a registration is stored under: the given id, or "session-<now>" when missing or empty. */
  function RegisterKey(body: RegisterBody, now: int): (k: string)
    ensures Present(body.sessionId) ==> k == body.sessionId.value
    ensures !Present(body.sessionId) ==> StartsWith(k, "session-")
    ensures !Present(body.sessionId) ==> k[|"session-"|..] == IntToString(now)
  {
    if Present(body.sessionId) then body.sessionId.value else "session-" + IntToString(now)
  }

  /** Registrations without an id made at different times get different keys. */
  lemma DefaultKeysFollowTime(body1: RegisterBody, body2: RegisterBody, t1: int, t2: int)
    requires !Present(body1.sessionId) && !Present(body2.sessionId)
    ensures RegisterKey(body1, t1) == RegisterKey(body2, t2) <==> t1 == t2
  {
    if RegisterKey(body1, t1) == RegisterKey(body2, t2) {
      IntToStringInjective(t1, t2);
    }
  }

  /**
   * `POST /api/session/register`: always succeeds with a fresh "active"
   * session under the request's id (or "session-<timestamp>").
   */
  function HandleRegister(reg: Registry, body: RegisterBody, now: int): (r: (Registry, Session))
    ensures r.1.status == ACTIVE && r.1.id == Some(RegisterKey(body, now))
    ensures r.1.context == body.context.GetOr(map[]) && r.1.activityLog == []
    ensures r.0.byId == reg.byId[Some(RegisterKey(body, now)) := r.1]
    ensures Valid(reg) ==> Valid(r.0)
  {
    Register(reg, Some(RegisterKey(body, now)), RegisterData(body.pid, Some(body.context.GetOr(map[])), Some(ACTIVE)), now)
  }

  /** The JSON body of `POST /api/session/activity`. */
  datatype ActivityBody = ActivityBody(sessionId: Option<string>, toolName: Option<string>, filePath: Option<string>, context: Option<Context>)

  datatype ActivityReply = ActivityReply(reg: Registry, code: int, showWindow: bool, session: Session)

  /**
   * `POST /api/session/activity`. The window is shown iff the tool is Edit or
   * Write. The answer is always 200: `updateActivity` registers unknown
   * sessions, so the 404 branch of the handler cannot be taken.
   */
  function HandleActivity(reg: Registry, body: ActivityBody, now: int): (r: ActivityReply)
    ensures r.code == 200
    ensures r.showWindow <==> body.toolName == Some("Edit") || body.toolName == Some("Write")
    ensures body.sessionId in r.reg.byId && r.reg.byId[body.sessionId] == r.session
    ensures forall k :: k != body.sessionId ==> (k in r.reg.byId <==> k in reg.byId)
    ensures forall k :: k != body.sessionId && k in reg.byId ==> r.reg.byId[k] == reg.byId[k]
    ensures (r.reg, r.session) == UpdateActivity(reg, body.sessionId, Activity(body.toolName, body.filePath, body.context), now)
    ensures r.session.lastActivity == now
    ensures body.sessionId !in reg.byId ==> r.session.status == ACTIVE && r.session.activityLog == []
    ensures body.sessionId in reg.byId ==>
      r.session.status == StatusAfterActivity(reg.byId[body.sessionId].status)
      && r.session.createdAt == reg.byId[body.sessionId].createdAt
    ensures Valid(reg) ==> Valid(r.reg)
  {
    var (reg', session) := UpdateActivity(reg, body.sessionId, Activity(body.toolName, body.filePath, body.context), now);
    var show := Present(body.toolName) && body.toolName.value in ["Edit", "Write"];
    ActivityReply(reg', 200, show, session)
  }

  /**
   * A report from a session that was marked complete makes it active again,
   * so both status views stop reporting Claude as complete for it.
   */
  lemma ActivityAfterNotifyReactivates(reg: Registry, id: string, message: Option<string>,
                                       activity: ActivityBody, t1: int, t2: int)
    requires Valid(reg) && id != "" && Some(id) in reg.byId
    requires activity.sessionId == Some(id)
    ensures var notified := HandleNotify(reg, NotifyBody(Some(id), message), t1);
      notified.byId[Some(id)].status == COMPLETE
      && HandleActivity(notified, activity, t2).session.status == ACTIVE
      && HandleActivity(notified, activity, t2).reg.byId[Some(id)].status == ACTIVE
  {
    var notified := HandleNotify(reg, NotifyBody(Some(id), message), t1);
    assert Present(Some(id));
    assert StatusAfterActivity(COMPLETE) == ACTIVE;
  }

  /** The JSON body of `POST /api/notify`. */
  datatype NotifyBody = NotifyBody(sessionId: Option<string>, message: Option<string>)

  /**
   * `POST /api/notify`: marks the named session complete; without a
   * (non-empty) session id, or for an unknown one, the registry is unchanged.
   */
  function HandleNotify(reg: Registry, body: NotifyBody, now: int): (r: Registry)
    ensures !Present(body.sessionId) ==> r == reg
    ensures Present(body.sessionId) && body.sessionId !in reg.byId ==> r == reg
    ensures Present(body.sessionId) && body.sessionId in reg.byId ==>
      body.sessionId in r.byId && r.byId[body.sessionId].status == COMPLETE && r.order == reg.order
    ensures forall k :: k != body.sessionId ==> (k in r.byId <==> k in reg.byId)
    ensures forall k :: k != body.sessionId && k in reg.byId ==> r.byId[k] == reg.byId[k]
    ensures Valid(reg) ==> Valid(r)
  {
    if Present(body.sessionId) then MarkComplete(reg, body.sessionId, now).0 else reg
  }

  /** After a notify for a registered session, both status endpoints report Claude as complete. */
  lemma NotifyMakesStatusComplete(reg: Registry, id: string, now: int)
    requires Valid(reg) && Some(id) in reg.byId && id != ""
    ensures ApiStatusView(HandleNotify(reg, NotifyBody(Some(id), None), now)).claudeComplete
    ensures LegacyStatusView(HandleNotify(reg, NotifyBody(Some(id), None), now)).claudeComplete
  {
    var r := HandleNotify(reg, NotifyBody(Some(id), None), now);
    assert r.byId[Some(id)].status == COMPLETE;
  }

  // ---------------------------------------------------------------------
  // Permissions

  /**
   * The permission request and permission check handlers share one list:
   * camera/microphone media and media keys are granted, everything else is
   * refused.
   */
  function PermissionGranted(permission: string): (granted: bool)
    ensures granted <==> permission == "media" || permission == "mediaKeySystem"
  {
    var allowedPermissions := ["media", "mediaKeySystem"];
    permission in allowedPermissions
  }

  // ---------------------------------------------------------------------
  // GET /exercises

  /** A catalogue file that is listed: a `.json` name not starting with `_`. */
  predicate ListedFile(f: string) {
    EndsWith(f, ".json") && !StartsWith(f, "_")
  }

  /** The directory names the endpoint reads, filtered and sorted. */
  function ListedFiles(names: seq<string>): (r: seq<string>)
    ensures forall f :: f in r <==> f in names && ListedFile(f)
    ensures forall i, j :: 0 <= i < j < |r| ==> LexLe(r[i], r[j])
    ensures multiset(r) == multiset(Filter(names, ListedFile))
    ensures Distinct(names) ==> Distinct(r)
  {
    var kept := Filter(names, ListedFile);
    var r := SortStrings(kept);
    assert Distinct(names) ==> Distinct(r) by {
      if Distinct(names) { PermutationKeepsDistinct(kept, r); }
    }
    assert forall f :: f in r <==> f in multiset(r);
    assert forall f :: f in kept <==> f in multiset(kept);
    r
  }

  datatype ExerciseInfo = ExerciseInfo(id: Value, name: Value, description: Value, category: Value, reps: Value, file: string)

  /** `content.key` on a parsed JSON document (`VNull` stands for `undefined`). */
  function Field(content: Value, key: string): Value {
    if content.VObj? then GetOr(content.fields, key, VNull) else VNull
  }

  /** `a || b` on JSON values. */
  function JsOr(a: Value, b: Value): (r: Value)
    ensures JsTruthy(a) ==> r == a
    ensures !JsTruthy(a) ==> r == b
  {
    if JsTruthy(a) then a else b
  }

  const DEFAULT_REPS: Value := VObj(map["normal" := VInt(10), "quick" := VInt(5)])

  /**
   * The entry for one parsed file: missing or falsy fields fall back to the
   * file stem, "", "general" and `{normal: 10, quick: 5}`.
   */
  function ExerciseEntry(file: string, content: Value): (e: ExerciseInfo)
    ensures e.file == file
    ensures JsTruthy(Field(content, "id")) ==> e.id == Field(content, "id")
    ensures !JsTruthy(Field(content, "id")) ==> e.id == VStr(ReplaceFirst(file, ".json", ""))
    ensures JsTruthy(Field(content, "name")) ==> e.name == Field(content, "name")
    ensures !JsTruthy(Field(content, "name")) ==> e.name == VStr(ReplaceFirst(file, ".json", ""))
    ensures JsTruthy(Field(content, "description")) ==> e.description == Field(content, "description")
    ensures !JsTruthy(Field(content, "description")) ==> e.description == VStr("")
    ensures JsTruthy(Field(content, "category")) ==> e.category == Field(content, "category")
    ensures !JsTruthy(Field(content, "category")) ==> e.category == VStr("general")
    ensures JsTruthy(Field(content, "reps")) ==> e.reps == Field(content, "reps")
    ensures !JsTruthy(Field(content, "reps")) ==> e.reps == DEFAULT_REPS
  {
    var stem := VStr(ReplaceFirst(file, ".json", ""));
    ExerciseInfo(
      JsOr(Field(content, "id"), stem),
      JsOr(Field(content, "name"), stem),
      JsOr(Field(content, "description"), VStr("")),
      JsOr(Field(content, "category"), VStr("general")),
      JsOr(Field(content, "reps"), DEFAULT_REPS),
      file)
  }

  /** Whether a listed file was read and parsed to something other than `null`. */
  predicate Usable(f: string, contents: map<string, Option<Value>>) {
    f in contents && contents[f].Some? && contents[f].value != VNull
  }

  /**
   * The loop over listed files: a file whose content could not be read or
   * parsed (`None`), or parsed to `null`, is skipped; the rest keep order.
   */
  function EntriesFor(files: seq<string>, contents: map<string, Option<Value>>): (r: seq<ExerciseInfo>)
    ensures |r| <= |files|
    ensures forall e :: e in r ==>
      (e.file in files && Usable(e.file, contents) && e == ExerciseEntry(e.file, contents[e.file].value))
    ensures forall f :: f in files && Usable(f, contents) ==> ExerciseEntry(f, contents[f].value) in r
    ensures Distinct(files) ==> forall i, j :: 0 <= i < j < |r| ==> r[i].file != r[j].file
  {
    if |files| == 0 then []
    else
      var rest := EntriesFor(files[1..], contents);
      var f := files[0];
      assert forall g :: g in files[1..] ==> g in files;
      assert forall g :: g in files ==> g == f || g in files[1..];
      if Usable(f, contents) then [ExerciseEntry(f, contents[f].value)] + rest else rest
  }

  /** Entries built from a sorted listing come out sorted by file. */
  lemma {:induction false} EntriesSorted(files: seq<string>, contents: map<string, Option<Value>>)
    requires forall i, j :: 0 <= i < j < |files| ==> LexLe(files[i], files[j])
    ensures forall i, j :: 0 <= i < j < |EntriesFor(files, contents)| ==>
      LexLe(EntriesFor(files, contents)[i].file, EntriesFor(files, contents)[j].file)
  {
    if |files| > 0 {
      var r := EntriesFor(files, contents);
      var rest := EntriesFor(files[1..], contents);
      EntriesSorted(files[1..], contents);
      if Usable(files[0], contents) {
        FirstIsLeast(files);
        var e := ExerciseEntry(files[0], contents[files[0]].value);
        assert r == [e] + rest;
        ConsSortedByFile(e, rest);
      } else {
        assert r == rest;
      }
    }
  }

  /** An entry whose file comes no later than every file of a sorted list can go in front. */
  lemma ConsSortedByFile(e: ExerciseInfo, rest: seq<ExerciseInfo>)
    requires forall i, j :: 0 <= i < j < |rest| ==> LexLe(rest[i].file, rest[j].file)
    requires forall x :: x in rest ==> LexLe(e.file, x.file)
    ensures forall i, j :: 0 <= i < j < |[e] + rest| ==> LexLe(([e] + rest)[i].file, ([e] + rest)[j].file)
  {
    var r := [e] + rest;
    forall i, j | 0 <= i < j < |r| ensures LexLe(r[i].file, r[j].file) {
      assert r[j] == rest[j - 1] && r[j] in rest;
      if i > 0 {
        assert r[i] == rest[i - 1];
      }
    }
  }

  /** In a sorted listing the first file comes no later than every file after it. */
  lemma FirstIsLeast(files: seq<string>)
    requires |files| > 0
    ensures (forall i, j :: 0 <= i < j < |files| ==> LexLe(files[i], files[j])) ==>
      forall g :: g in files[1..] ==> LexLe(files[0], g)
  {
    if forall i, j :: 0 <= i < j < |files| ==> LexLe(files[i], files[j]) {
      forall g | g in files[1..] ensures LexLe(files[0], g) {
        var k :| 0 <= k < |files[1..]| && files[1..][k] == g;
        assert files[k + 1] == g;
      }
    }
  }

  /**
   * `GET /exercises`: one entry per listed `.json` file in sorted order; an
   * unreadable directory (`None`) yields `[]`.
   */
  function ListExercises(dir: Option<seq<string>>, contents: map<string, Option<Value>>): (r: seq<ExerciseInfo>)
    ensures dir.None? ==> r == []
    ensures forall i :: 0 <= i < |r| ==> ListedFile(r[i].file) && dir.Some? && r[i].file in dir.value
    ensures forall i, j :: 0 <= i < j < |r| ==> LexLe(r[i].file, r[j].file)
    ensures dir.Some? ==> forall f :: f in ListedFiles(dir.value) && Usable(f, contents) ==>
      ExerciseEntry(f, contents[f].value) in r
    ensures forall e :: e in r ==> Usable(e.file, contents) && e == ExerciseEntry(e.file, contents[e.file].value)
    ensures dir.Some? && Distinct(dir.value) ==> forall i, j :: 0 <= i < j < |r| ==> r[i].file != r[j].file
  {
    if dir.None? then []
    else
      EntriesSorted(ListedFiles(dir.value), contents);
      EntriesFor(ListedFiles(dir.value), contents)
  }

  /**
   * A listed exercise file that names neither a category nor reps is served
   * with category "general" and the default reps {normal: 10, quick: 5}.
   */
  lemma ListedFileGetsDefaults(dir: seq<string>, contents: map<string, Option<Value>>, f: string)
    requires f in ListedFiles(dir) && Usable(f, contents)
    requires contents[f].value.VObj? && "category" !in contents[f].value.fields && "reps" !in contents[f].value.fields
    ensures exists e :: (e in ListExercises(Some(dir), contents) && e.file == f
                         && e.category == VStr("general") && e.reps == DEFAULT_REPS)
  {
    var e := ExerciseEntry(f, contents[f].value);
    assert e in ListExercises(Some(dir), contents);
  }
}

=== FILE: hook.dfy ===
/**
 * The Python hook (exercise_tracker.py): which exercises the browser is
 * told to offer, the launch-lock protocol that keeps concurrent hooks from
 * opening several windows, event routing and exit codes, the local HTTP
 * handler's completion flags, and the daemon's exit rules.
 *
 * The lock file is an optional modification time, the clock is `now` in
 * milliseconds, and whether a server answers, a retried lock creation
 * loses a race, the browser window exists or a remote POST succeeds are
 * all parameters.
 */
module Hook {
  import opened Common

  const PORT: int := 8765

  /** Exercises left out when leg day is skipped. */
  const LEG_EXERCISES: set<string> := {"squats", "calf_raises", "high_knees", "jumping_jacks"}

  // ---------------------------------------------------------------------
  // get_filtered_exercises

  predicate NotLegExercise(e: string) {
    e !in LEG_EXERCISES
  }

  /** The stripped names of a comma list that survive the leg filter, in order. */
  function KeptExercises(exercises: string): (r: seq<string>)
    ensures forall e :: e in r <==> e in StripAll(Split(exercises, ',')) && e !in LEG_EXERCISES
    ensures forall i :: 0 <= i < |r| ==> ',' !in r[i]
    ensures IsSubsequence(r, StripAll(Split(exercises, ',')))
    ensures forall e :: Count(r, e) == if e in LEG_EXERCISES then 0 else Count(StripAll(Split(exercises, ',')), e)
  {
    StrippedPartsHaveNoComma(exercises);
    forall e ensures Count(Filter(StripAll(Split(exercises, ',')), NotLegExercise), e)
                     == if e in LEG_EXERCISES then 0 else Count(StripAll(Split(exercises, ',')), e) {
      FilterCounts(StripAll(Split(exercises, ',')), NotLegExercise, e);
    }
    Filter(StripAll(Split(exercises, ',')), NotLegExercise)
  }

  /** Splitting on commas and stripping leaves no comma in any name. */
  lemma StrippedPartsHaveNoComma(exercises: string)
    ensures forall e :: e in StripAll(Split(exercises, ',')) ==> ',' !in e
  {
    var parts := Split(exercises, ',');
    var stripped := StripAll(parts);
    forall i | 0 <= i < |stripped| ensures ',' !in stripped[i] {
      InfixChars(stripped[i], parts[i]);
    }
  }

  /**
   * `get_filtered_exercises()`: the `VIBEREPS_EXERCISES` value, with leg
   * exercises removed when skip-leg-day is set (any non-empty value) and
   * the list is non-empty; otherwise the value unchanged.
   */
  function FilteredExercises(exercises: string, skipLegDay: string): (r: string)
    ensures skipLegDay == "" || exercises == "" ==> r == exercises
    ensures skipLegDay != "" && exercises != "" ==> r == Join(KeptExercises(exercises), ",")
  {
    if skipLegDay != "" && exercises != "" then Join(KeptExercises(exercises), ",") else exercises
  }

  lemma EmptyNameNotLeg()
    ensures "" !in LEG_EXERCISES
  {
    assert |"squats"| == 6;
  }

  /** Joining leg-free names with commas and splitting again yields only leg-free names. */
  lemma JoinedNamesLegFree(kept: seq<string>)
    requires forall i :: 0 <= i < |kept| ==> ',' !in kept[i] && kept[i] !in LEG_EXERCISES
    ensures forall e :: e in Split(Join(kept, ","), ',') ==> e !in LEG_EXERCISES
  {
    assert "," == [','];
    if |kept| == 0 {
      assert Join(kept, ",") == "";
      assert Split("", ',') == [""];
      EmptyNameNotLeg();
    } else {
      SplitJoin(kept, ',');
    }
  }

  /** With skip-leg-day set, no comma-separated name of the result is a leg exercise. */
  lemma FilteredHasNoLegExercise(exercises: string, skipLegDay: string)
    requires skipLegDay != "" && exercises != ""
    ensures forall e :: e in Split(FilteredExercises(exercises, skipLegDay), ',') ==> e !in LEG_EXERCISES
  {
    var kept := KeptExercises(exercises);
    assert forall i :: 0 <= i < |kept| ==> kept[i] in kept;
    JoinedNamesLegFree(kept);
  }

  /** Non-leg names keep their relative order: the result splits back into exactly the kept names. */
  lemma FilteredKeepsOrder(exercises: string, skipLegDay: string)
    requires skipLegDay != "" && exercises != ""
    requires |KeptExercises(exercises)| > 0
    ensures Split(FilteredExercises(exercises, skipLegDay), ',') == KeptExercises(exercises)
    ensures IsSubsequence(Split(FilteredExercises(exercises, skipLegDay), ','), StripAll(Split(exercises, ',')))
  {
    assert "," == [','];
    SplitJoin(KeptExercises(exercises), ',');
  }

  // ---------------------------------------------------------------------
  // handle_hook: launch lock, server check, launch

  /** A lock younger than this (in milliseconds) means another hook is launching. */
  const LOCK_STALE_MS: int := 10000

  /** The lock file: absent, or present with a modification time. */
  type Lock = Option<int>

  datatype LockOutcome =
    | Acquired(lock: Lock)
    | Busy(message: string, lock: Lock)

  /**
   * The lock protocol. An absent lock is created. A present lock younger
   * than 10 s means "skipped" with the lock untouched. An older lock is
   * removed and created once more; `retryLostTo` is the modification time
   * of a lock another process created in between, which makes the retry
   * fail.
   */
  function AcquireLock(lock: Lock, now: int, retryLostTo: Option<int>): (r: LockOutcome)
    ensures r.Acquired? <==> lock.None? || (now - lock.value >= LOCK_STALE_MS && retryLostTo.None?)
    ensures r.Acquired? ==> r.lock == Some(now)
    ensures lock.Some? && now - lock.value < LOCK_STALE_MS ==>
      r == Busy("Another hook is launching exercise tracker", lock)
    ensures lock.Some? && now - lock.value >= LOCK_STALE_MS && retryLostTo.Some? ==>
      r == Busy("Exercise tracker launch in progress", retryLostTo)
  {
    match lock
    case None => Acquired(Some(now))
    case Some(mtime) =>
      if now - mtime < LOCK_STALE_MS then Busy("Another hook is launching exercise tracker", lock)
      else if retryLostTo.Some? then Busy("Exercise tracker launch in progress", retryLostTo)
      else Acquired(Some(now))
  }

  /**
   * What the environment answers while a hook runs. `portInUse` means
   * another process already holds port 8765 when this one starts its
   * server; `windowOpen` means a VibeReps browser window is already open.
   */
  datatype Env = Env(
    now: int,
    retryLostTo: Option<int>,
    serverAnswers: bool,
    windowOpen: bool,
    portInUse: bool,
    exercises: string,
    skipLegDay: string,
    completion: Option<Value>)

  /** The JSON object the hook prints; `data` is present only for task_complete. */
  datatype HookResult = HookResult(status: string, message: string, data: Option<Value>)

  /** The side effects of one hook run; `openedUrl` is the page a new browser window is opened on. */
  datatype Effects = Effects(lock: Lock, spawnedDaemon: bool, openedUrl: Option<string>)

  /** A hook run either returns its result or dies on an uncaught exception. */
  datatype HookRun =
    | Returned(result: HookResult, effects: Effects)
    | Crashed(effects: Effects)

  const SUCCESS: string := "success"
  const SKIPPED: string := "skipped"

  /** The port's decimal digits. */
  lemma PortDigits()
    ensures IntToString(PORT) == "8765"
  {
  }

  /** The local server's address, `http://localhost:<PORT>`. */
  function ServerUrl(): (url: string)
    ensures url == "http://localhost:8765"
  {
    PortDigits();
    "http://localhost:" + IntToString(PORT)
  }

  /** The URL the launching hook opens: quick mode, plus the filtered exercise list when non-empty. */
  function LaunchUrl(filtered: string): (url: string)
    ensures StartsWith(url, "http://localhost:8765?quick=true")
    ensures filtered == "" ==> url == "http://localhost:8765?quick=true"
    ensures filtered != "" ==> url == "http://localhost:8765?quick=true&exercises=" + filtered
  {
    var base := ServerUrl() + "?quick=true";
    if filtered != "" then base + "&exercises=" + filtered else base
  }

  predicate QuickEvent(eventType: string) {
    eventType == "user_prompt_submit" || eventType == "post_tool_use"
  }

  /**
   * Whether printing task_complete's summary raises: `result.get` on a
   * truthy completion that is not a dict.
   */
  predicate SummaryRaises(completion: Option<Value>) {
    completion.Some? && PyTruthy(completion.value) && !completion.value.VObj?
  }

  /**
   * `handle_hook(event_type, data)`. The quick events take the lock, skip
   * when a server already answers (deleting the lock), and otherwise spawn
   * the daemon and ask for a small window, deliberately keeping the lock;
   * `open_small_window` does nothing when a window is already open.
   * task_complete starts its own server, which raises when the port is
   * taken, opens the browser, and reports the completion data, raising on
   * a truthy non-dict completion; every other event is skipped.
   */
  function HandleHook(eventType: string, lock: Lock, env: Env): (r: HookRun)
    ensures r.Returned? ==> r.result.status == SUCCESS || r.result.status == SKIPPED
    ensures r.Crashed? <==> eventType == "task_complete" && (env.portInUse || SummaryRaises(env.completion))
    ensures !QuickEvent(eventType) ==> r.effects.lock == lock && !r.effects.spawnedDaemon
    ensures r.effects.spawnedDaemon ==> QuickEvent(eventType) && r.Returned? && r.result.status == SUCCESS
    ensures QuickEvent(eventType) ==> r.Returned? && r.result.data.None?
    ensures QuickEvent(eventType) ==>
      (r.effects.spawnedDaemon <==> AcquireLock(lock, env.now, env.retryLostTo).Acquired? && !env.serverAnswers)
    ensures QuickEvent(eventType) && AcquireLock(lock, env.now, env.retryLostTo).Busy? ==>
      r.result.status == SKIPPED && r.effects.lock == AcquireLock(lock, env.now, env.retryLostTo).lock
      && r.effects.openedUrl.None?
    ensures QuickEvent(eventType) && AcquireLock(lock, env.now, env.retryLostTo).Acquired? && env.serverAnswers ==>
      r == Returned(HookResult(SKIPPED, "Exercise tracker already running", None), Effects(None, false, None))
    ensures r.effects.spawnedDaemon ==> r.effects.lock == Some(env.now)
    ensures r.effects.spawnedDaemon ==>
      (r.effects.openedUrl.Some? <==> !env.windowOpen)
      && (!env.windowOpen ==> r.effects.openedUrl == Some(LaunchUrl(FilteredExercises(env.exercises, env.skipLegDay))))
    ensures eventType == "task_complete" && env.portInUse ==> r == Crashed(Effects(lock, false, None))
    ensures eventType == "task_complete" && !env.portInUse ==> r.effects.openedUrl == Some("http://localhost:8765")
    ensures eventType == "task_complete" && r.Returned? ==>
      r.result == HookResult(SUCCESS, "Exercise tracker completed", Some(env.completion.GetOr(VNull)))
    ensures !QuickEvent(eventType) && eventType != "task_complete" ==>
      r == Returned(HookResult(SKIPPED, "Event type " + eventType + " not handled", None), Effects(lock, false, None))
  {
    if QuickEvent(eventType) then
      match AcquireLock(lock, env.now, env.retryLostTo)
      case Busy(message, held) => Returned(HookResult(SKIPPED, message, None), Effects(held, false, None))
      case Acquired(held) =>
        if env.serverAnswers then
          Returned(HookResult(SKIPPED, "Exercise tracker already running", None), Effects(None, false, None))
        else
          var url := LaunchUrl(FilteredExercises(env.exercises, env.skipLegDay));
          Returned(HookResult(SUCCESS, "Exercise tracker launched in background", None),
                   Effects(held, true, if env.windowOpen then None else Some(url)))
    else if eventType == "task_complete" then
      if env.portInUse then Crashed(Effects(lock, false, None))
      else
        var (_, url) := StartWebServer(false);
        if SummaryRaises(env.completion) then Crashed(Effects(lock, false, Some(url)))
        else Returned(HookResult(SUCCESS, "Exercise tracker completed", Some(env.completion.GetOr(VNull))),
                      Effects(lock, false, Some(url)))
    else
      Returned(HookResult(SKIPPED, "Event type " + eventType + " not handled", None), Effects(lock, false, None))
  }

  /** Two hooks firing within 10 s of each other launch at most one daemon. */
  lemma SecondHookWithinWindowSkips(eventType: string, eventType2: string, lock: Lock, env: Env, env2: Env)
    requires QuickEvent(eventType) && QuickEvent(eventType2)
    requires HandleHook(eventType, lock, env).effects.spawnedDaemon
    requires env.now <= env2.now < env.now + LOCK_STALE_MS
    ensures !HandleHook(eventType2, HandleHook(eventType, lock, env).effects.lock, env2).effects.spawnedDaemon
    ensures HandleHook(eventType2, HandleHook(eventType, lock, env).effects.lock, env2).result.status == SKIPPED
  {
    assert HandleHook(eventType, lock, env).effects.lock == Some(env.now);
  }

  /** A task_complete run while a quick daemon still serves dies on the port and opens nothing. */
  lemma TaskCompleteDuringDaemonCrashes(lock: Lock, env: Env)
    requires env.portInUse
    ensures RunExitCode(HandleHook("task_complete", lock, env)) == 1
    ensures HandleHook("task_complete", lock, env).effects.openedUrl.None?
  {
  }

  /** `main()`'s exit status for a printed result. */
  function ExitCode(result: HookResult): (code: int)
    ensures code == 0 <==> result.status == SUCCESS
    ensures code == 0 || code == 1
  {
    if result.status == SUCCESS then 0 else 1
  }

  /** The exit status of a hook run: the printed status decides, and an uncaught exception exits 1. */
  function RunExitCode(run: HookRun): (code: int)
    ensures code == 0 <==> run.Returned? && run.result.status == SUCCESS
    ensures code == 0 || code == 1
  {
    match run
    case Returned(result, _) => ExitCode(result)
    case Crashed(_) => 1
  }

  /** Only the three hook events can make `main` exit successfully. */
  lemma OnlyKnownEventsSucceed(eventType: string, lock: Lock, env: Env)
    requires RunExitCode(HandleHook(eventType, lock, env)) == 0
    ensures eventType in {"user_prompt_submit", "post_tool_use", "task_complete"}
  {
  }

  /** What the script does for a command line (the first argument onwards) and environment. */
  datatype Mode =
    | ListExercises
    | Help
    | Disabled
    | Daemon
    | RunHook(eventType: string)
    | BadHookData

  const LIST_FLAGS: seq<string> := ["--list-exercises", "-l"]
  const HELP_FLAGS: seq<string> := ["--help", "-h"]

  /**
   * The top-level dispatch: the list and help flags come first, then the
   * `VIBEREPS_DISABLED` switch, then `--daemon`; otherwise the first
   * argument is the event ("post_tool_use" when absent). A second argument
   * that is not valid JSON makes `json.loads` raise.
   */
  function Dispatch(args: seq<string>, disabled: string, dataIsJson: bool): (m: Mode)
    ensures |args| > 0 && args[0] in LIST_FLAGS ==> m == ListExercises
    ensures |args| > 0 && args[0] in HELP_FLAGS ==> m == Help
    ensures m == ListExercises <==> |args| > 0 && args[0] in LIST_FLAGS
    ensures m == Help <==> |args| > 0 && args[0] in HELP_FLAGS
    ensures m == Disabled <==> disabled != "" && !(|args| > 0 && (args[0] in LIST_FLAGS || args[0] in HELP_FLAGS))
    ensures m == Daemon <==> disabled == "" && |args| > 0 && args[0] == "--daemon"
    ensures m == BadHookData <==>
      disabled == "" && |args| > 1 && !dataIsJson
      && args[0] !in LIST_FLAGS && args[0] !in HELP_FLAGS && args[0] != "--daemon"
    ensures m.RunHook? ==> disabled == "" && (|args| == 0 ==> m.eventType == "post_tool_use")
    ensures m.RunHook? && |args| > 0 ==> m.eventType == args[0] && args[0] != "--daemon"
  {
    if |args| > 0 && args[0] in LIST_FLAGS then ListExercises
    else if |args| > 0 && args[0] in HELP_FLAGS then Help
    else if disabled != "" then Disabled
    else if |args| > 0 && args[0] == "--daemon" then Daemon
    else if |args| > 1 && !dataIsJson then BadHookData
    else RunHook(if |args| > 0 then args[0] else "post_tool_use")
  }

  /** An exercise file as `--list-exercises` reads it. */
  datatype ListedFile = Unreadable | NotJson | Json(doc: Value)

  /**
   * Whether printing one listed file raises something other than the
   * caught `JSONDecodeError`/`KeyError`: a read error, `.get` on a document
   * or a `reps` value that is not a dict, or slicing a truthy description
   * that is neither a string nor a list.
   */
  predicate ListingRaises(f: ListedFile) {
    match f
    case Unreadable => true
    case NotJson => false
    case Json(doc) =>
      !doc.VObj?
      || ("reps" in doc.fields && !doc.fields["reps"].VObj?)
      || (var desc := GetOr(doc.fields, "description", VStr(""));
          PyTruthy(desc) && !desc.VStr? && !desc.VList?)
  }

  /** `--list-exercises` over the sorted `*.json` listing: names starting with '_' are never read. */
  function ListExitCode(listing: seq<(string, ListedFile)>): (code: int)
    ensures code == 0 || code == 1
    ensures code == 1 <==>
      exists i :: 0 <= i < |listing| && !StartsWith(listing[i].0, "_") && ListingRaises(listing[i].1)
  {
    if |listing| == 0 then 0
    else if !StartsWith(listing[0].0, "_") && ListingRaises(listing[0].1) then 1
    else
      var code := ListExitCode(listing[1..]);
      assert forall i :: 1 <= i < |listing| ==> listing[i] == listing[1..][i - 1];
      code
  }

  /**
   * The process exit status of each mode; an uncaught exception exits with
   * 1. The daemon dies when it cannot bind the port.
   */
  function ModeExitCode(m: Mode, lock: Lock, env: Env, listing: seq<(string, ListedFile)>): (code: int)
    ensures code == 0 || code == 1
    ensures m == Help || m == Disabled ==> code == 0
    ensures m == BadHookData ==> code == 1
    ensures m == Daemon ==> (code == 1 <==> env.portInUse)
    ensures m == ListExercises ==> code == ListExitCode(listing)
    ensures m.RunHook? ==> code == RunExitCode(HandleHook(m.eventType, lock, env))
  {
    match m
    case ListExercises => ListExitCode(listing)
    case RunHook(eventType) => RunExitCode(HandleHook(eventType, lock, env))
    case BadHookData => 1
    case Daemon => if env.portInUse then 1 else 0
    case _ => 0
  }

  // ---------------------------------------------------------------------
  // The local HTTP handler

  /** The handler's class-level flags. */
  datatype HandlerState = HandlerState(exerciseComplete: bool, completionData: Value, claudeComplete: bool, quickMode: bool)

  /**
   * `start_web_server(quick_mode)`: resets the completion flags and data,
   * records the mode, and gives the URL to open.
   */
  function StartWebServer(quickMode: bool): (r: (HandlerState, string))
    ensures !r.0.exerciseComplete && !r.0.claudeComplete
    ensures r.0.completionData == VObj(map[]) && r.0.quickMode == quickMode
    ensures quickMode ==> r.1 == "http://localhost:8765?quick=true"
    ensures !quickMode ==> r.1 == "http://localhost:8765"
  {
    var url := ServerUrl();
    (HandlerState(false, VObj(map[]), false, quickMode), if quickMode then url + "?quick=true" else url)
  }

  /** The result of `log_to_remote`: whether a request was made, and what it returned (`None`: it raised). */
  datatype RemoteResult = RemoteResult(requested: bool, returned: Option<bool>)

  /** How the remote POST went, when it is made. */
  datatype RemoteOutcome =
    | Answered(status: int)
    | UrlError
    | OtherError

  /** `VIBEREPS_API_URL.rstrip('/') + "/api/log"`. */
  function RemoteLogUrl(apiUrl: string): (url: string)
    ensures EndsWith(url, "/api/log")
  {
    RStripSlash(apiUrl) + "/api/log"
  }

  function RStripSlash(s: string): (r: string)
    ensures |r| <= |s| && r == s[..|r|]
    ensures |r| > 0 ==> r[|r| - 1] != '/'
    ensures forall i :: |r| <= i < |s| ==> s[i] == '/'
  {
    if |s| > 0 && s[|s| - 1] == '/' then RStripSlash(s[..|s| - 1]) else s
  }

  /**
   * `log_to_remote(...)`: no request and `False` when the URL or the key
   * is empty; otherwise `True` iff the server answers 200, `False` on a
   * URL or HTTP error, and any other exception propagates.
   */
  function LogToRemote(apiUrl: string, apiKey: string, outcome: RemoteOutcome): (r: RemoteResult)
    ensures apiUrl == "" || apiKey == "" ==> r == RemoteResult(false, Some(false))
    ensures apiUrl != "" && apiKey != "" ==> r.requested
    ensures r.returned == Some(true) <==> apiUrl != "" && apiKey != "" && outcome == Answered(200)
    ensures r.returned.None? <==> apiUrl != "" && apiKey != "" && outcome == OtherError
  {
    if apiUrl == "" || apiKey == "" then RemoteResult(false, Some(false))
    else match outcome
      case Answered(status) => RemoteResult(true, Some(status == 200))
      case UrlError => RemoteResult(true, Some(false))
      case OtherError => RemoteResult(true, None)
  }

  /** The entry `log_to_local` is asked to write. */
  datatype LocalEntry = LocalEntry(exercise: Value, reps: Value, duration: Value, mode: string)

  /** A request body: not valid JSON, or the parsed document. */
  datatype Body = Unparsable | Parsed(doc: Value)

  datatype PostReply = PostReply(code: int, state: HandlerState, local: Option<LocalEntry>, remote: Option<RemoteResult>)

  /** The remote configuration and what the environment answers during a POST. */
  datatype PostEnv = PostEnv(apiUrl: string, apiKey: string, remote: RemoteOutcome)

  /** `dict.get(key, default)`. */
  function DictGet(fields: map<string, Value>, key: string, default: Value): (v: Value)
    ensures key in fields ==> v == fields[key]
    ensures key !in fields ==> v == default
  {
    GetOr(fields, key, default)
  }

  /**
   * `do_POST`. /complete stores the parsed body and sets
   * `exercise_complete` before reading its fields, so a body that parses to
   * a non-object still sets the flag but answers 500; an unparsable body
   * answers 500 and changes nothing. /notify sets `claude_complete`. Any
   * other path answers 404.
   */
  function DoPost(s: HandlerState, path: string, body: Body, env: PostEnv): (r: PostReply)
    ensures path == "/notify" ==> r == PostReply(200, s.(claudeComplete := true), None, None)
    ensures path != "/complete" && path != "/notify" ==> r == PostReply(404, s, None, None)
    ensures path == "/complete" && body.Unparsable? ==> r.code == 500 && r.state == s
    ensures path == "/complete" && body.Parsed? ==>
      r.state == s.(exerciseComplete := true, completionData := body.doc)
    ensures path == "/complete" && body.Parsed? && !body.doc.VObj? ==> r.code == 500 && r.local.None?
    ensures r.local.Some? ==> r.local.value.mode == (if s.quickMode then "quick" else "normal")
    ensures r.code == 200 && path == "/complete" ==> body.Parsed? && body.doc.VObj? && r.remote.Some?
    ensures r.state.quickMode == s.quickMode
    ensures path == "/complete" && body.Parsed? && body.doc.VObj? ==>
      r.local == Some(LocalEntry(DictGet(body.doc.fields, "exercise", VStr("unknown")),
                                 DictGet(body.doc.fields, "reps", VInt(0)),
                                 DictGet(body.doc.fields, "duration", VInt(0)),
                                 if s.quickMode then "quick" else "normal"))
      && r.remote == Some(LogToRemote(env.apiUrl, env.apiKey, env.remote))
      && (r.code == 200 <==> r.remote.value.returned.Some?)
      && (r.code != 200 ==> r.code == 500)
  {
    if path == "/complete" then
      match body
      case Unparsable => PostReply(500, s, None, None)
      case Parsed(data) =>
        var s' := s.(exerciseComplete := true, completionData := data);
        if !data.VObj? then PostReply(500, s', None, None)
        else
          var exercise := DictGet(data.fields, "exercise", VStr("unknown"));
          var reps := DictGet(data.fields, "reps", VInt(0));
          var duration := DictGet(data.fields, "duration", VInt(0));
          var mode := if s.quickMode then "quick" else "normal";
          var remote := LogToRemote(env.apiUrl, env.apiKey, env.remote);
          var entry := LocalEntry(exercise, reps, duration, mode);
          if remote.returned.None? then PostReply(500, s', Some(entry), Some(remote))
          else PostReply(200, s', Some(entry), Some(remote))
    else if path == "/notify" then PostReply(200, s.(claudeComplete := true), None, None)
    else PostReply(404, s, None, None)
  }

  /** After a fresh start, only a POST to /complete can make the session count as completed. */
  lemma OnlyCompleteEndsSession(quickMode: bool, path: string, body: Body, env: PostEnv)
    requires DoPost(StartWebServer(quickMode).0, path, body, env).state.exerciseComplete
    ensures path == "/complete" && body.Parsed?
  {
  }

  /**
   * A completion posted to a freshly started server with remote logging
   * off is answered 200, ends the session and is logged locally in the
   * mode the server was started in.
   */
  lemma CompletionLoggedInStartMode(quickMode: bool, fields: map<string, Value>, env: PostEnv)
    requires env.apiUrl == "" || env.apiKey == ""
    ensures var r := DoPost(StartWebServer(quickMode).0, "/complete", Parsed(VObj(fields)), env);
            r.code == 200 && r.state.exerciseComplete && r.local.Some?
            && (r.local.value.mode == "quick" <==> quickMode)
            && r.remote == Some(RemoteResult(false, Some(false)))
  {
  }

  /**
   * `get_exercise_file` name check: only names ending in ".json" and
   * containing neither '/' nor '\' are looked up.
   */
  predicate ExerciseFileNameOk(filename: string) {
    EndsWith(filename, ".json") && '/' !in filename && '\\' !in filename
  }

  /**
   * `GET /exercises/<name>.json`: 200 with the content iff the name passes
   * the check, resolves inside the exercises directory and names a
   * non-empty file (an empty file is falsy and answers 404).
   */
  function ExerciseFileReply(filename: string, resolvesInside: bool, content: Option<string>): (r: (int, string))
    ensures r.0 == 200 <==> ExerciseFileNameOk(filename) && resolvesInside && content.Some? && content.value != ""
    ensures r.0 == 200 ==> r.1 == content.value
    ensures r.0 != 200 ==> r.0 == 404
  {
    if ExerciseFileNameOk(filename) && resolvesInside && content.Some? && content.value != "" then (200, content.value)
    else (404, "")
  }

  // ---------------------------------------------------------------------
  // run_server_daemon

  /** The daemon's time budget in seconds: two minutes in quick mode, ten otherwise. */
  function DaemonTimeout(quickMode: bool): (t: int)
    ensures quickMode ==> t == 120
    ensures !quickMode ==> t == 600
  {
    if quickMode then 120 else 600
  }

  /**
   * One loop iteration: the elapsed seconds, the completion flag, and the
   * two window checks taken 2 s apart (the second only matters when the
   * first finds no window).
   */
  datatype Tick = Tick(elapsed: int, complete: bool, windowOpen: bool, windowOpenAfterGrace: bool)

  datatype StopReason = TimedOut | Completed | WindowClosed

  /** The decision one iteration of the loop takes; `None` means keep serving. */
  function DaemonStep(quickMode: bool, t: Tick): (r: Option<StopReason>)
    ensures r == Some(TimedOut) <==> t.elapsed >= DaemonTimeout(quickMode)
    ensures r == Some(Completed) <==> t.elapsed < DaemonTimeout(quickMode) && t.complete
    ensures r == Some(WindowClosed) <==>
      t.elapsed < DaemonTimeout(quickMode) && !t.complete && !t.windowOpen && !t.windowOpenAfterGrace
  {
    if t.elapsed >= DaemonTimeout(quickMode) then Some(TimedOut)
    else if t.complete then Some(Completed)
    else if !t.windowOpen && !t.windowOpenAfterGrace then Some(WindowClosed)
    else None
  }

  /**
   * The daemon loop over a sequence of observed iterations: it stops at the
   * first iteration whose decision is to stop, and `at == |ticks|` when
   * none did.
   */
  method RunDaemon(quickMode: bool, ticks: seq<Tick>) returns (reason: Option<StopReason>, at: nat)
    ensures at <= |ticks|
    ensures forall i :: 0 <= i < at ==> DaemonStep(quickMode, ticks[i]).None?
    ensures at < |ticks| ==> reason.Some? && reason == DaemonStep(quickMode, ticks[at])
    ensures at == |ticks| ==> reason.None?
  {
    at := 0;
    reason := None;
    while at < |ticks|
      invariant at <= |ticks|
      invariant forall i :: 0 <= i < at ==> DaemonStep(quickMode, ticks[i]).None?
      invariant reason.None?
    {
      var step := DaemonStep(quickMode, ticks[at]);
      if step.Some? {
        reason := step;
        return;
      }
      at := at + 1;
    }
  }

  /** A quick-mode daemon never serves past two minutes. */
  lemma QuickDaemonStopsByTwoMinutes(t: Tick)
    requires t.elapsed >= 120
    ensures DaemonStep(true, t) == Some(TimedOut)
  {
  }
}

=== FILE: mcp_stats.dfy ===
/**
 * The exercise-statistics arithmetic of the local MCP server
 * (mcp_exercise_server.py): average reps, difficulty adjustment, the day
 * streak, motivation tiers, exercise suggestion, session logging, goals
 * and today's progress.
 *
 * A history entry's ISO timestamp is modelled by its day number: a
 * timestamp starts with a date's ISO form exactly when it falls on that
 * day. "Now" is a parameter. Percentages (floating point) are not
 * modelled.
 */
module McpStats {
  import opened Common

  datatype HistoryEntry = HistoryEntry(day: int, exercise: string, reps: int, duration: int)

  datatype Data = Data(history: seq<HistoryEntry>, goals: map<string, int>, totalReps: map<string, int>)

  /** The three exercises the server knows, in the order ties are broken. */
  const EXERCISES: seq<string> := ["squats", "pushups", "jumping_jacks"]

  /** The data a fresh installation starts with. */
  const DEFAULT_DATA: Data := Data(
    [],
    map["daily_squats" := 30, "daily_pushups" := 30, "daily_jumping_jacks" := 60],
    map["squats" := 0, "pushups" := 0, "jumping_jacks" := 0])

  // ---------------------------------------------------------------------
  // calculate_average_reps / adjust_difficulty

  /** The reps of every session of one exercise, in history order. */
  function RepsOf(history: seq<HistoryEntry>, exercise: string): (r: seq<int>)
    ensures |r| <= |history|
    ensures |r| == 0 <==> forall i :: 0 <= i < |history| ==> history[i].exercise != exercise
  {
    if |history| == 0 then []
    else
      var rest := RepsOf(history[..|history| - 1], exercise);
      var last := history[|history| - 1];
      if last.exercise == exercise then rest + [last.reps] else rest
  }

  function Sum(s: seq<int>): int {
    if |s| == 0 then 0 else Sum(s[..|s| - 1]) + s[|s| - 1]
  }

  /** Python's `int(a / b)` for a positive divisor: the quotient truncated toward zero. */
  function TruncDiv(a: int, b: int): (q: int)
    requires b > 0
    ensures a >= 0 ==> q * b <= a < q * b + b
    ensures a < 0 ==> q * b - b < a <= q * b
  {
    if a >= 0 then a / b else -((-a) / b)
  }

  /**
   * `calculate_average_reps(exercise)`: 10 when the exercise was never
   * done, otherwise the mean of its reps truncated toward zero.
   */
  function AverageReps(history: seq<HistoryEntry>, exercise: string): (avg: int)
    ensures (forall i :: 0 <= i < |history| ==> history[i].exercise != exercise) ==> avg == 10
    ensures |RepsOf(history, exercise)| > 0 ==> avg == TruncDiv(Sum(RepsOf(history, exercise)), |RepsOf(history, exercise)|)
    ensures |RepsOf(history, exercise)| > 0 && Sum(RepsOf(history, exercise)) >= 0 ==>
      var n := |RepsOf(history, exercise)|;
      avg * n <= Sum(RepsOf(history, exercise)) < avg * n + n
    ensures |RepsOf(history, exercise)| > 0 && Sum(RepsOf(history, exercise)) < 0 ==>
      var n := |RepsOf(history, exercise)|;
      avg * n - n < Sum(RepsOf(history, exercise)) <= avg * n
  {
    var reps := RepsOf(history, exercise);
    if |reps| == 0 then 10 else TruncDiv(Sum(reps), |reps|)
  }

  /** When every session of an exercise did the same reps, that is the average. */
  lemma {:induction false} AverageOfConstant(history: seq<HistoryEntry>, exercise: string, k: int)
    requires exists i :: 0 <= i < |history| && history[i].exercise == exercise
    requires forall i :: 0 <= i < |history| && history[i].exercise == exercise ==> history[i].reps == k
    ensures AverageReps(history, exercise) == k
  {
    var reps := RepsOf(history, exercise);
    ConstantSum(history, exercise, k);
    TruncDivExact(k, |reps|);
  }

  /** Dividing a multiple of `n` by `n` is exact. */
  lemma TruncDivExact(k: int, n: int)
    requires n > 0
    ensures TruncDiv(k * n, n) == k
  {
    var q := TruncDiv(k * n, n);
    if q < k {
      MulMonotone(q + 1, k, n);
    } else if q > k {
      MulMonotone(k + 1, q, n);
    }
  }

  lemma MulMonotone(a: int, b: int, n: int)
    requires a <= b && n > 0
    ensures a * n <= b * n
  {
    assert b * n - a * n == (b - a) * n;
  }

  lemma {:induction false} ConstantSum(history: seq<HistoryEntry>, exercise: string, k: int)
    requires forall i :: 0 <= i < |history| && history[i].exercise == exercise ==> history[i].reps == k
    ensures Sum(RepsOf(history, exercise)) == k * |RepsOf(history, exercise)|
  {
    if |history| > 0 {
      var init := history[..|history| - 1];
      assert forall i :: 0 <= i < |init| ==> init[i] == history[i];
      ConstantSum(init, exercise, k);
      var rest := RepsOf(init, exercise);
      var last := history[|history| - 1];
      if last.exercise == exercise {
        assert (rest + [last.reps])[..|rest|] == rest;
      }
    }
  }

  /**
   * `adjust_difficulty(avg)`: at least 10; +2 between 10 and 19; +1 from
   * 20 on, capped at 50.
   */
  function AdjustDifficulty(avg: int): (r: int)
    ensures 10 <= r <= 50
    ensures avg < 10 ==> r == 10
    ensures 10 <= avg < 20 ==> r == avg + 2
    ensures avg >= 20 ==> r == if avg + 1 < 50 then avg + 1 else 50
    ensures avg <= 48 ==> r > avg
  {
    if avg < 10 then 10
    else if avg < 20 then avg + 2
    else if avg + 1 < 50 then avg + 1 else 50
  }

  /** A higher average never gets a lower recommendation. */
  lemma AdjustDifficultyMonotone(a: int, b: int)
    requires a <= b
    ensures AdjustDifficulty(a) <= AdjustDifficulty(b)
  {
  }

  // ---------------------------------------------------------------------
  // calculate_streak / get_motivation_message

  /** Some history entry falls on `day`. */
  predicate HasDay(history: seq<HistoryEntry>, day: int) {
    exists i :: 0 <= i < |history| && history[i].day == day
  }

  /** Some session happened `d` days before `today`. */
  predicate ActiveDaysBack(history: seq<HistoryEntry>, today: int, d: int) {
    HasDay(history, today - d)
  }

  method HasDayScan(history: seq<HistoryEntry>, day: int) returns (found: bool)
    ensures found <==> HasDay(history, day)
  {
    found := false;
    var i := 0;
    while i < |history|
      invariant 0 <= i <= |history|
      invariant !found
      invariant forall j :: 0 <= j < i ==> history[j].day != day
    {
      if history[i].day == day {
        return true;
      }
      i := i + 1;
    }
  }

  /** The number of days looked back at most. */
  const STREAK_WINDOW: nat := 365

  /**
   * `calculate_streak()`: 0 for an empty history; otherwise the number of
   * consecutive days with a session going back from today, today included,
   * looking at most 365 days back.
   */
  method CalculateStreak(history: seq<HistoryEntry>, today: int) returns (streak: nat)
    ensures |history| == 0 ==> streak == 0
    ensures streak <= STREAK_WINDOW
    ensures forall d :: 0 <= d < streak ==> ActiveDaysBack(history, today, d)
    ensures streak < STREAK_WINDOW && |history| > 0 ==> !ActiveDaysBack(history, today, streak)
  {
    if |history| == 0 {
      return 0;
    }
    streak := 0;
    var i := 0;
    while i < STREAK_WINDOW
      invariant 0 <= i <= STREAK_WINDOW
      invariant streak == i
      invariant forall d :: 0 <= d < streak ==> ActiveDaysBack(history, today, d)
    {
      var found := HasDayScan(history, today - i);
      if found {
        streak := streak + 1;
      } else {
        return;
      }
      i := i + 1;
    }
  }

  /** The five motivation tiers, from no streak to a legendary one. */
  datatype Tier = Start | GreatStart | Awesome | Incredible | Legendary

  /**
   * The tier `get_motivation_message` picks: none for 0, then thresholds
   * at 3, 7 and 30 (a negative streak falls under "great start").
   */
  function TierOf(streak: int): (t: Tier)
    ensures t == Start <==> streak == 0
    ensures t == GreatStart <==> streak != 0 && streak < 3
    ensures t == Awesome <==> 3 <= streak < 7
    ensures t == Incredible <==> 7 <= streak < 30
    ensures t == Legendary <==> streak >= 30
  {
    if streak == 0 then Start
    else if streak < 3 then GreatStart
    else if streak < 7 then Awesome
    else if streak < 30 then Incredible
    else Legendary
  }

  function TierRank(t: Tier): nat {
    match t
    case Start => 0
    case GreatStart => 1
    case Awesome => 2
    case Incredible => 3
    case Legendary => 4
  }

  /** Among positive streaks, a longer streak never earns a lower tier. */
  lemma TierMonotone(a: int, b: int)
    requires 0 < a <= b
    ensures TierRank(TierOf(a)) <= TierRank(TierOf(b))
  {
  }

  /**
   * `get_motivation_message(streak)`. The two emoji are written in the
   * source as mis-decoded UTF-8 and are kept character for character.
   */
  function MotivationMessage(streak: int): (m: string)
    ensures TierOf(streak) == Start ==> m == "Time to start a new streak! You've got this! ðŸ’ª"
    ensures TierOf(streak) == GreatStart ==> m == "Great start! " + IntToString(streak) + " day streak going!"
    ensures TierOf(streak) == Awesome ==> m == "Awesome! " + IntToString(streak) + " days strong! Keep it up!"
    ensures TierOf(streak) == Incredible ==>
      m == "Incredible! " + IntToString(streak) + " day streak! You're crushing it!"
    ensures TierOf(streak) == Legendary ==> m == "LEGENDARY! " + IntToString(streak) + " days! You're unstoppable! ðŸ”¥"
  {
    var n := IntToString(streak);
    match TierOf(streak)
    case Start => "Time to start a new streak! You've got this! ðŸ’ª"
    case GreatStart => "Great start! " + n + " day streak going!"
    case Awesome => "Awesome! " + n + " days strong! Keep it up!"
    case Incredible => "Incredible! " + n + " day streak! You're crushing it!"
    case Legendary => "LEGENDARY! " + n + " days! You're unstoppable! ðŸ”¥"
  }

  // ---------------------------------------------------------------------
  // suggest_exercise

  /** `history[-5:]` (the whole history when shorter). */
  function RecentExercises(history: seq<HistoryEntry>): (r: seq<string>)
    ensures |r| == if |history| < 5 then |history| else 5
    ensures forall i :: 0 <= i < |r| ==> r[i] == history[|history| - |r| + i].exercise
  {
    var recent := LastN(history, 5);
    seq(|recent|, i requires 0 <= i < |recent| => recent[i].exercise)
  }

  /** `min(candidates, key=count)`: the first candidate with the least count. */
  function MinByCount(candidates: seq<string>, recent: seq<string>): (r: string)
    requires |candidates| > 0
    ensures r in candidates
    ensures forall x :: x in candidates ==> Count(recent, r) <= Count(recent, x)
    ensures forall i :: (0 <= i < |candidates| && candidates[i] != r && (forall j :: 0 <= j < i ==> candidates[j] != r)
      ==> Count(recent, candidates[i]) > Count(recent, r))
  {
    if |candidates| == 1 then candidates[0]
    else
      var best := MinByCount(candidates[1..], recent);
      if Count(recent, candidates[0]) <= Count(recent, best) then candidates[0] else best
  }

  /** Among distinct candidates, every one listed before the winner has a strictly larger count. */
  lemma FirstMinimum(candidates: seq<string>, recent: seq<string>)
    requires |candidates| > 0 && Distinct(candidates)
    ensures forall i, j :: 0 <= i < j < |candidates| && candidates[j] == MinByCount(candidates, recent) ==>
      Count(recent, candidates[i]) > Count(recent, MinByCount(candidates, recent))
  {
    var r := MinByCount(candidates, recent);
    forall i, j | 0 <= i < j < |candidates| && candidates[j] == r
      ensures Count(recent, candidates[i]) > Count(recent, r)
    {
      assert forall k :: 0 <= k < i ==> candidates[k] != r;
    }
  }

  lemma ExercisesDistinct()
    ensures Distinct(EXERCISES)
  {
  }

  datatype Suggestion = Suggestion(exercise: string, recommendedReps: int)

  /**
   * `suggest_exercise()`: the exercise done least often among the last five
   * sessions (ties go to the order squats, pushups, jumping_jacks), with a
   * recommended rep count from its average.
   */
  function SuggestExercise(history: seq<HistoryEntry>): (s: Suggestion)
    ensures s.exercise in EXERCISES
    ensures forall x :: x in EXERCISES ==> Count(RecentExercises(history), s.exercise) <= Count(RecentExercises(history), x)
    ensures forall i, j :: 0 <= i < j < |EXERCISES| && EXERCISES[j] == s.exercise ==>
      Count(RecentExercises(history), EXERCISES[i]) > Count(RecentExercises(history), s.exercise)
    ensures 10 <= s.recommendedReps <= 50
    ensures s.recommendedReps == AdjustDifficulty(AverageReps(history, s.exercise))
  {
    var e := MinByCount(EXERCISES, RecentExercises(history));
    ExercisesDistinct();
    FirstMinimum(EXERCISES, RecentExercises(history));
    Suggestion(e, AdjustDifficulty(AverageReps(history, e)))
  }

  /** With no history, squats are suggested first, at 12 reps. */
  lemma EmptyHistorySuggestion()
    ensures SuggestExercise([]) == Suggestion("squats", 12)
  {
    EmptyHistoryPicksSquats();
    EmptyHistoryReps();
  }

  /** With nothing recent every count is zero, so the first exercise wins the tie. */
  lemma EmptyHistoryPicksSquats()
    ensures MinByCount(EXERCISES, RecentExercises([])) == "squats"
  {
    assert RecentExercises([]) == [];
    FirstWinsOnNothing(EXERCISES);
  }

  /** Over an empty window every count is zero, and the first candidate wins. */
  lemma FirstWinsOnNothing(candidates: seq<string>)
    requires |candidates| > 0
    ensures MinByCount(candidates, []) == candidates[0]
  {
    if |candidates| > 1 {
      assert Count([], candidates[0]) == 0;
    }
  }

  /** With no sessions the average is 10, which the difficulty rule raises to 12. */
  lemma EmptyHistoryReps()
    ensures AdjustDifficulty(AverageReps([], "squats")) == 12
  {
    assert AverageReps([], "squats") == 10;
  }

  // ---------------------------------------------------------------------
  // log_exercise_session / update_goals

  /**
   * `log_exercise_session`: appends exactly one history entry, then adds
   * the reps to the exercise's total. For an exercise without a total the
   * update raises `KeyError` (`ok` false) after the entry was appended.
   */
  function LogExerciseSession(data: Data, exercise: string, reps: int, duration: int, today: int): (r: (Data, bool))
    ensures r.0.history == data.history + [HistoryEntry(today, exercise, reps, duration)]
    ensures r.0.goals == data.goals
    ensures r.1 <==> exercise in data.totalReps
    ensures r.1 ==> r.0.totalReps == data.totalReps[exercise := data.totalReps[exercise] + reps]
    ensures !r.1 ==> r.0.totalReps == data.totalReps
  {
    var history := data.history + [HistoryEntry(today, exercise, reps, duration)];
    if exercise in data.totalReps then
      (data.(history := history, totalReps := data.totalReps[exercise := data.totalReps[exercise] + reps]), true)
    else (data.(history := history), false)
  }

  /** `update_goals`: only `daily_<exercise>` changes. */
  function UpdateGoals(data: Data, exercise: string, target: int): (r: Data)
    ensures r.history == data.history && r.totalReps == data.totalReps
    ensures ("daily_" + exercise) in r.goals && r.goals[("daily_" + exercise)] == target
    ensures forall k :: k != "daily_" + exercise ==> (k in r.goals <==> k in data.goals)
    ensures forall k :: k != "daily_" + exercise && k in data.goals ==> r.goals[k] == data.goals[k]
  {
    data.(goals := data.goals["daily_" + exercise := target])
  }

  // ---------------------------------------------------------------------
  // get_progress_today

  /** Reps of one exercise done on one day. */
  function RepsOn(history: seq<HistoryEntry>, day: int, exercise: string): int {
    if |history| == 0 then 0
    else
      var last := history[|history| - 1];
      RepsOn(history[..|history| - 1], day, exercise) + (if last.day == day && last.exercise == exercise then last.reps else 0)
  }

  datatype Progress = Progress(completed: int, goal: int, remaining: int)

  /** The progress entry of one exercise for its goal. */
  function ProgressOf(completed: int, goal: int): (p: Progress)
    ensures p.completed == completed && p.goal == goal
    ensures p.remaining >= 0
    ensures p.remaining == 0 <==> completed >= goal
    ensures completed < goal ==> completed + p.remaining == goal
  {
    Progress(completed, goal, if goal - completed > 0 then goal - completed else 0)
  }

  /**
   * `get_progress_today()`: for each of the three exercises, the reps done
   * today against `goals["daily_<exercise>"]` (0 when unset) and what
   * remains. Other exercises are not counted.
   */
  function ProgressToday(data: Data, today: int): (r: map<string, Progress>)
    ensures r.Keys == {"squats", "pushups", "jumping_jacks"}
    ensures forall e :: e in r ==> r[e].completed == RepsOn(data.history, today, e) && r[e].remaining >= 0
    ensures forall e :: e in r ==> r[e].goal == GetOrInt(data.goals, "daily_" + e)
  {
    map e | e in {"squats", "pushups", "jumping_jacks"} ::
      ProgressOf(RepsOn(data.history, today, e), GetOrInt(data.goals, "daily_" + e))
  }

  function GetOrInt(m: map<string, int>, k: string): int {
    if k in m then m[k] else 0
  }

  /** Logging a session today raises that exercise's progress by its reps and leaves the others alone. */
  lemma LogRaisesProgress(data: Data, exercise: string, reps: int, duration: int, today: int)
    requires exercise in EXERCISES
    ensures var after := ProgressToday(LogExerciseSession(data, exercise, reps, duration, today).0, today);
            var before := ProgressToday(data, today);
            after[exercise].completed == before[exercise].completed + reps
            && forall e :: e in before && e != exercise ==> after[e] == before[e]
  {
    var h := LogExerciseSession(data, exercise, reps, duration, today).0.history;
    assert h[..|h| - 1] == data.history;
  }

  /** A session on another day does not change today's progress. */
  lemma OtherDayLeavesProgress(data: Data, exercise: string, reps: int, duration: int, day: int, today: int)
    requires day != today
    ensures ProgressToday(LogExerciseSession(data, exercise, reps, duration, day).0, today) == ProgressToday(data, today)
  {
    var h := LogExerciseSession(data, exercise, reps, duration, day).0.history;
    assert h[..|h| - 1] == data.history;
  }
}

=== FILE: node_tracker.dfy ===
/**
 * The Node.js tracker (src/tracker.js): quick-mode selection, the exercise
 * catalogue and its `VIBEREPS_EXERCISES` filter, and the request router
 * with its two flags, `claudeReady` and `sessionComplete`.
 *
 * The directory listing, the parsed configuration files and request
 * bodies are inputs; the HTTP server, timers, the browser launch and the
 * fire-and-forget POSTs to the Pushgateway and the remote API are not
 * modelled.
 */
module NodeTracker {
  import opened Common

  // ---------------------------------------------------------------------
  // Command line

  /** `process.argv[2]`, defaulting to "user_prompt_submit" only when absent. */
  function HookType(args: seq<string>): (t: string)
    ensures |args| == 0 ==> t == "user_prompt_submit"
    ensures |args| > 0 ==> t == args[0]
  {
    if |args| > 0 then args[0] else "user_prompt_submit"
  }

  /** Quick mode for the events that fire while Claude works. */
  predicate IsQuickMode(hookType: string) {
    hookType in ["user_prompt_submit", "post_tool_use"]
  }

  /** With no event argument the tracker runs in quick mode. */
  lemma DefaultIsQuick(args: seq<string>)
    requires |args| == 0
    ensures IsQuickMode(HookType(args))
  {
  }

  // ---------------------------------------------------------------------
  // Exercise catalogue

  /** An exercise configuration file: a `.json` name not starting with `_`. */
  predicate IsExerciseFile(f: string) {
    EndsWith(f, ".json") && !StartsWith(f, "_")
  }

  /** A catalogue entry; the fallback entries have no file. */
  datatype Entry = Entry(id: Value, name: Value, file: Option<string>)

  const FALLBACK: seq<Entry> := [
    Entry(VStr("squats"), VStr("Squats"), None),
    Entry(VStr("pushups"), VStr("Push-ups"), None),
    Entry(VStr("jumping_jacks"), VStr("Jumping Jacks"), None)
  ]

  /** `config.id` / `config.name` of a parsed configuration (`VNull` when absent). */
  function Prop(config: Value, key: string): Value {
    if config.VObj? then GetOr(config.fields, key, VNull) else VNull
  }

  /** Whether every listed file parsed to a document whose properties can be read. */
  predicate AllReadable(files: seq<string>, configs: map<string, Option<Value>>) {
    forall i :: 0 <= i < |files| ==> files[i] in configs && configs[files[i]].Some? && configs[files[i]].value != VNull
  }

  function EntriesOf(files: seq<string>, configs: map<string, Option<Value>>): (r: seq<Entry>)
    requires AllReadable(files, configs)
    ensures |r| == |files|
    ensures forall i :: 0 <= i < |r| ==> r[i].file == Some(files[i])
    ensures forall i :: 0 <= i < |r| ==>
      r[i].id == Prop(configs[files[i]].value, "id") && r[i].name == Prop(configs[files[i]].value, "name")
  {
    if |files| == 0 then []
    else
      var c := configs[files[0]].value;
      [Entry(Prop(c, "id"), Prop(c, "name"), Some(files[0]))] + EntriesOf(files[1..], configs)
  }

  /**
   * The catalogue built at start-up: one entry per exercise file in
   * directory order. If the directory cannot be read (`None`) or any file
   * fails to read or parse (or parses to `null`), the whole list is
   * replaced by the three built-in exercises.
   */
  function LoadExerciseList(dir: Option<seq<string>>, configs: map<string, Option<Value>>): (r: seq<Entry>)
    ensures dir.None? ==> r == FALLBACK
    ensures dir.Some? && !AllReadable(Filter(dir.value, IsExerciseFile), configs) ==> r == FALLBACK
    ensures dir.Some? && AllReadable(Filter(dir.value, IsExerciseFile), configs) ==>
      |r| == |Filter(dir.value, IsExerciseFile)| &&
      forall i :: 0 <= i < |r| ==> r[i].file.Some? && IsExerciseFile(r[i].file.value) && r[i].file.value in dir.value
    ensures dir.Some? && AllReadable(Filter(dir.value, IsExerciseFile), configs) ==>
      var files := Filter(dir.value, IsExerciseFile);
      forall i :: 0 <= i < |r| ==>
        r[i].file == Some(files[i])
        && r[i].id == Prop(configs[files[i]].value, "id") && r[i].name == Prop(configs[files[i]].value, "name")
  {
    if dir.None? then FALLBACK
    else
      var files := Filter(dir.value, IsExerciseFile);
      if AllReadable(files, configs) then
        var r := EntriesOf(files, configs);
        assert forall i :: 0 <= i < |r| ==> files[i] in files;
        r
      else FALLBACK
  }

  /**
   * Directory entries have distinct names, so a loaded catalogue has one
   * entry per exercise file of the directory and no file twice.
   */
  lemma CatalogueHasEachFileOnce(dir: seq<string>, configs: map<string, Option<Value>>)
    requires Distinct(dir) && AllReadable(Filter(dir, IsExerciseFile), configs)
    ensures var r := LoadExerciseList(Some(dir), configs);
      (forall i, j :: 0 <= i < j < |r| ==> r[i].file != r[j].file)
      && (forall f :: f in dir && IsExerciseFile(f) ==> exists i :: 0 <= i < |r| && r[i].file == Some(f))
  {
    var files := Filter(dir, IsExerciseFile);
    EntriesFollowFiles(LoadExerciseList(Some(dir), configs), files);
  }

  /** Entries carrying the files of a list without repetitions, position by position. */
  lemma EntriesFollowFiles(r: seq<Entry>, files: seq<string>)
    requires |r| == |files| && forall i :: 0 <= i < |r| ==> r[i].file == Some(files[i])
    ensures Distinct(files) ==> forall i, j :: 0 <= i < j < |r| ==> r[i].file != r[j].file
    ensures forall f :: f in files ==> exists i :: 0 <= i < |r| && r[i].file == Some(f)
  {
    forall f | f in files
      ensures exists i :: 0 <= i < |r| && r[i].file == Some(f)
    {
      var i :| 0 <= i < |files| && files[i] == f;
      assert r[i].file == Some(f);
    }
  }

  /** `EXERCISES.split(',').map(s => s.trim())`. */
  function AllowedIds(exercises: string): (r: seq<string>)
    ensures |r| == |Split(exercises, ',')|
    ensures forall i :: 0 <= i < |r| ==> r[i] == Strip(Split(exercises, ',')[i])
  {
    StripAll(Split(exercises, ','))
  }

  /**
   * `availableExercises`: with `VIBEREPS_EXERCISES` non-empty, the entries
   * whose id is one of the trimmed names, in catalogue order; otherwise the
   * whole catalogue.
   */
  function AvailableExercises(list: seq<Entry>, exercises: string): (r: seq<Entry>)
    ensures exercises == "" ==> r == list
    ensures exercises != "" ==>
      forall e :: e in r <==> e in list && e.id.VStr? && e.id.s in AllowedIds(exercises)
    ensures IsSubsequence(r, list)
    ensures |r| <= |list|
  {
    if exercises == "" then
      SubsequenceOfItself(list);
      list
    else
      var allowed := AllowedIds(exercises);
      Filter(list, (e: Entry) => e.id.VStr? && e.id.s in allowed)
  }

  // ---------------------------------------------------------------------
  // Request routing

  /**
   * The server's flags; `exitCode` is set once the process has ended, so
   * no later request is served.
   */
  datatype State = State(claudeReady: bool, sessionComplete: bool, exitCode: Option<int>)

  const INITIAL: State := State(false, false, None)

  /** A request body for POST /complete: not valid JSON, or the parsed document. */
  datatype Body = NoBody | Unparsable | Parsed(doc: Value)

  datatype Request = Request(httpMethod: string, pathname: string, body: Body)

  /** What the server answers; `payload` is the JSON it reports where it matters. */
  datatype Reply = Reply(code: int, payload: Option<Value>)

  /** `path.basename` of a request path: the part after the last '/'. */
  function ConfigFileName(pathname: string): (name: string)
    ensures '/' !in name
    ensures EndsWith(pathname, name)
    ensures |name| < |pathname| ==> pathname[|pathname| - |name| - 1] == '/'
  {
    LastSegment(pathname, '/')
  }

  /**
   * `handleComplete(data)`: destructuring `null` throws inside the async
   * function. Nothing catches the rejected promise, and since Node.js 15 an
   * unhandled rejection ends the process with status 1. Any other document
   * sets `sessionComplete`.
   */
  function HandleComplete(s: State, data: Value): (r: State)
    ensures r.claudeReady == s.claudeReady
    ensures r.sessionComplete <==> s.sessionComplete || data != VNull
    ensures data == VNull ==> r.exitCode == Some(1)
    ensures data != VNull ==> r.exitCode == s.exitCode
  {
    if data == VNull then s.(exitCode := Some(1)) else s.(sessionComplete := true)
  }

  /**
   * One request. OPTIONS answers 204 on every path; `/notify` and
   * `/complete` need POST and otherwise fall through to 404 with the other
   * unknown paths. The configuration route serves the file named by the
   * basename of the path (`configs` holds the readable files).
   */
  function Route(s: State, req: Request, configs: map<string, string>): (r: (State, Reply))
    ensures req.httpMethod == "OPTIONS" ==> r == (s, Reply(204, None))
    ensures req.httpMethod != "OPTIONS" && req.pathname == "/status" ==>
      r == (s, Reply(200, Some(VObj(map["claude_ready" := VBool(s.claudeReady)]))))
    ensures req.httpMethod != "OPTIONS" && req.pathname == "/notify" ==>
      (req.httpMethod == "POST" ==> r.0 == s.(claudeReady := true) && r.1.code == 200)
      && (req.httpMethod != "POST" ==> r == (s, Reply(404, None)))
    ensures req.httpMethod == "POST" && req.pathname == "/complete" ==>
      (!req.body.Parsed? ==> r == (s, Reply(400, None)))
      && (req.body.Parsed? ==> r.1.code == 200 && r.0 == HandleComplete(s, req.body.doc))
    ensures r.0.claudeReady != s.claudeReady ==> req.httpMethod == "POST" && req.pathname == "/notify"
    ensures r.0.sessionComplete != s.sessionComplete ==> req.httpMethod == "POST" && req.pathname == "/complete"
    ensures !s.sessionComplete && r.0.sessionComplete ==> req.body.Parsed? && req.body.doc != VNull
    ensures r.0.exitCode != s.exitCode ==>
      req.httpMethod == "POST" && req.pathname == "/complete" && req.body == Parsed(VNull) && r.0.exitCode == Some(1)
    ensures (req.httpMethod != "OPTIONS" && req.pathname != "/exercises" && StartsWith(req.pathname, "/exercises/")
      && EndsWith(req.pathname, ".json")) ==>
      r.0 == s && (r.1.code == 200 <==> ConfigFileName(req.pathname) in configs)
    ensures req.httpMethod != "OPTIONS" && req.pathname in {"/", "/index.html", "/exercises"} ==>
      r == (s, Reply(200, None))
    ensures (req.httpMethod != "OPTIONS" && req.pathname == "/complete" && req.httpMethod != "POST") ==>
      r == (s, Reply(404, None))
    ensures (req.httpMethod != "OPTIONS"
      && req.pathname !in {"/", "/index.html", "/exercises", "/status", "/notify", "/complete"}
      && !(StartsWith(req.pathname, "/exercises/") && EndsWith(req.pathname, ".json"))) ==>
      r == (s, Reply(404, None))
  {
    if req.httpMethod == "OPTIONS" then (s, Reply(204, None))
    else if req.pathname == "/" || req.pathname == "/index.html" then (s, Reply(200, None))
    else if req.pathname == "/exercises" then (s, Reply(200, None))
    else if StartsWith(req.pathname, "/exercises/") && EndsWith(req.pathname, ".json") then
      var name := ConfigFileName(req.pathname);
      if name in configs then (s, Reply(200, Some(VStr(configs[name])))) else (s, Reply(404, None))
    else if req.pathname == "/status" then
      (s, Reply(200, Some(VObj(map["claude_ready" := VBool(s.claudeReady)]))))
    else if req.pathname == "/notify" && req.httpMethod == "POST" then
      (s.(claudeReady := true), Reply(200, Some(VObj(map["status" := VStr("notified")]))))
    else if req.pathname == "/complete" && req.httpMethod == "POST" then
      match req.body
      case Parsed(data) => (HandleComplete(s, data), Reply(200, Some(VObj(map["status" := VStr("success")]))))
      case _ => (s, Reply(400, None))
    else (s, Reply(404, None))
  }

  /** After POST /notify, GET /status reports Claude as ready, whatever came before. */
  lemma NotifyThenStatusReady(s: State, body: Body, body2: Body, configs: map<string, string>)
    ensures var s1 := Route(s, Request("POST", "/notify", body), configs).0;
            Route(s1, Request("GET", "/status", body2), configs).1.payload
              == Some(VObj(map["claude_ready" := VBool(true)]))
  {
  }

  /** The ten-minute timer finds the process still running with no session completed, and closes the server. */
  predicate TimeoutCloses(s: State) {
    s.exitCode.None? && !s.sessionComplete
  }

  /** The requests a running server handles, in arrival order; none is served after the process ends. */
  function Serve(s: State, reqs: seq<Request>, configs: map<string, string>): (r: State)
    ensures s.exitCode.Some? ==> r == s
    ensures s.sessionComplete ==> r.sessionComplete
    ensures s.exitCode.Some? || s.sessionComplete ==> !TimeoutCloses(r)
    decreases |reqs|
  {
    if |reqs| == 0 || s.exitCode.Some? then s
    else Serve(Route(s, reqs[0], configs).0, reqs[1..], configs)
  }

  /** A POST to /complete whose body parses: it either completes the session or ends the process. */
  predicate EndsSession(req: Request) {
    req.httpMethod == "POST" && req.pathname == "/complete" && req.body.Parsed?
  }

  /**
   * From a running, uncompleted state, the timer closes the server iff no
   * request in the run was a POST to /complete with a parsable body.
   */
  lemma {:induction false} TimerClosesIffNoCompletion(s: State, reqs: seq<Request>, configs: map<string, string>)
    requires s.exitCode.None? && !s.sessionComplete
    ensures TimeoutCloses(Serve(s, reqs, configs)) <==> forall i :: 0 <= i < |reqs| ==> !EndsSession(reqs[i])
    decreases |reqs|
  {
    if |reqs| > 0 {
      var s1 := Route(s, reqs[0], configs).0;
      if EndsSession(reqs[0]) {
        assert s1.sessionComplete || s1.exitCode.Some?;
      } else {
        assert s1.exitCode.None? && !s1.sessionComplete;
        TimerClosesIffNoCompletion(s1, reqs[1..], configs);
        assert forall i :: 1 <= i < |reqs| ==> reqs[i] == reqs[1..][i - 1];
      }
    }
  }

  /** Once a session has completed, no later request makes the timer close the server. */
  lemma CompletionIsPermanent(s: State, req: Request, configs: map<string, string>)
    requires s.sessionComplete
    ensures !TimeoutCloses(Route(s, req, configs).0)
  {
  }
}

=== FILE: notify.dfy ===
/**
 * The notification hook (notify_complete.py): it reads the hook payload
 * from standard input, tells the local tracker that Claude has finished,
 * and maps the outcome to a status and an exit code.
 *
 * Standard input and the HTTP exchange are parameters: whether input was
 * ready and what it parsed to, and how the POST ended.
 */
module Notify {
  import opened Common

  const DEFAULT_PORT: int := 8765

  /** Standard input after the 0.1 s readiness wait: nothing, or text that parsed (`Some`) or not (`None`). */
  datatype Stdin = NotReady | Ready(parsed: Option<Value>)

  /**
   * `read_hook_payload_from_stdin()`: the parsed document when input was
   * ready and valid JSON (of any type), otherwise `{}`.
   */
  function ReadHookPayload(input: Stdin): (v: Value)
    ensures input.Ready? && input.parsed.Some? ==> v == input.parsed.value
    ensures !(input.Ready? && input.parsed.Some?) ==> v == VObj(map[])
  {
    match input
    case Ready(Some(doc)) => doc
    case _ => VObj(map[])
  }

  /** The default port's decimal digits. */
  lemma DefaultPortDigits()
    ensures IntToString(DEFAULT_PORT) == "8765"
  {
  }

  /** The tracker endpoint for a port: the port's digits between the host and "/notify". */
  function TargetUrl(port: int): (url: string)
    ensures StartsWith(url, "http://localhost:") && EndsWith(url, "/notify")
    ensures |url| == 24 + |IntToString(port)| && url[17..|url| - 7] == IntToString(port)
  {
    var url := "http://localhost:" + IntToString(port) + "/notify";
    assert url[..17] == "http://localhost:";
    assert url[|url| - 7..] == "/notify";
    assert url[17..|url| - 7] == IntToString(port);
    url
  }

  /** With the default port the hook posts to "http://localhost:8765/notify". */
  lemma DefaultTargetUrl()
    ensures TargetUrl(DEFAULT_PORT) == "http://localhost:8765/notify"
  {
    DefaultPortDigits();
  }

  /**
   * The POST payload: `{}` for falsy hook data; for a dict, exactly
   * `message` and `notification_type`, each defaulting to "". A truthy
   * value that is not a dict has no `.get` and raises (`None`).
   */
  function BuildPayload(data: Value): (p: Option<map<string, Value>>)
    ensures !PyTruthy(data) ==> p == Some(map[])
    ensures PyTruthy(data) && !data.VObj? ==> p.None?
    ensures PyTruthy(data) && data.VObj? ==> p.Some? && p.value.Keys == {"message", "notification_type"}
    ensures PyTruthy(data) && data.VObj? ==>
      p.value["message"] == GetOr(data.fields, "message", VStr(""))
      && p.value["notification_type"] == GetOr(data.fields, "notification_type", VStr(""))
  {
    if !PyTruthy(data) then Some(map[])
    else if data.VObj? then
      Some(map["message" := GetOr(data.fields, "message", VStr("")),
               "notification_type" := GetOr(data.fields, "notification_type", VStr(""))])
    else None
  }

  /** How the POST ended: an answer whose body parsed (`Some`) or not, a URL error, or any other exception. */
  datatype PostOutcome = Responded(body: Option<Value>) | UrlError | OtherError

  datatype NotifyResult = NotifyResult(status: string, result: Option<Value>)

  /**
   * `notify_exercise_tracker`'s result: "success" with the decoded answer,
   * "skipped" when the tracker is unreachable (`URLError`, which includes
   * HTTP errors), and "error" for anything else, including an answer that
   * is not JSON.
   */
  function NotifyOutcome(outcome: PostOutcome): (r: NotifyResult)
    ensures r.status == "success" <==> outcome.Responded? && outcome.body.Some?
    ensures r.status == "success" ==> r.result == outcome.body
    ensures r.status == "skipped" <==> outcome == UrlError
    ensures r.status == "error" <==> outcome == OtherError || outcome == Responded(None)
  {
    match outcome
    case Responded(Some(doc)) => NotifyResult("success", Some(doc))
    case Responded(None) => NotifyResult("error", None)
    case UrlError => NotifyResult("skipped", None)
    case OtherError => NotifyResult("error", None)
  }

  /** `main()`'s exit status: 0 for success and skipped, 1 for errors, 1 when building the payload raised. */
  function MainExitCode(input: Stdin, outcome: PostOutcome): (code: int)
    ensures code == 0 <==>
      BuildPayload(ReadHookPayload(input)).Some? && NotifyOutcome(outcome).status in ["success", "skipped"]
    ensures code == 0 || code == 1
  {
    if BuildPayload(ReadHookPayload(input)).None? then 1
    else if NotifyOutcome(outcome).status in ["success", "skipped"] then 0
    else 1
  }

  /** Missing or malformed input still notifies, with an empty payload. */
  lemma MissingInputSendsEmptyPayload(input: Stdin)
    requires input == NotReady || input == Ready(None)
    ensures BuildPayload(ReadHookPayload(input)) == Some(map[])
  {
  }

  /** A tracker that is not running is not a failure of the hook. */
  lemma TrackerDownIsNotFailure(input: Stdin)
    requires BuildPayload(ReadHookPayload(input)).Some?
    ensures MainExitCode(input, UrlError) == 0
  {
  }
}

=== FILE: remote_server.dfy ===
/**
 * The remote leaderboard server (server/main.py): the streak and stats it
 * computes from a user's logged exercises, leaderboard ranks, the
 * duplicate-name check on sign-up, and the dispatch, authentication and
 * error codes of its JSON-RPC 2.0 `/mcp` endpoint.
 *
 * Database rows are plain sequences; a row's creation date is a day
 * number, and "today" is a parameter. What a tool does against the
 * database is a parameter of the endpoint.
 */
module RemoteServer {
  import opened Common

  datatype Exercise = Exercise(exerciseType: string, reps: int, day: int)

  // ---------------------------------------------------------------------
  // calculate_streak

  /** The days on which the user exercised. */
  function DaysOf(exercises: seq<Exercise>): (days: set<int>)
    ensures forall d :: d in days <==> exists i :: 0 <= i < |exercises| && exercises[i].day == d
  {
    set i | 0 <= i < |exercises| :: exercises[i].day
  }

  /** The latest exercise day. */
  function MaxDay(exercises: seq<Exercise>): (m: int)
    requires |exercises| > 0
    ensures m in DaysOf(exercises)
    ensures forall i :: 0 <= i < |exercises| ==> exercises[i].day <= m
  {
    if |exercises| == 1 then exercises[0].day
    else
      var rest := MaxDay(exercises[1..]);
      assert forall i :: 1 <= i < |exercises| ==> exercises[i] == exercises[1..][i - 1];
      if exercises[0].day >= rest then exercises[0].day else rest
  }

  predicate StrictlyDescending(s: seq<int>) {
    forall i, j :: 0 <= i < j < |s| ==> s[i] > s[j]
  }

  /** Insert a day into a strictly descending list, once. */
  function InsertDescending(x: int, s: seq<int>): (r: seq<int>)
    requires StrictlyDescending(s)
    ensures StrictlyDescending(r)
    ensures forall d :: d in r <==> d == x || d in s
  {
    if |s| == 0 then [x]
    else if x > s[0] then [x] + s
    else if x == s[0] then s
    else
      DescendingHead(s);
      var rest := InsertDescending(x, s[1..]);
      ConsDescending(s[0], rest);
      assert s == [s[0]] + s[1..];
      [s[0]] + rest
  }

  /** The head of a strictly descending list is above everything after it. */
  lemma DescendingHead(s: seq<int>)
    requires |s| > 0 && StrictlyDescending(s)
    ensures StrictlyDescending(s[1..])
    ensures forall d :: d in s[1..] ==> d < s[0]
  {
    forall d | d in s[1..] ensures d < s[0] {
      var k :| 0 <= k < |s[1..]| && s[1..][k] == d;
      assert s[k + 1] == d;
    }
  }

  /** A value above every element of a strictly descending list can go in front. */
  lemma ConsDescending(h: int, rest: seq<int>)
    requires StrictlyDescending(rest)
    requires forall d :: d in rest ==> d < h
    ensures StrictlyDescending([h] + rest)
  {
    var r := [h] + rest;
    forall i, j | 0 <= i < j < |r| ensures r[i] > r[j] {
      assert r[j] == rest[j - 1] && r[j] in rest;
      if i > 0 {
        assert r[i] == rest[i - 1];
      }
    }
  }

  /** `sorted(set(dates), reverse=True)`. */
  function DescendingDays(exercises: seq<Exercise>): (r: seq<int>)
    ensures StrictlyDescending(r)
    ensures forall d :: d in r <==> d in DaysOf(exercises)
  {
    if |exercises| == 0 then []
    else
      var rest := DescendingDays(exercises[1..]);
      assert forall i :: 1 <= i < |exercises| ==> exercises[i] == exercises[1..][i - 1];
      InsertDescending(exercises[0].day, rest)
  }

  /** The user exercised `j` days before `latest`. */
  predicate ActiveDaysBefore(days: set<int>, latest: int, j: int) {
    latest - j in days
  }

  /**
   * What `calculate_streak` answers: 0 with no exercises or a latest day
   * before yesterday, otherwise the length of the run of consecutive days
   * ending on the latest day. At most one streak satisfies it.
   */
  predicate IsStreak(exercises: seq<Exercise>, today: int, streak: nat) {
    if |exercises| == 0 || MaxDay(exercises) < today - 1 then streak == 0
    else
      (forall j :: 0 <= j < streak ==> ActiveDaysBefore(DaysOf(exercises), MaxDay(exercises), j))
      && !ActiveDaysBefore(DaysOf(exercises), MaxDay(exercises), streak)
  }

  /**
   * `calculate_streak(exercises)`: 0 with no exercises, or when the latest
   * exercise day is before yesterday; otherwise the length of the run of
   * consecutive days that ends on the latest day.
   */
  method CalculateStreak(exercises: seq<Exercise>, today: int) returns (streak: nat)
    ensures |exercises| == 0 ==> streak == 0
    ensures |exercises| > 0 && MaxDay(exercises) < today - 1 ==> streak == 0
    ensures |exercises| > 0 && MaxDay(exercises) >= today - 1 ==>
      1 <= streak <= |DaysOf(exercises)|
      && (forall j :: 0 <= j < streak ==> ActiveDaysBefore(DaysOf(exercises), MaxDay(exercises), j))
      && !ActiveDaysBefore(DaysOf(exercises), MaxDay(exercises), streak)
  {
    if |exercises| == 0 {
      return 0;
    }
    var dates := DescendingDays(exercises);
    var days := DaysOf(exercises);
    var latest := MaxDay(exercises);
    LatestFirst(exercises);
    if dates[0] < today - 1 {
      return 0;
    }
    streak := 1;
    var i := 1;
    while i < |dates|
      invariant 1 <= i <= |dates|
      invariant streak == i
      invariant forall j :: 0 <= j < i ==> dates[j] == latest - j
    {
      if dates[i - 1] - dates[i] == 1 {
        assert dates[i] == latest - i;
        streak := streak + 1;
      } else {
        GapEndsRun(dates, latest, i);
        RunIsActive(dates, days, latest, i);
        return;
      }
      i := i + 1;
    }
    RunEndsAfterAll(dates, latest);
    RunIsActive(dates, days, latest, i);
  }

  /** A gap after `i` consecutive days means the day before them is missing. */
  lemma GapEndsRun(dates: seq<int>, latest: int, i: nat)
    requires StrictlyDescending(dates)
    requires 1 <= i < |dates|
    requires forall j :: 0 <= j < i ==> dates[j] == latest - j
    requires dates[i - 1] - dates[i] != 1
    ensures latest - i !in dates
  {
    assert dates[i] < latest - i;
    forall k | 0 <= k < |dates| ensures dates[k] != latest - i {
      if k > i {
        assert dates[k] < dates[i];
      }
    }
  }

  /** When every listed day belongs to the run, the day before it is missing. */
  lemma RunEndsAfterAll(dates: seq<int>, latest: int)
    requires forall j :: 0 <= j < |dates| ==> dates[j] == latest - j
    ensures latest - |dates| !in dates
  {
    forall k | 0 <= k < |dates| ensures dates[k] != latest - |dates| {
      assert dates[k] == latest - k;
    }
  }

  /** The descending list of days starts with the latest day and has one entry per day. */
  lemma LatestFirst(exercises: seq<Exercise>)
    requires |exercises| > 0
    ensures |DescendingDays(exercises)| == |DaysOf(exercises)|
    ensures |DescendingDays(exercises)| > 0 && DescendingDays(exercises)[0] == MaxDay(exercises)
  {
    var dates := DescendingDays(exercises);
    var days := DaysOf(exercises);
    assert (set d | d in dates) == days;
    DistinctCardinality(dates);
    var latest := MaxDay(exercises);
    assert latest in dates;
    var k :| 0 <= k < |dates| && dates[k] == latest;
    assert dates[0] in days;
  }

  lemma RunIsActive(dates: seq<int>, days: set<int>, latest: int, n: nat)
    requires n <= |dates|
    requires forall d :: d in dates <==> d in days
    requires forall j :: 0 <= j < n ==> dates[j] == latest - j
    ensures forall j :: 0 <= j < n ==> ActiveDaysBefore(days, latest, j)
  {
    forall j | 0 <= j < n ensures ActiveDaysBefore(days, latest, j) {
      assert dates[j] in dates;
    }
  }

  // ---------------------------------------------------------------------
  // calculate_stats

  function SumReps(exercises: seq<Exercise>): int {
    if |exercises| == 0 then 0 else exercises[0].reps + SumReps(exercises[1..])
  }

  /** The exercises logged on `day`. */
  function OnDay(exercises: seq<Exercise>, day: int): (r: seq<Exercise>)
    ensures |r| <= |exercises|
    ensures forall e :: e in r <==> e in exercises && e.day == day
  {
    if |exercises| == 0 then []
    else if exercises[0].day == day then [exercises[0]] + OnDay(exercises[1..], day)
    else OnDay(exercises[1..], day)
  }

  /** The summed reps of one exercise type. */
  function TypeReps(exercises: seq<Exercise>, t: string): int {
    if |exercises| == 0 then 0
    else (if exercises[0].exerciseType == t then exercises[0].reps else 0) + TypeReps(exercises[1..], t)
  }

  /** The exercise types in order of first appearance (the key order of the counting dict). */
  function TypesInOrder(exercises: seq<Exercise>): (r: seq<string>)
    ensures forall t :: t in r <==> exists i :: 0 <= i < |exercises| && exercises[i].exerciseType == t
    ensures |exercises| > 0 ==> |r| > 0
  {
    var types := seq(|exercises|, i requires 0 <= i < |exercises| => exercises[i].exerciseType);
    assert forall i :: 0 <= i < |exercises| ==> types[i] == exercises[i].exerciseType && types[i] in types;
    forall t | t in types ensures exists i :: 0 <= i < |exercises| && exercises[i].exerciseType == t {
      var i :| 0 <= i < |types| && types[i] == t;
      assert exercises[i].exerciseType == t;
    }
    var r := Dedup(types);
    forall t | exists i :: 0 <= i < |exercises| && exercises[i].exerciseType == t ensures t in r {
      var i :| 0 <= i < |exercises| && exercises[i].exerciseType == t;
      assert types[i] in types;
    }
    r
  }

  /** `max(range(n), key=weights)`: the index of the first greatest weight. */
  function FirstMaxIndex(weights: seq<int>): (i: nat)
    requires |weights| > 0
    ensures i < |weights|
    ensures forall k :: 0 <= k < |weights| ==> weights[k] <= weights[i]
    ensures forall j :: 0 <= j < i ==> weights[j] < weights[i]
  {
    if |weights| == 1 then 0
    else
      var b := FirstMaxIndex(weights[1..]);
      if weights[0] >= weights[1..][b] then 0
      else
        assert forall k :: 1 <= k < |weights| ==> weights[k] == weights[1..][k - 1];
        b + 1
  }

  datatype Stats = Stats(
    totalReps: int,
    totalSessions: nat,
    currentStreak: nat,
    repsToday: int,
    sessionsToday: nat,
    favoriteExercise: Option<string>)

  /**
   * `calculate_stats(user)`: totals over all of the user's exercises and
   * over today's; the favourite is the type with the greatest summed reps
   * (the first such type to appear), or none without exercises.
   */
  method CalculateStats(exercises: seq<Exercise>, today: int) returns (s: Stats)
    ensures s.totalSessions == |exercises| && s.totalReps == SumReps(exercises)
    ensures s.currentStreak >= 0 && IsStreak(exercises, today, s.currentStreak)
    ensures s.sessionsToday == |OnDay(exercises, today)| && s.repsToday == SumReps(OnDay(exercises, today))
    ensures s.sessionsToday <= s.totalSessions
    ensures s.favoriteExercise.None? <==> |exercises| == 0
    ensures s.favoriteExercise.Some? ==>
      (exists i :: 0 <= i < |exercises| && exercises[i].exerciseType == s.favoriteExercise.value)
      && forall i :: 0 <= i < |exercises| ==>
        TypeReps(exercises, exercises[i].exerciseType) <= TypeReps(exercises, s.favoriteExercise.value)
  {
    var streak := CalculateStreak(exercises, today);
    var favorite: Option<string> := None;
    if |exercises| > 0 {
      var types := TypesInOrder(exercises);
      var weights := seq(|types|, k requires 0 <= k < |types| => TypeReps(exercises, types[k]));
      var best := FirstMaxIndex(weights);
      favorite := Some(types[best]);
      assert types[best] in types;
      forall i | 0 <= i < |exercises|
        ensures TypeReps(exercises, exercises[i].exerciseType) <= TypeReps(exercises, types[best])
      {
        assert exercises[i].exerciseType in types;
        var k :| 0 <= k < |types| && types[k] == exercises[i].exerciseType;
        assert weights[k] <= weights[best];
      }
    }
    var todays := OnDay(exercises, today);
    s := Stats(SumReps(exercises), |exercises|, streak, SumReps(todays), |todays|, favorite);
  }

  /** With non-negative reps, today's reps never exceed the total. */
  lemma {:induction false} TodayWithinTotal(exercises: seq<Exercise>, today: int)
    requires forall i :: 0 <= i < |exercises| ==> exercises[i].reps >= 0
    ensures 0 <= SumReps(OnDay(exercises, today)) <= SumReps(exercises)
  {
    if |exercises| > 0 {
      assert forall i :: 1 <= i < |exercises| ==> exercises[i] == exercises[1..][i - 1];
      TodayWithinTotal(exercises[1..], today);
    }
  }

  // ---------------------------------------------------------------------
  // Leaderboard and sign-up

  datatype LeaderRow = LeaderRow(username: string, totalReps: int, sessions: int)
  datatype RankedRow = RankedRow(rank: int, username: string, totalReps: int, sessions: int)

  /** The leaderboard response: the query's rows numbered 1..n in result order. */
  function RankRows(rows: seq<LeaderRow>): (r: seq<RankedRow>)
    ensures |r| == |rows|
    ensures forall i :: 0 <= i < |r| ==> r[i].rank == i + 1
    ensures forall i :: 0 <= i < |r| ==>
      r[i].username == rows[i].username && r[i].totalReps == rows[i].totalReps && r[i].sessions == rows[i].sessions
  {
    seq(|rows|, i requires 0 <= i < |rows| => RankedRow(i + 1, rows[i].username, rows[i].totalReps, rows[i].sessions))
  }

  /** Rows in descending order of reps get ranks in the same order: a better rank never has fewer reps. */
  lemma RanksFollowReps(rows: seq<LeaderRow>)
    requires forall i, j :: 0 <= i < j < |rows| ==> rows[i].totalReps >= rows[j].totalReps
    ensures forall a, b :: a in RankRows(rows) && b in RankRows(rows) && a.rank < b.rank ==> a.totalReps >= b.totalReps
  {
    var r := RankRows(rows);
    forall a, b | a in r && b in r && a.rank < b.rank ensures a.totalReps >= b.totalReps {
      var i :| 0 <= i < |r| && r[i] == a;
      var j :| 0 <= j < |r| && r[j] == b;
    }
  }

  datatype User = User(username: string, apiKey: string)

  /**
   * `POST /api/users`: 400 "Username already exists" for a taken name;
   * otherwise the user is stored with the freshly generated key.
   */
  function CreateUser(users: seq<User>, username: string, apiKey: string): (r: Result<seq<User>, (int, string)>)
    ensures r.Err? <==> exists i :: 0 <= i < |users| && users[i].username == username
    ensures r.Err? ==> r.error == (400, "Username already exists")
    ensures r.Ok? ==> r.value == users + [User(username, apiKey)]
  {
    if exists i :: 0 <= i < |users| && users[i].username == username then Err((400, "Username already exists"))
    else Ok(users + [User(username, apiKey)])
  }

  /** Names stay unique: creating users one after another never stores a name twice. */
  lemma CreateUserKeepsNamesUnique(users: seq<User>, username: string, apiKey: string)
    requires forall i, j :: 0 <= i < j < |users| ==> users[i].username != users[j].username
    requires CreateUser(users, username, apiKey).Ok?
    ensures var u := CreateUser(users, username, apiKey).value;
            forall i, j :: 0 <= i < j < |u| ==> u[i].username != u[j].username
  {
  }

  // ---------------------------------------------------------------------
  // The /mcp endpoint

  /** JSON-RPC 2.0 error codes used by the endpoint (section 5.1 of the JSON-RPC 2.0 specification and server-defined ones). */
  const AUTH_ERROR: int := -32001
  const TOOL_ERROR: int := -32000
  const METHOD_NOT_FOUND: int := -32601

  /** The tools a `tools/call` can run. */
  datatype ToolAction =
    | LogSession(exercise: Value, reps: Value, duration: Value)
    | GetStats
    | GetLeaderboard
    | CheckStreak
    | GetProgressToday

  /** `str(x)` for the scalar values a tool or method name can be; containers are not rendered. */
  function PyStr(v: Value): string {
    match v
    case VNull => "None"
    case VBool(b) => if b then "True" else "False"
    case VInt(i) => IntToString(i)
    case VStr(s) => s
    case _ => "<container>"
  }

  /**
   * `handle_mcp_tool_call`'s routing: the five known tools, with
   * `arguments["exercise"]` and `arguments["reps"]` required for logging
   * (`KeyError`, shown as the quoted key) and `duration` defaulting to 0;
   * an unknown name raises "Unknown tool: <name>". An exception whose
   * text is not modelled is `Err(None)`.
   */
  function RouteTool(toolName: Value, arguments: Value): (r: Result<ToolAction, Option<string>>)
    ensures !(toolName.VStr? && toolName.s in TOOL_NAMES)
      ==> r == Err(Some("Unknown tool: " + PyStr(toolName)))
    ensures toolName == VStr("log_exercise_session") && arguments.VObj? ==>
      (r.Ok? <==> "exercise" in arguments.fields && "reps" in arguments.fields)
    ensures toolName == VStr("log_exercise_session") && arguments.VObj? && r.Ok? ==>
      r.value == LogSession(arguments.fields["exercise"], arguments.fields["reps"], GetOr(arguments.fields, "duration", VInt(0)))
    ensures toolName == VStr("get_stats") ==> r == Ok(GetStats)
  {
    if toolName == VStr("log_exercise_session") then
      if !arguments.VObj? then Err(None)
      else if "exercise" !in arguments.fields then Err(Some("'exercise'"))
      else if "reps" !in arguments.fields then Err(Some("'reps'"))
      else Ok(LogSession(arguments.fields["exercise"], arguments.fields["reps"], GetOr(arguments.fields, "duration", VInt(0))))
    else if toolName == VStr("get_stats") then Ok(GetStats)
    else if toolName == VStr("get_leaderboard") then Ok(GetLeaderboard)
    else if toolName == VStr("check_streak") then Ok(CheckStreak)
    else if toolName == VStr("get_progress_today") then Ok(GetProgressToday)
    else Err(Some("Unknown tool: " + PyStr(toolName)))
  }

  /** The endpoint's answer: an HTTP 500 when the body or params is not an object, or a JSON-RPC reply. */
  datatype McpReply =
    | InternalError
    | RpcResult(id: Value, result: Value)
    | RpcError(id: Value, code: int, message: Option<string>)

  /** The JSON object of a JSON-RPC reply. */
  function Render(reply: McpReply): (v: Value)
    requires !reply.InternalError?
    ensures v.VObj? && "jsonrpc" in v.fields && v.fields["jsonrpc"] == VStr("2.0")
    ensures "id" in v.fields && v.fields["id"] == reply.id
    ensures reply.RpcResult? <==> "result" in v.fields
    ensures reply.RpcError? <==> "error" in v.fields
  {
    match reply
    case RpcResult(id, result) => VObj(map["jsonrpc" := VStr("2.0"), "id" := id, "result" := result])
    case RpcError(id, code, message) =>
      var m := if message.Some? then VStr(message.value) else VNull;
      VObj(map["jsonrpc" := VStr("2.0"), "id" := id, "error" := VObj(map["code" := VInt(code), "message" := m])])
  }

  /** `get_user_by_api_key` finds a user. */
  predicate KnownKey(key: string, users: seq<User>) {
    exists i :: 0 <= i < |users| && users[i].apiKey == key
  }

  /** The methods answered without an API key. */
  predicate OpenMethod(m: Value) {
    m == VStr("initialize") || m == VStr("notifications/initialized") || m == VStr("tools/list")
  }

  /** The names of the tools `tools/list` announces, in order. */
  const TOOL_NAMES: seq<string> := ["log_exercise_session", "get_stats", "get_leaderboard", "check_streak", "get_progress_today"]

  /** The tool list with each tool reduced to its name (descriptions and input schemas are not modelled). */
  const TOOL_LIST: Value := VList(seq(|TOOL_NAMES|, i requires 0 <= i < |TOOL_NAMES| => VObj(map["name" := VStr(TOOL_NAMES[i])])))

  const INITIALIZE_RESULT: Value := VObj(map[
    "protocolVersion" := VStr("2024-11-05"),
    "capabilities" := VObj(map["tools" := VObj(map[])]),
    "serverInfo" := VObj(map["name" := VStr("vibereps"), "version" := VStr("1.0.0")])])

  /**
   * `POST /mcp`. `apiKey` is the X-API-Key header, `users` the stored
   * users, and `execute` what running a routed tool against the database
   * yields (its JSON result, or the text of the exception it raised). The
   * result's `text` holds the tool's document itself rather than its
   * serialised form.
   */
  function McpEndpoint(apiKey: Option<string>, body: Value, users: seq<User>,
                       execute: ToolAction -> Result<Value, Option<string>>): (r: McpReply)
    ensures !body.VObj? ==> r == InternalError
    ensures body.VObj? && !r.InternalError? ==> r.id == GetOr(body.fields, "id", VNull)
    ensures body.VObj? && OpenMethod(GetOr(body.fields, "method", VNull)) ==> r.RpcResult?
    ensures r.RpcError? && r.code == AUTH_ERROR ==>
      body.VObj? && GetOr(body.fields, "method", VNull) == VStr("tools/call")
      && (apiKey.None? || apiKey == Some("") || !KnownKey(apiKey.value, users))
    ensures body.VObj? && GetOr(body.fields, "method", VNull) == VStr("tools/call") && (apiKey.None? || apiKey == Some("")) ==>
      r == RpcError(GetOr(body.fields, "id", VNull), AUTH_ERROR, Some("X-API-Key header required"))
    ensures r.RpcError? && r.code == METHOD_NOT_FOUND ==>
      !OpenMethod(GetOr(body.fields, "method", VNull)) && GetOr(body.fields, "method", VNull) != VStr("tools/call")
    ensures body.VObj? && !OpenMethod(GetOr(body.fields, "method", VNull)) && GetOr(body.fields, "method", VNull) != VStr("tools/call") ==>
      r == RpcError(GetOr(body.fields, "id", VNull), METHOD_NOT_FOUND, Some("Method not found: " + PyStr(GetOr(body.fields, "method", VNull))))
    ensures r.RpcError? ==> r.code in {AUTH_ERROR, TOOL_ERROR, METHOD_NOT_FOUND}
    ensures (body.VObj? && GetOr(body.fields, "method", VNull) == VStr("tools/call")
             && apiKey.Some? && apiKey.value != "" && !KnownKey(apiKey.value, users)) ==>
      r == RpcError(GetOr(body.fields, "id", VNull), AUTH_ERROR, Some("Invalid API key"))
    ensures (body.VObj? && GetOr(body.fields, "method", VNull) == VStr("tools/call")
             && apiKey.Some? && apiKey.value != "" && KnownKey(apiKey.value, users)
             && GetOr(body.fields, "params", VObj(map[])).VObj?) ==>
      var id := GetOr(body.fields, "id", VNull);
      var params := GetOr(body.fields, "params", VObj(map[])).fields;
      var routed := RouteTool(GetOr(params, "name", VNull), GetOr(params, "arguments", VObj(map[])));
      (routed.Err? ==> r == RpcError(id, TOOL_ERROR, routed.error))
      && (routed.Ok? && execute(routed.value).Err? ==> r == RpcError(id, TOOL_ERROR, execute(routed.value).error))
      && (routed.Ok? && execute(routed.value).Ok? ==>
            r == RpcResult(id, VObj(map["content" := VList([VObj(map["type" := VStr("text"), "text" := execute(routed.value).value])])])))
  {
    if !body.VObj? then InternalError
    else
      var rpcMethod := GetOr(body.fields, "method", VNull);
      var params := GetOr(body.fields, "params", VObj(map[]));
      var id := GetOr(body.fields, "id", VNull);
      if rpcMethod == VStr("initialize") then RpcResult(id, INITIALIZE_RESULT)
      else if rpcMethod == VStr("notifications/initialized") then RpcResult(id, VObj(map[]))
      else if rpcMethod == VStr("tools/list") then RpcResult(id, VObj(map["tools" := TOOL_LIST]))
      else if rpcMethod == VStr("tools/call") then
        if apiKey.None? || apiKey == Some("") then RpcError(id, AUTH_ERROR, Some("X-API-Key header required"))
        else if !KnownKey(apiKey.value, users) then RpcError(id, AUTH_ERROR, Some("Invalid API key"))
        else if !params.VObj? then InternalError
        else
          var toolName := GetOr(params.fields, "name", VNull);
          var arguments := GetOr(params.fields, "arguments", VObj(map[]));
          match RouteTool(toolName, arguments)
          case Err(message) => RpcError(id, TOOL_ERROR, message)
          case Ok(action) =>
            match execute(action)
            case Err(message) => RpcError(id, TOOL_ERROR, message)
            case Ok(result) => RpcResult(id, VObj(map["content" := VList([VObj(map["type" := VStr("text"), "text" := result])])]))
      else RpcError(id, METHOD_NOT_FOUND, Some("Method not found: " + PyStr(rpcMethod)))
  }

  /** A valid key never changes what an open method answers, and a bad key only affects tool calls. */
  lemma OpenMethodsIgnoreKey(key1: Option<string>, key2: Option<string>, body: Value, users: seq<User>,
                             execute: ToolAction -> Result<Value, Option<string>>)
    requires body.VObj? && OpenMethod(GetOr(body.fields, "method", VNull))
    ensures McpEndpoint(key1, body, users, execute) == McpEndpoint(key2, body, users, execute)
  {
  }
}

=== FILE: session_manager.dfy ===
/**
 * The menubar app's multi-session registry (electron/session-manager.js).
 *
 * Every operation is a pure transformer of a `Registry` that takes the
 * current time `now` (milliseconds) as an argument in place of `Date.now()`.
 * The JavaScript `Map` keeps insertion order, and `Map.set` on a key that is
 * already present keeps that key's position; `Registry` records both the
 * order (`order`) and the records (`byId`).
 */
module SessionManager {
  import opened Common

  /** Sessions idle for longer than this many milliseconds are swept. */
  const SESSION_TIMEOUT_MS: int := 10 * 60 * 1000
  /** The activity log keeps at most this many entries. */
  const MAX_LOG: nat := 10

  const ACTIVE: string := "active"
  const EXERCISING: string := "exercising"
  const COMPLETE: string := "complete"

  /**
   * A session key as the HTTP layer passes it: a string, or `None` for a
   * request that left `session_id` out (JavaScript `undefined`, which a
   * `Map` accepts as a key like any other).
   */
  type Key = Option<string>

  /** A session's context object: what Claude is working on. */
  type Context = map<string, Value>

  /** The fields of an activity report; `None` is an absent field. */
  datatype Activity = Activity(toolName: Option<string>, filePath: Option<string>, context: Option<Context>)

  /** One activity-log entry: the report stamped with the time it arrived. */
  datatype LogEntry = LogEntry(timestamp: int, activity: Activity)

  datatype Session = Session(
    id: Key,
    pid: Option<int>,
    context: Context,
    status: string,
    lastActivity: int,
    createdAt: int,
    activityLog: seq<LogEntry>)

  /** The `data` argument of `register`; `None` is an absent field. */
  datatype RegisterData = RegisterData(pid: Option<int>, context: Option<Context>, status: Option<string>)

  datatype Registry = Registry(order: seq<Key>, byId: map<Key, Session>)

  /** The empty registry the constructor creates. */
  const EMPTY: Registry := Registry([], map[])

  /**
   * The registry invariant: `order` lists every key exactly once, and each
   * record is stored under its own id.
   */
  ghost predicate Valid(reg: Registry) {
    && Distinct(reg.order)
    && (forall k :: k in reg.byId <==> k in reg.order)
    && (forall k :: k in reg.byId ==> reg.byId[k].id == k)
  }

  /** Every activity log in the registry is within the bound. */
  ghost predicate LogsBounded(reg: Registry) {
    forall k :: k in reg.byId ==> |reg.byId[k].activityLog| <= MAX_LOG
  }

  /** JavaScript truthiness of an optional string field. */
  predicate Present(s: Option<string>) {
    s.Some? && s.value != ""
  }

  // ---------------------------------------------------------------------
  // Map primitives

  /** `sessions.set(key, s)`: a new key goes last, an existing key keeps its place. */
  function Put(reg: Registry, key: Key, s: Session): (r: Registry)
    ensures r.byId == reg.byId[key := s]
    ensures key in reg.byId ==> r.order == reg.order
    ensures key !in reg.byId ==> r.order == reg.order + [key]
    ensures Valid(reg) && s.id == key ==> Valid(r)
  {
    if key in reg.byId then Registry(reg.order, reg.byId[key := s])
    else Registry(reg.order + [key], reg.byId[key := s])
  }

  /** The sessions in iteration order (`getAll`). */
  function GetAll(reg: Registry): (all: seq<Session>)
    requires Valid(reg)
    ensures |all| == |reg.order|
    ensures forall i :: 0 <= i < |all| ==> all[i] == reg.byId[reg.order[i]]
  {
    seq(|reg.order|, i requires 0 <= i < |reg.order| => reg.byId[reg.order[i]])
  }

  /** Under the invariant there are as many sessions in `getAll` as keys in the map. */
  lemma SessionCount(reg: Registry)
    requires Valid(reg)
    ensures |GetAll(reg)| == |reg.byId|
  {
    DistinctCardinality(reg.order);
    assert reg.byId.Keys == set k | k in reg.order;
  }

  // ---------------------------------------------------------------------
  // register

  /**
   * `register(id, data)`: a fresh record under `id`, replacing any previous
   * one. Missing fields default to pid null, an empty context and status
   * "active" (`||` also replaces a pid of 0 and an empty status); both
   * timestamps are `now` and the activity log starts empty.
   */
  function Register(reg: Registry, id: Key, data: RegisterData, now: int): (r: (Registry, Session))
    ensures r.0 == Put(reg, id, r.1)
    ensures r.1.id == id && r.1.activityLog == []
    ensures r.1.lastActivity == now && r.1.createdAt == now
    ensures r.1.pid == (if data.pid == Some(0) then None else data.pid)
    ensures r.1.context == data.context.GetOr(map[])
    ensures r.1.status == (if Present(data.status) then data.status.value else ACTIVE)
    ensures Valid(reg) ==> Valid(r.0)
    ensures LogsBounded(reg) ==> LogsBounded(r.0)
  {
    var pid := if data.pid.Some? && data.pid.value != 0 then data.pid else None;
    var status := if Present(data.status) then data.status.value else ACTIVE;
    var s := Session(id, pid, data.context.GetOr(map[]), status, now, now, []);
    (Put(reg, id, s), s)
  }

  // ---------------------------------------------------------------------
  // updateActivity

  /** `path.split(/[\\/]/).pop()`: the part after the last `/` or `\`. */
  predicate IsPathSep(c: char) {
    c == '/' || c == '\\'
  }

  function Basename(path: string): (r: string)
    ensures forall i :: 0 <= i < |r| ==> !IsPathSep(r[i])
    ensures EndsWith(path, r)
    ensures |r| < |path| ==> IsPathSep(path[|path| - |r| - 1])
  {
    if |path| == 0 then ""
    else if IsPathSep(path[|path| - 1]) then ""
    else
      var init := Basename(path[..|path| - 1]);
      SuffixGrows(path, init);
      init + [path[|path| - 1]]
  }

  /** A suffix of all but the last character, extended by that character, is a suffix. */
  lemma SuffixGrows(path: string, init: string)
    requires |path| > 0 && EndsWith(path[..|path| - 1], init)
    ensures EndsWith(path, init + [path[|path| - 1]])
    ensures |init| + 1 < |path| ==> path[|path| - |init| - 2] == path[..|path| - 1][|path| - 1 - |init| - 1]
  {
    assert path[..|path| - 1][|path| - 1 - |init|..] == init;
    assert path[|path| - |init| - 1..] == init + [path[|path| - 1]];
  }

  /** The context an unknown session is auto-registered with: the activity object itself. */
  function ActivityObject(a: Activity): (c: Context)
    ensures "tool_name" in c <==> a.toolName.Some?
    ensures "file_path" in c <==> a.filePath.Some?
    ensures "context" in c <==> a.context.Some?
    ensures a.toolName.Some? ==> c["tool_name"] == VStr(a.toolName.value)
    ensures a.filePath.Some? ==> c["file_path"] == VStr(a.filePath.value)
    ensures a.context.Some? ==> c["context"] == VObj(a.context.value)
    ensures c.Keys <= {"tool_name", "file_path", "context"}
  {
    var c0: Context := map[];
    var c1 := if a.toolName.Some? then c0["tool_name" := VStr(a.toolName.value)] else c0;
    var c2 := if a.filePath.Some? then c1["file_path" := VStr(a.filePath.value)] else c1;
    if a.context.Some? then c2["context" := VObj(a.context.value)] else c2
  }

  /**
   * How an activity report rewrites a known session's context: `lastTool`
   * when a tool name is present, `lastFile` and an "Editing <basename>"
   * summary when a file path is present, then the report's own context
   * merged over the result (incoming keys win).
   */
  function MergeActivity(c: Context, a: Activity): (r: Context)
    ensures a.context.Some? ==> forall k :: k in a.context.value ==> k in r && r[k] == a.context.value[k]
    ensures Present(a.toolName) && !(a.context.Some? && "lastTool" in a.context.value)
      ==> "lastTool" in r && r["lastTool"] == VStr(a.toolName.value)
    ensures Present(a.filePath) && !(a.context.Some? && "lastFile" in a.context.value)
      ==> "lastFile" in r && r["lastFile"] == VStr(a.filePath.value)
    ensures Present(a.filePath) && !(a.context.Some? && "summary" in a.context.value)
      ==> "summary" in r && r["summary"] == VStr("Editing " + Basename(a.filePath.value))
    ensures forall k :: (k in c && k != "lastTool" && k != "lastFile" && k != "summary"
      && !(a.context.Some? && k in a.context.value)) ==> k in r && r[k] == c[k]
    ensures forall k :: k in r ==> (k in c || k == "lastTool" || k == "lastFile" || k == "summary"
      || (a.context.Some? && k in a.context.value))
    ensures !Present(a.toolName) && !Present(a.filePath) && a.context.None? ==> r == c
  {
    var c2 := Annotate(c, a);
    if a.context.Some? then c2 + a.context.value else c2
  }

  /** The first half of `MergeActivity`: the tool and file annotations, before the report's context. */
  function Annotate(c: Context, a: Activity): (r: Context)
    ensures Present(a.toolName) ==> "lastTool" in r && r["lastTool"] == VStr(a.toolName.value)
    ensures Present(a.filePath) ==> "lastFile" in r && r["lastFile"] == VStr(a.filePath.value)
    ensures Present(a.filePath) ==> "summary" in r && r["summary"] == VStr("Editing " + Basename(a.filePath.value))
    ensures forall k :: k in c && k != "lastTool" && k != "lastFile" && k != "summary" ==> k in r && r[k] == c[k]
    ensures forall k :: k in r ==> k in c || k == "lastTool" || k == "lastFile" || k == "summary"
    ensures !Present(a.toolName) && !Present(a.filePath) ==> r == c
  {
    var c1 := if Present(a.toolName) then c["lastTool" := VStr(a.toolName.value)] else c;
    if Present(a.filePath)
    then c1["lastFile" := VStr(a.filePath.value)]["summary" := VStr("Editing " + Basename(a.filePath.value))]
    else c1
  }

  /** `activityLog.push(e)` followed by one `shift()` when the log is longer than ten. */
  function AppendLog(log: seq<LogEntry>, e: LogEntry): (r: seq<LogEntry>)
    ensures |log| <= MAX_LOG ==> |r| <= MAX_LOG
    ensures |r| > 0 && r[|r| - 1] == e
    ensures |log| < MAX_LOG ==> r == log + [e]
    ensures |log| >= MAX_LOG ==> r == log[1..] + [e]
  {
    var pushed := log + [e];
    if |pushed| > MAX_LOG then pushed[1..] else pushed
  }

  /** Any report makes a finished session active again; other statuses stay. */
  function StatusAfterActivity(status: string): (r: string)
    ensures status == COMPLETE ==> r == ACTIVE
    ensures status != COMPLETE ==> r == status
  {
    if status == COMPLETE then ACTIVE else status
  }

  /**
   * `updateActivity(id, activity)`. It never answers null: an unknown id is
   * registered with the activity object as its context and an empty log (the
   * first report is not logged); a known id is refreshed, its context
   * rewritten by `MergeActivity`, the report appended to its bounded log and
   * a completed status turned back into "active". No other session changes.
   */
  function UpdateActivity(reg: Registry, id: Key, a: Activity, now: int): (r: (Registry, Session))
    ensures id in r.0.byId && r.0.byId[id] == r.1
    ensures forall k :: k != id ==> (k in r.0.byId <==> k in reg.byId)
    ensures forall k :: k != id && k in reg.byId ==> r.0.byId[k] == reg.byId[k]
    ensures r.1.lastActivity == now
    ensures id !in reg.byId ==> (r.1.context == ActivityObject(a) && r.1.activityLog == []
      && r.1.status == ACTIVE && r.1.createdAt == now)
    ensures id in reg.byId ==>
      var old_ := reg.byId[id];
      && r.1.context == MergeActivity(old_.context, a)
      && r.1.activityLog == AppendLog(old_.activityLog, LogEntry(now, a))
      && r.1.status == StatusAfterActivity(old_.status)
      && r.1.createdAt == old_.createdAt && r.1.pid == old_.pid
    ensures Valid(reg) ==> Valid(r.0)
    ensures LogsBounded(reg) ==> LogsBounded(r.0)
  {
    if id !in reg.byId then
      Register(reg, id, RegisterData(None, Some(ActivityObject(a)), None), now)
    else
      var s := reg.byId[id];
      var s' := s.(
        lastActivity := now,
        context := MergeActivity(s.context, a),
        activityLog := AppendLog(s.activityLog, LogEntry(now, a)),
        status := StatusAfterActivity(s.status));
      (Put(reg, id, s'), s')
  }

  // ---------------------------------------------------------------------
  // markComplete / markExercising / get / remove

  /** Set a known session's status and refresh it; an unknown id changes nothing. */
  function SetStatus(reg: Registry, id: Key, status: string, now: int): (r: (Registry, Option<Session>))
    ensures id !in reg.byId ==> r.0 == reg && r.1 == None
    ensures id in reg.byId ==> (r.1.Some? && r.1.value.status == status && r.1.value.lastActivity == now
      && r.1.value == reg.byId[id].(status := status, lastActivity := now)
      && r.0.byId == reg.byId[id := r.1.value] && r.0.order == reg.order)
    ensures Valid(reg) ==> Valid(r.0)
    ensures LogsBounded(reg) ==> LogsBounded(r.0)
  {
    if id in reg.byId then
      var s := reg.byId[id].(status := status, lastActivity := now);
      (Put(reg, id, s), Some(s))
    else (reg, None)
  }

  /** `markComplete(id)`. */
  function MarkComplete(reg: Registry, id: Key, now: int): (r: (Registry, Option<Session>))
    ensures r == SetStatus(reg, id, COMPLETE, now)
    ensures id in reg.byId ==> r.1.Some? && r.1.value.status == COMPLETE
  {
    SetStatus(reg, id, COMPLETE, now)
  }

  /** `markExercising(id)`. */
  function MarkExercising(reg: Registry, id: Key, now: int): (r: (Registry, Option<Session>))
    ensures r == SetStatus(reg, id, EXERCISING, now)
    ensures id in reg.byId ==> r.1.Some? && r.1.value.status == EXERCISING
  {
    SetStatus(reg, id, EXERCISING, now)
  }

  /** `get(id)`: the stored record, or null. */
  function Get(reg: Registry, id: Key): (r: Option<Session>)
    ensures r.Some? <==> id in reg.byId
    ensures r.Some? ==> r.value == reg.byId[id]
  {
    if id in reg.byId then Some(reg.byId[id]) else None
  }

  /** `remove(id)`: exactly that key disappears; order of the rest is kept. */
  function Remove(reg: Registry, id: Key): (r: Registry)
    ensures r.byId == reg.byId - {id}
    ensures forall k :: k in r.order <==> k in reg.order && k != id
    ensures IsSubsequence(r.order, reg.order)
    ensures Valid(reg) ==> Valid(r)
    ensures LogsBounded(reg) ==> LogsBounded(r)
  {
    Registry(Filter(reg.order, (k: Key) => k != id), reg.byId - {id})
  }

  // ---------------------------------------------------------------------
  // getActive / cleanup / getCounts

  /** `getActive()`: the sessions whose status is not "complete", in order. */
  function GetActive(reg: Registry): (r: seq<Session>)
    requires Valid(reg)
    ensures forall s :: s in r <==> s in GetAll(reg) && s.status != COMPLETE
    ensures IsSubsequence(r, GetAll(reg))
  {
    Filter(GetAll(reg), (s: Session) => s.status != COMPLETE)
  }

  /** A session is stale once more than the timeout has passed since its last activity. */
  predicate Stale(s: Session, now: int) {
    now - s.lastActivity > SESSION_TIMEOUT_MS
  }

  /**
   * `cleanup()` at time `now`: removes exactly the stale sessions. A session
   * idle for exactly the timeout, and every fresh one, is kept unchanged.
   */
  function Cleanup(reg: Registry, now: int): (r: Registry)
    ensures forall k :: k in r.byId <==> k in reg.byId && !Stale(reg.byId[k], now)
    ensures forall k :: k in r.byId ==> r.byId[k] == reg.byId[k]
    ensures IsSubsequence(r.order, reg.order)
    ensures Valid(reg) ==> Valid(r)
    ensures LogsBounded(reg) ==> LogsBounded(r)
  {
    var keep := (k: Key) => k in reg.byId && !Stale(reg.byId[k], now);
    Registry(Filter(reg.order, keep), map k | k in reg.byId && !Stale(reg.byId[k], now) :: reg.byId[k])
  }

  /** Number of sessions in `all` whose status is `status`. */
  function CountStatus(all: seq<Session>, status: string): (n: nat)
    ensures n <= |all|
  {
    if |all| == 0 then 0
    else CountStatus(all[..|all| - 1], status) + (if all[|all| - 1].status == status then 1 else 0)
  }

  /** The counts object before any session is visited. */
  const ZERO_COUNTS: map<string, int> := map[ACTIVE := 0, EXERCISING := 0, COMPLETE := 0, "total" := 0]

  /**
   * The loop of `getCounts()` over `all`: each session bumps `total` and
   * then the bucket named by its status (creating it if needed).
   */
  function CountsOf(all: seq<Session>): (counts: map<string, int>)
    ensures "total" in counts && ACTIVE in counts && EXERCISING in counts && COMPLETE in counts
  {
    if |all| == 0 then ZERO_COUNTS
    else
      var c := CountsOf(all[..|all| - 1]);
      var st := all[|all| - 1].status;
      var c' := c["total" := c["total"] + 1];
      c'[st := (if st in c' then c'[st] else 0) + 1]
  }

  /** `getCounts()`. */
  function GetCounts(reg: Registry): (counts: map<string, int>)
    requires Valid(reg)
    ensures "total" in counts && ACTIVE in counts && EXERCISING in counts && COMPLETE in counts
  {
    CountsOf(GetAll(reg))
  }

  /** No session carries the reserved status name "total". */
  predicate NoTotalStatus(all: seq<Session>) {
    forall i :: 0 <= i < |all| ==> all[i].status != "total"
  }

  /** Each status bucket counts exactly the sessions with that status, and `total` counts them all. */
  lemma {:induction false} CountsOfCorrect(all: seq<Session>)
    requires NoTotalStatus(all)
    ensures CountsOf(all)["total"] == |all|
    ensures forall st :: st != "total" && st in CountsOf(all) ==> CountsOf(all)[st] == CountStatus(all, st)
    ensures forall st :: st !in CountsOf(all) ==> CountStatus(all, st) == 0
  {
    if |all| > 0 {
      var init := all[..|all| - 1];
      CountsOfCorrect(init);
      forall st | st != "total" && st in CountsOf(all) ensures CountsOf(all)[st] == CountStatus(all, st) {
        if st !in CountsOf(init) {
          assert CountStatus(init, st) == 0;
        }
      }
    } else {
      forall st | st in ZERO_COUNTS && st != "total" ensures ZERO_COUNTS[st] == CountStatus(all, st) { }
    }
  }

  /** A bucket exists exactly when it is one of the fixed four or some session has that status. */
  lemma {:induction false} CountsOfKeys(all: seq<Session>)
    ensures forall st :: st in CountsOf(all) <==> st in ZERO_COUNTS || exists i :: 0 <= i < |all| && all[i].status == st
  {
    if |all| > 0 {
      var init := all[..|all| - 1];
      CountsOfKeys(init);
      assert CountsOf(all).Keys == CountsOf(init).Keys + {all[|all| - 1].status};
      forall st | st in CountsOf(all) ensures st in ZERO_COUNTS || exists i :: 0 <= i < |all| && all[i].status == st {
        if st != all[|all| - 1].status && st !in ZERO_COUNTS {
          var i :| 0 <= i < |init| && init[i].status == st;
          assert all[i].status == st;
        }
      }
      forall st | st in ZERO_COUNTS || exists i :: 0 <= i < |all| && all[i].status == st ensures st in CountsOf(all) {
        if st !in ZERO_COUNTS && st != all[|all| - 1].status {
          var i :| 0 <= i < |all| && all[i].status == st;
          assert init[i].status == st;
        }
      }
    }
  }

  /** When every status is one of the three the app uses, the buckets add up to the total. */
  lemma {:induction false} BucketsSumToTotal(all: seq<Session>)
    requires forall i :: 0 <= i < |all| ==> all[i].status in {ACTIVE, EXERCISING, COMPLETE}
    ensures CountStatus(all, ACTIVE) + CountStatus(all, EXERCISING) + CountStatus(all, COMPLETE) == |all|
  {
    if |all| > 0 {
      BucketsSumToTotal(all[..|all| - 1]);
    }
  }

  /**
   * `getCounts().total` is the number of sessions, each bucket counts the
   * sessions with that status, and with only the app's three statuses in use
   * the three buckets add up to the total.
   */
  lemma CountsMatchRegistry(reg: Registry)
    requires Valid(reg)
    requires forall k :: k in reg.byId ==> reg.byId[k].status in {ACTIVE, EXERCISING, COMPLETE}
    ensures GetCounts(reg)["total"] == |reg.byId|
    ensures GetCounts(reg)[ACTIVE] + GetCounts(reg)[EXERCISING] + GetCounts(reg)[COMPLETE] == GetCounts(reg)["total"]
    ensures GetCounts(reg)[COMPLETE] == CountStatus(GetAll(reg), COMPLETE)
  {
    var all := GetAll(reg);
    assert forall i :: 0 <= i < |all| ==> all[i] == reg.byId[reg.order[i]] && reg.order[i] in reg.byId;
    CountsOfCorrect(all);
    BucketsSumToTotal(all);
    SessionCount(reg);
  }

  // ---------------------------------------------------------------------
  // Invariants across sequences of calls

  /** A report keeps every activity log within ten entries, the reported session's included. */
  lemma LogBoundAfterActivity(reg: Registry, id: Key, a: Activity, now: int)
    requires LogsBounded(reg)
    ensures LogsBounded(UpdateActivity(reg, id, a, now).0)
    ensures |UpdateActivity(reg, id, a, now).1.activityLog| <= MAX_LOG
  {
  }

  /** Appending to a full log drops exactly the oldest entry: ten entries remain, the newest last. */
  lemma {:induction false} LogKeepsNewest(log: seq<LogEntry>, e: LogEntry)
    requires |log| == MAX_LOG
    ensures AppendLog(log, e) == log[1..] + [e]
    ensures |AppendLog(log, e)| == MAX_LOG
  {
  }

  /** A session marked complete becomes "active" again with its next activity report. */
  lemma ReportReactivates(reg: Registry, id: Key, a: Activity, now: int, later: int)
    ensures var r1 := MarkComplete(reg, id, now).0;
            id in reg.byId ==> UpdateActivity(r1, id, a, later).1.status == ACTIVE
  {
  }
}

=== FILE: setup.dfy ===
/**
 * Remote-sync account setup (vibereps_setup.py): display-name validation,
 * generated anonymous names, the yes/no prompt, how the account server's
 * answers are read, and the non-interactive flow used by the installer.
 *
 * The random token, the user's typed answers and the outcome of each HTTP
 * request are inputs; printing and the interactive prompt loop are not
 * modelled.
 */
module Setup {
  import opened Common
  import opened VibeConfig

  // ---------------------------------------------------------------------
  // Display names

  /** The characters a display name may contain: ASCII letters, digits, '_' and '-'. */
  predicate NameChar(c: char) {
    'a' <= c <= 'z' || 'A' <= c <= 'Z' || '0' <= c <= '9' || c == '_' || c == '-'
  }

  const EMPTY_NAME := "Display name cannot be empty"
  const TOO_SHORT := "Display name must be at least 3 characters"
  const TOO_LONG := "Display name must be 20 characters or less"
  const BAD_CHARS := "Display name can only contain letters, numbers, underscores, and hyphens"

  /**
   * `validate_display_name`: accepted exactly when 3 to 20 characters, all
   * of them name characters; otherwise the first failing check (empty,
   * short, long, characters) names the error.
   */
  function ValidateDisplayName(name: string): (r: (bool, string))
    ensures r.0 <==> 3 <= |name| <= 20 && forall i :: 0 <= i < |name| ==> NameChar(name[i])
    ensures r.0 <==> r.1 == ""
    ensures |name| == 0 ==> r.1 == EMPTY_NAME
    ensures 0 < |name| < 3 ==> r.1 == TOO_SHORT
    ensures |name| > 20 ==> r.1 == TOO_LONG
    ensures 3 <= |name| <= 20 && !r.0 ==> r.1 == BAD_CHARS
  {
    if |name| == 0 then (false, EMPTY_NAME)
    else if |name| < 3 then (false, TOO_SHORT)
    else if |name| > 20 then (false, TOO_LONG)
    else if !(forall i :: 0 <= i < |name| ==> NameChar(name[i])) then (false, BAD_CHARS)
    else (true, "")
  }

  type Byte = b: int | 0 <= b < 256

  const HEX_DIGITS: string := "0123456789abcdef"

  predicate IsHexDigit(c: char) {
    '0' <= c <= '9' || 'a' <= c <= 'f'
  }

  /** The value of a hex digit. */
  function HexValue(c: char): (v: int)
    requires IsHexDigit(c)
    ensures 0 <= v < 16 && HEX_DIGITS[v] == c
  {
    if c <= '9' then c as int - '0' as int else c as int - 'a' as int + 10
  }

  /** Each digit of `HEX_DIGITS` reads back as its own position. */
  lemma DigitValue(d: int)
    requires 0 <= d < 16
    ensures IsHexDigit(HEX_DIGITS[d]) && HexValue(HEX_DIGITS[d]) == d
  {
  }

  /** The byte two hex digits stand for, high nibble first. */
  function HexPair(hi: char, lo: char): Byte
    requires IsHexDigit(hi) && IsHexDigit(lo)
  {
    HexValue(hi) * 16 + HexValue(lo)
  }

  /** One byte's two digits, high nibble first; they read back as the byte. */
  function HexByte(b: Byte): (r: string)
    ensures |r| == 2 && IsHexDigit(r[0]) && IsHexDigit(r[1])
    ensures HexPair(r[0], r[1]) == b
  {
    DigitValue(b / 16);
    DigitValue(b % 16);
    [HEX_DIGITS[b / 16], HEX_DIGITS[b % 16]]
  }

  /** An even number of hex digits: something `Unhex` can read. */
  predicate HexString(s: string) {
    |s| % 2 == 0 && forall i :: 0 <= i < |s| ==> IsHexDigit(s[i])
  }

  /** Two hex digits in front of a hex string make a hex string. */
  lemma HexConcat(first: string, rest: string)
    requires |first| == 2 && IsHexDigit(first[0]) && IsHexDigit(first[1])
    requires HexString(rest)
    ensures HexString(first + rest)
  {
    var s := first + rest;
    forall i | 0 <= i < |s| ensures IsHexDigit(s[i]) {
      if i >= 2 {
        assert s[i] == rest[i - 2];
      }
    }
  }

  /** `token.hex()`: two lower-case hex digits per byte. */
  function Hex(token: seq<Byte>): (r: string)
    ensures |r| == 2 * |token|
    ensures HexString(r)
  {
    if |token| == 0 then ""
    else
      HexConcat(HexByte(token[0]), Hex(token[1..]));
      HexByte(token[0]) + Hex(token[1..])
  }

  /** Reading hex digits back into bytes. */
  function Unhex(s: string): (r: seq<Byte>)
    requires HexString(s)
    ensures 2 * |r| == |s|
  {
    if |s| == 0 then [] else [HexPair(s[0], s[1])] + Unhex(s[2..])
  }

  /** Reading two digits in front of more digits gives their byte in front. */
  lemma UnhexCons(first: string, rest: string)
    requires |first| == 2 && IsHexDigit(first[0]) && IsHexDigit(first[1])
    requires HexString(rest)
    ensures HexString(first + rest)
    ensures Unhex(first + rest) == [HexPair(first[0], first[1])] + Unhex(rest)
  {
    HexConcat(first, rest);
    var s := first + rest;
    assert s[0] == first[0] && s[1] == first[1] && s[2..] == rest;
  }

  /** Hex encoding loses nothing: the token can be read back. */
  lemma {:induction false} HexRoundTrip(token: seq<Byte>)
    ensures Unhex(Hex(token)) == token
  {
    if |token| > 0 {
      var first := HexByte(token[0]);
      var rest := Hex(token[1..]);
      assert Hex(token) == first + rest;
      UnhexCons(first, rest);
      HexRoundTrip(token[1..]);
    }
  }

  /** `generate_anonymous_name()` for the random bytes `token`: "anon_" and their hex. */
  function AnonymousName(token: seq<Byte>): (name: string)
    ensures StartsWith(name, "anon_")
    ensures |name| == 5 + 2 * |token|
    ensures name[5..] == Hex(token)
  {
    "anon_" + Hex(token)
  }

  /** A generated name from the two random bytes (indeed from up to seven) is itself a valid display name. */
  lemma AnonymousNameValid(token: seq<Byte>)
    requires |token| <= 7
    ensures ValidateDisplayName(AnonymousName(token)).0
  {
    var name := AnonymousName(token);
    forall i | 0 <= i < |name| ensures NameChar(name[i]) {
      if i >= 5 {
        assert name[i] == Hex(token)[i - 5];
      }
    }
  }

  // ---------------------------------------------------------------------
  // Prompt

  /**
   * `prompt_yes_no`: the typed answer is stripped and lower-cased; nothing
   * left means the default, otherwise only "y" and "yes" mean yes.
   */
  function PromptYesNo(response: string, default: bool): (yes: bool)
    ensures Strip(response) == "" ==> yes == default
    ensures Strip(response) != "" ==> (yes <==> Lower(Strip(response)) in ["y", "yes"])
  {
    var answer := Lower(Strip(response));
    if answer == "" then default else answer in ["y", "yes"]
  }

  /** Whitespace around an answer never changes it. */
  lemma PromptIgnoresPadding(response: string, default: bool)
    ensures PromptYesNo(response, default) == PromptYesNo(Strip(response), default)
  {
    StripIdempotent(response);
  }

  /** Case and surrounding blanks do not matter: " YES " is yes whatever the default. */
  lemma PaddedUpperYes(default: bool)
    ensures PromptYesNo(" YES ", default)
  {
    StripPaddedYes();
    LowerYes();
  }

  lemma StripPaddedYes()
    ensures Strip(" YES ") == "YES"
  {
    StripPadding(" ", "YES", " ");
    assert " " + "YES" + " " == " YES ";
  }

  lemma LowerYes()
    ensures Lower("YES") == "yes"
  {
    var lowered := Lower("YES");
    assert lowered[0] == 'y' && lowered[1] == 'e' && lowered[2] == 's';
  }

  /** "no" is no, even when the default is yes. */
  lemma NoOverridesDefault()
    ensures !PromptYesNo("no", true)
  {
    StripKeepsClean("no");
  }

  /** A blank answer takes the default. */
  lemma BlankTakesDefault(default: bool)
    ensures PromptYesNo("   ", default) == default
  {
    assert Strip("   ") == "" by {
      assert forall i :: 0 <= i < |"   "| ==> IsSpace("   "[i]);
    }
  }

  // ---------------------------------------------------------------------
  // Account server

  /** How a request to the account server ended. */
  datatype HttpOutcome =
    | Answered(body: Option<Value>)   // a 2xx answer, parsed (`Some`) or not JSON
    | HttpError(code: int)
    | Unreachable                     // any other `URLError`

  /** `create_account`'s reading of the answer; failures carry why. */
  datatype AccountResult =
    | Created(apiKey: Value, username: Value)
    | NameTaken        // 409
    | NameRejected     // 422
    | ServerError(code: int)
    | NoConnection
    | BadResponse      // not JSON
    | Raised           // JSON without `.get`: the exception escapes

  /**
   * `create_account`: the answer's `api_key` and `username` (`null` when
   * missing) on success; 409, 422 and other HTTP errors, connection errors
   * and non-JSON answers are failures. A JSON answer that is not an
   * object has no `.get`, which nothing catches.
   */
  function CreateAccount(outcome: HttpOutcome): (r: AccountResult)
    ensures r.Created? <==> outcome.Answered? && outcome.body.Some? && outcome.body.value.VObj?
    ensures r.Created? ==>
      r.apiKey == GetOr(outcome.body.value.fields, "api_key", VNull)
      && r.username == GetOr(outcome.body.value.fields, "username", VNull)
    ensures r == NameTaken <==> outcome == HttpError(409)
    ensures r == NameRejected <==> outcome == HttpError(422)
    ensures r.ServerError? <==> outcome.HttpError? && outcome.code != 409 && outcome.code != 422
    ensures r == Raised <==> outcome.Answered? && outcome.body.Some? && !outcome.body.value.VObj?
  {
    match outcome
    case Answered(None) => BadResponse
    case Answered(Some(doc)) =>
      if doc.VObj? then Created(GetOr(doc.fields, "api_key", VNull), GetOr(doc.fields, "username", VNull))
      else Raised
    case HttpError(code) =>
      if code == 409 then NameTaken else if code == 422 then NameRejected else ServerError(code)
    case Unreachable => NoConnection
  }

  /**
   * `get_leaderboard_rank`: one past the length of the leaderboard answer
   * (a new user is at the bottom); any failure, including an answer with no
   * length, is `None`.
   */
  function LeaderboardRank(outcome: HttpOutcome): (rank: Option<int>)
    ensures outcome.Answered? && outcome.body.Some? && outcome.body.value.VList? ==>
      rank == Some(|outcome.body.value.items| + 1)
    ensures outcome.Answered? && outcome.body.Some? && outcome.body.value.VObj? ==>
      rank == Some(|outcome.body.value.fields| + 1)
    ensures outcome.Answered? && outcome.body.Some? && outcome.body.value.VStr? ==>
      rank == Some(|outcome.body.value.s| + 1)
    ensures rank.Some? ==> rank.value >= 1
    ensures !(outcome.Answered? && outcome.body.Some?) ==> rank.None?
    ensures outcome.Answered? && outcome.body.Some? ==>
      (rank.None? <==> outcome.body.value.VNull? || outcome.body.value.VBool? || outcome.body.value.VInt?)
  {
    match outcome
    case Answered(Some(doc)) =>
      (match doc
       case VList(items) => Some(|items| + 1)
       case VObj(fields) => Some(|fields| + 1)
       case VStr(s) => Some(|s| + 1)
       case _ => None)
    case _ => None
  }

  // ---------------------------------------------------------------------
  // Non-interactive setup

  /** Where `run_non_interactive` stopped. */
  datatype SetupRun =
    | Invalid(error: string)                    // validation failed; nothing was sent
    | AccountFailed(sent: string)               // the account request failed
    | Crashed(sent: string)                     // an exception escaped
    | Finished(sent: string, saved: Config, success: bool)

  /** The name `run_non_interactive` uses: a blank one becomes an anonymous name; others are kept unstripped. */
  function ChosenName(displayName: string, token: seq<Byte>): (name: string)
    ensures Strip(displayName) == "" ==> name == AnonymousName(token)
    ensures Strip(displayName) != "" ==> name == displayName
    ensures name != ""
  {
    if Strip(displayName) == "" then AnonymousName(token) else displayName
  }

  /**
   * `run_non_interactive(url, name)`: a name that does not start with
   * "anon_" must validate before anything is sent; then the account is
   * created and the credentials saved. `saveOk` is whether writing the
   * configuration file succeeded.
   */
  function RunNonInteractive(apiUrl: string, displayName: string, token: seq<Byte>,
                             account: HttpOutcome, file: ConfigFile, saveOk: bool): (r: SetupRun)
    ensures r.Invalid? <==>
      !StartsWith(ChosenName(displayName, token), "anon_") && !ValidateDisplayName(ChosenName(displayName, token)).0
    ensures r.Invalid? ==> r.error == ValidateDisplayName(ChosenName(displayName, token)).1
    ensures !r.Invalid? ==> r.sent == ChosenName(displayName, token)
    ensures r.Finished? <==> !r.Invalid? && CreateAccount(account).Created? && LoadConfig(file).Some?
    ensures r.Finished? ==>
      r.saved.remoteSync == RemoteSync(VBool(true), VStr(apiUrl), CreateAccount(account).apiKey, CreateAccount(account).username)
      && r.success == saveOk
  {
    var name := ChosenName(displayName, token);
    var check := ValidateDisplayName(name);
    if !StartsWith(name, "anon_") && !check.0 then Invalid(check.1)
    else match CreateAccount(account)
      case Created(apiKey, username) =>
        (match EnableRemoteSync(file, apiUrl, apiKey, username)
         case None => Crashed(name)
         case Some(saved) => Finished(name, saved, saveOk))
      case Raised => Crashed(name)
      case _ => AccountFailed(name)
  }

  /** The installer's exit status: 0 only when the credentials were saved. */
  function NonInteractiveExitCode(r: SetupRun): (code: int)
    ensures code == 0 <==> r.Finished? && r.success
    ensures r.Crashed? ==> code == 1
    ensures code == 0 || code == 1
  {
    if r.Finished? && r.success then 0 else 1
  }

  /** A blank name never blocks setup: the generated name is sent. */
  lemma BlankNameSendsAnonymous(apiUrl: string, displayName: string, token: seq<Byte>,
                                account: HttpOutcome, file: ConfigFile, saveOk: bool)
    requires Strip(displayName) == ""
    ensures !RunNonInteractive(apiUrl, displayName, token, account, file, saveOk).Invalid?
    ensures RunNonInteractive(apiUrl, displayName, token, account, file, saveOk).sent == AnonymousName(token)
  {
  }

  /** Names that look generated are sent without validation, even ones validation would refuse. */
  lemma AnonPrefixSkipsValidation(token: seq<Byte>, account: HttpOutcome, file: ConfigFile, saveOk: bool)
    ensures !ValidateDisplayName("anon_!").0
    ensures !RunNonInteractive("", "anon_!", token, account, file, saveOk).Invalid?
    ensures RunNonInteractive("", "anon_!", token, account, file, saveOk).sent == "anon_!"
  {
    assert "anon_!"[5] == '!';
    assert Strip("anon_!") != "" by {
      assert !IsSpace("anon_!"[0]);
    }
  }

  /** A successful run leaves a configuration from which remote sync sends to the chosen server with the new key. */
  lemma SetupEnablesSync(apiUrl: string, displayName: string, token: seq<Byte>,
                         account: HttpOutcome, file: ConfigFile, saveOk: bool)
    requires apiUrl != ""
    requires RunNonInteractive(apiUrl, displayName, token, account, file, saveOk).Finished?
    requires PyTruthy(CreateAccount(account).apiKey)
    ensures GetRemoteSettings("", "", Parsed(ToDocument(RunNonInteractive(apiUrl, displayName, token, account, file, saveOk).saved)))
      == Target(VStr(apiUrl), CreateAccount(account).apiKey)
  {
    var c := CreateAccount(account);
    EnableThenSettings(file, apiUrl, c.apiKey, c.username);
  }
}

=== FILE: track_project.dfy ===
/**
 * The project-tracking hook (track_project.py): which repository and
 * branch a session works on, and the Pushgateway labels and URL it
 * reports them under.
 *
 * The two `git` runs are given as their outcomes and the working
 * directory as its name; the POST itself and the timestamp are not
 * modelled.
 */
module TrackProject {
  import opened Common

  // ---------------------------------------------------------------------
  // Labels

  /** The characters a label keeps: letters, digits, '-' and '_'. */
  predicate LabelChar(c: char) {
    'a' <= c <= 'z' || 'A' <= c <= 'Z' || '0' <= c <= '9' || c == '-' || c == '_'
  }

  /**
   * The label sanitising in `push_metrics`: each character is kept when it
   * is alphanumeric or one of "-_", and becomes '_' otherwise.
   */
  function Sanitize(raw: string): (r: string)
    ensures |r| == |raw|
    ensures forall i :: 0 <= i < |r| ==> LabelChar(r[i])
    ensures forall i :: 0 <= i < |r| ==> (r[i] == raw[i] <==> LabelChar(raw[i]))
    ensures forall i :: 0 <= i < |r| ==> !LabelChar(raw[i]) ==> r[i] == '_'
  {
    seq(|raw|, i requires 0 <= i < |raw| => if LabelChar(raw[i]) then raw[i] else '_')
  }

  /** Sanitising a sanitised label changes nothing. */
  lemma SanitizeIdempotent(raw: string)
    ensures Sanitize(Sanitize(raw)) == Sanitize(raw)
  {
  }

  /** A label that is already clean passes through unchanged. */
  lemma SanitizeKeepsClean(raw: string)
    requires forall i :: 0 <= i < |raw| ==> LabelChar(raw[i])
    ensures Sanitize(raw) == raw
  {
  }

  const JOB_NAME: string := "claude_project_tracker"

  /** The path's segments. */
  function PushParts(project: string, branch: string): seq<string> {
    ["", "metrics", "job", JOB_NAME, "project", project, "branch", branch]
  }

  /**
   * The Pushgateway path after the gateway URL,
   * "/metrics/job/<job>/project/<project>/branch/<branch>", with both
   * labels sanitised. Sanitised labels cannot add path segments: the path
   * always splits back into the fixed segments with the labels in place.
   */
  function PushPath(project: string, branch: string): (path: string)
    ensures Split(path, '/') == PushParts(Sanitize(project), Sanitize(branch))
  {
    PushPartsHaveNoSlash(Sanitize(project), Sanitize(branch));
    SplitJoin(PushParts(Sanitize(project), Sanitize(branch)), '/');
    Join(PushParts(Sanitize(project), Sanitize(branch)), "/")
  }

  lemma PushPartsHaveNoSlash(project: string, branch: string)
    requires forall i :: 0 <= i < |project| ==> LabelChar(project[i])
    requires forall i :: 0 <= i < |branch| ==> LabelChar(branch[i])
    ensures forall i :: 0 <= i < |PushParts(project, branch)| ==> '/' !in PushParts(project, branch)[i]
  {
    var parts := PushParts(project, branch);
    assert !LabelChar('/');
    forall i | 0 <= i < |parts| ensures '/' !in parts[i] {
      if i == 5 || i == 7 {
        assert forall k :: 0 <= k < |parts[i]| ==> LabelChar(parts[i][k]);
      } else if i == 3 {
        assert forall k :: 0 <= k < |JOB_NAME| ==> JOB_NAME[k] != '/';
      }
    }
  }

  // ---------------------------------------------------------------------
  // Repository and branch

  /**
   * The repository name as the hook computes it: the last '/'-segment of
   * the remote URL with every ".git" removed (not just the suffix).
   */
  function RepoNameAsWritten(url: string): (name: string)
    ensures '/' !in name
    ensures name == ReplaceAll(LastSegment(url, '/'), ".git", "")
    ensures !IsInfix(".git", LastSegment(url, '/')) ==> name == LastSegment(url, '/')
  {
    var last := LastSegment(url, '/');
    ReplaceAllChars(last, ".git", "", '/');
    ReplaceAll(last, ".git", "")
  }

  /** The organisation-wide `.github` repository comes out as "hub". */
  lemma RepoNameAsWrittenMangles()
    ensures RepoNameAsWritten("org/.github.git") == "hub"
  {
    assert '/' !in ".github.git" by {
      assert forall k :: 0 <= k < |".github.git"| ==> ".github.git"[k] != '/';
    }
    LastSegmentOf("org", ".github.git");
    assert "org" + "/" + ".github.git" == "org/.github.git";
    ReplaceGitExample();
  }

  /** The last segment of `head/tail` is `tail` when `tail` has no '/'. */
  lemma {:induction false} LastSegmentOf(head: string, tail: string)
    requires '/' !in tail
    ensures LastSegment(head + "/" + tail, '/') == tail
    decreases |tail|
  {
    var s := head + "/" + tail;
    if |tail| > 0 {
      var init := tail[..|tail| - 1];
      assert s[..|s| - 1] == head + "/" + init;
      assert s[|s| - 1] == tail[|tail| - 1];
      LastSegmentOf(head, init);
      assert init + [tail[|tail| - 1]] == tail;
    }
  }

  /** One step of `ReplaceAll` where the pattern does not start here. */
  lemma ReplaceSkip(s: string, pat: string, rep: string)
    requires |pat| > 0 && |s| >= |pat| && s[..|pat|] != pat
    ensures ReplaceAll(s, pat, rep) == [s[0]] + ReplaceAll(s[1..], pat, rep)
  {
  }

  /** One step of `ReplaceAll` where the pattern starts here. */
  lemma ReplaceHit(s: string, pat: string, rep: string)
    requires |pat| > 0 && |s| >= |pat| && s[..|pat|] == pat
    ensures ReplaceAll(s, pat, rep) == rep + ReplaceAll(s[|pat|..], pat, rep)
  {
  }

  lemma ReplaceGitEnd()
    ensures ReplaceAll("b.git", ".git", "") == "b"
  {
    var s := "b.git";
    assert s[..4][0] != '.';
    ReplaceSkip(s, ".git", "");
    assert s[1..] == ".git";
    ReplaceHit(s[1..], ".git", "");
    assert s[1..][4..] == "";
  }

  lemma ReplaceGitHub()
    ensures ReplaceAll("hub.git", ".git", "") == "hub"
  {
    var s := "hub.git";
    assert s[..4][0] != '.';
    ReplaceSkip(s, ".git", "");
    assert s[1..][..4][0] != '.';
    ReplaceSkip(s[1..], ".git", "");
    assert s[1..][1..] == "b.git";
    ReplaceGitEnd();
  }

  /** Every ".git" is removed, including the one that begins ".github". */
  lemma ReplaceGitExample()
    ensures ReplaceAll(".github.git", ".git", "") == "hub"
  {
    var s := ".github.git";
    assert s[..4] == ".git";
    ReplaceHit(s, ".git", "");
    assert s[4..] == "hub.git";
    ReplaceGitHub();
  }

  /** `tail` ends `url` and is either all of it or preceded by '/'. */
  predicate SegmentEnd(url: string, tail: string) {
    EndsWith(url, tail) && (|tail| < |url| ==> url[|url| - |tail| - 1] == '/')
  }

  /**
   * The evidently intended name: the last segment with only a trailing
   * ".git" removed. Followed by ".git", or alone when the segment has no
   * such suffix, the name is exactly the URL's last '/'-segment.
   */
  function RepoName(url: string): (name: string)
    ensures '/' !in name
    ensures SegmentEnd(url, name + ".git") || (SegmentEnd(url, name) && !EndsWith(name, ".git"))
  {
    var last := LastSegment(url, '/');
    if EndsWith(last, ".git") then
      var name := last[..|last| - 4];
      assert name + ".git" == last;
      name
    else last
  }

  /** A name followed by ".git" at the end of a remote URL is recovered exactly. */
  lemma RepoNameRecovers(prefix: string, name: string)
    requires '/' !in name
    ensures RepoName(prefix + "/" + name + ".git") == name
  {
    var tail := name + ".git";
    assert '/' !in tail by {
      assert forall k :: 0 <= k < |tail| ==> tail[k] == if k < |name| then name[k] else ".git"[k - |name|];
    }
    assert prefix + "/" + name + ".git" == prefix + "/" + tail;
    LastSegmentOf(prefix, tail);
    assert tail[..|tail| - 4] == name;
  }

  /** How a `git` run ended: its status and its output. */
  datatype Run = Run(code: int, stdout: string)

  datatype GitInfo = GitInfo(branch: string, repo: string)

  /**
   * `get_git_info()`: `None` for a run means it raised (no `git`, a
   * timeout), and then the branch is "unknown" and the repository the
   * working directory's name, whatever the first run gave. A failed branch
   * query gives "unknown"; a remote URL that is missing or blank gives the
   * directory name. The repository name is computed as line 58 does it,
   * removing every ".git".
   */
  function GetGitInfo(branchRun: Option<Run>, remoteRun: Option<Run>, cwdName: string): (g: GitInfo)
    ensures branchRun.None? || remoteRun.None? ==> g == GitInfo("unknown", cwdName)
    ensures branchRun.Some? && remoteRun.Some? ==>
      g.branch == (if branchRun.value.code == 0 then Strip(branchRun.value.stdout) else "unknown")
    ensures branchRun.Some? && remoteRun.Some? ==>
      (g.repo == (if remoteRun.value.code == 0 && Strip(remoteRun.value.stdout) != ""
                  then RepoNameAsWritten(Strip(remoteRun.value.stdout)) else cwdName))
  {
    GitInfoWith(branchRun, remoteRun, cwdName, false)
  }

  /** `get_git_info()` with the corrected repository name of the finding. */
  function GetGitInfoIntended(branchRun: Option<Run>, remoteRun: Option<Run>, cwdName: string): (g: GitInfo)
    ensures branchRun.None? || remoteRun.None? ==> g == GitInfo("unknown", cwdName)
    ensures branchRun.Some? && remoteRun.Some? ==>
      g.branch == (if branchRun.value.code == 0 then Strip(branchRun.value.stdout) else "unknown")
    ensures branchRun.Some? && remoteRun.Some? ==>
      (g.repo == (if remoteRun.value.code == 0 && Strip(remoteRun.value.stdout) != ""
                  then RepoName(Strip(remoteRun.value.stdout)) else cwdName))
  {
    GitInfoWith(branchRun, remoteRun, cwdName, true)
  }

  /** The shared body of both versions; `corrected` picks the repository-name rule. */
  function GitInfoWith(branchRun: Option<Run>, remoteRun: Option<Run>, cwdName: string, corrected: bool): GitInfo {
    match (branchRun, remoteRun)
    case (Some(b), Some(r)) =>
      var branchName := if b.code == 0 then Strip(b.stdout) else "unknown";
      var url := Strip(r.stdout);
      var name := if corrected then RepoName(url) else RepoNameAsWritten(url);
      GitInfo(branchName, if r.code == 0 && url != "" then name else cwdName)
    case _ => GitInfo("unknown", cwdName)
  }

  /** A remote whose last segment holds no ".git" at all is named the same by both versions. */
  lemma VersionsAgreeWithoutGit(branchRun: Option<Run>, remoteRun: Option<Run>, cwdName: string)
    requires remoteRun.Some? && !IsInfix(".git", LastSegment(Strip(remoteRun.value.stdout), '/'))
    ensures GetGitInfo(branchRun, remoteRun, cwdName) == GetGitInfoIntended(branchRun, remoteRun, cwdName)
  {
    var url := Strip(remoteRun.value.stdout);
    SameNameWithoutGit(url);
  }

  /** Both name rules keep a last segment that holds no ".git". */
  lemma SameNameWithoutGit(url: string)
    requires !IsInfix(".git", LastSegment(url, '/'))
    ensures RepoNameAsWritten(url) == RepoName(url)
  {
    SuffixIsInfix(".git", LastSegment(url, '/'));
  }

  /** For the remote of the finding the program reports "hub" where ".github" was meant. */
  lemma VersionsDisagreeOnDotGithub(branchRun: Run, cwdName: string)
    ensures GetGitInfo(Some(branchRun), Some(Run(0, "org/.github.git")), cwdName).repo == "hub"
    ensures GetGitInfoIntended(Some(branchRun), Some(Run(0, "org/.github.git")), cwdName).repo == ".github"
  {
    DotGithubIsClean();
    AsWrittenRepo(branchRun, Run(0, "org/.github.git"), cwdName);
    RepoNameAsWrittenMangles();
    IntendedRepo(branchRun, Run(0, "org/.github.git"), cwdName);
    DotGithubIntended();
  }

  lemma DotGithubIsClean()
    ensures Strip("org/.github.git") == "org/.github.git"
  {
    var url := "org/.github.git";
    assert !IsSpace(url[0]) && !IsSpace(url[|url| - 1]);
    StripKeepsClean(url);
  }

  lemma AsWrittenRepo(b: Run, r: Run, cwdName: string)
    requires r.code == 0 && Strip(r.stdout) != ""
    ensures GetGitInfo(Some(b), Some(r), cwdName).repo == RepoNameAsWritten(Strip(r.stdout))
  {
  }

  lemma IntendedRepo(b: Run, r: Run, cwdName: string)
    requires r.code == 0 && Strip(r.stdout) != ""
    ensures GetGitInfoIntended(Some(b), Some(r), cwdName).repo == RepoName(Strip(r.stdout))
  {
  }

  lemma DotGithubIntended()
    ensures RepoName("org/.github.git") == ".github"
  {
    assert "org/.github.git" == "org" + "/" + ".github" + ".git";
    RepoNameRecovers("org", ".github");
  }

  /** `main`: the repository name unless it is literally "unknown", then the directory name. */
  function ProjectName(g: GitInfo, cwdName: string): (p: string)
    ensures g.repo != "unknown" ==> p == g.repo
    ensures g.repo == "unknown" ==> p == cwdName
  {
    if g.repo != "unknown" then g.repo else cwdName
  }

  /** Without a usable remote the project is the working directory. */
  lemma NoRemoteUsesDirectory(branchRun: Option<Run>, remoteRun: Option<Run>, cwdName: string)
    requires remoteRun.None? || remoteRun.value.code != 0
    ensures ProjectName(GetGitInfo(branchRun, remoteRun, cwdName), cwdName) == cwdName
  {
  }

  /**
   * The URL the hook posts to for this working copy: the gateway, then a
   * path whose segments carry the sanitised project and branch labels.
   */
  function PushUrl(gateway: string, branchRun: Option<Run>, remoteRun: Option<Run>, cwdName: string): (url: string)
    ensures |gateway| <= |url| && url[..|gateway|] == gateway
    ensures var g := GetGitInfo(branchRun, remoteRun, cwdName);
      Split(url[|gateway|..], '/') == PushParts(Sanitize(ProjectName(g, cwdName)), Sanitize(g.branch))
  {
    var g := GetGitInfo(branchRun, remoteRun, cwdName);
    gateway + PushPath(ProjectName(g, cwdName), g.branch)
  }
}

=== FILE: usage.dfy ===
/**
 * The combined usage report (vibereps-usage.py): grouping the local
 * exercise log by day and exercise, rendering a day's exercises, the model
 * column, the set of days shown, the totals, and the command line.
 *
 * The log file is given as whether it exists and how each line parsed;
 * the `ccusage` report is given as what the subprocess produced. Python
 * dictionaries keep insertion order, so they are association lists here.
 */
module Usage {
  import opened Common

  // ---------------------------------------------------------------------
  // Insertion-ordered dictionaries

  /** The value stored under `k`, if any. */
  function Find<V>(a: seq<(string, V)>, k: string): (r: Option<V>)
    ensures r.None? <==> forall i :: 0 <= i < |a| ==> a[i].0 != k
    ensures r.Some? ==> (k, r.value) in a
  {
    if |a| == 0 then None
    else if a[0].0 == k then Some(a[0].1)
    else
      var r := Find(a[1..], k);
      assert r.None? ==> forall i :: 1 <= i < |a| ==> a[i].0 == a[1..][i - 1].0;
      r
  }

  predicate UniqueKeys<V>(a: seq<(string, V)>) {
    forall i, j :: 0 <= i < j < |a| ==> a[i].0 != a[j].0
  }

  /**
   * `d[k] = v`: an existing key keeps its position, a new key goes last,
   * and no other key's value changes.
   */
  function Store<V>(a: seq<(string, V)>, k: string, v: V): (r: seq<(string, V)>)
    ensures Find(r, k) == Some(v)
    ensures forall k' :: k' != k ==> Find(r, k') == Find(a, k')
    ensures Find(a, k).None? ==> r == a + [(k, v)]
  {
    if |a| == 0 then [(k, v)]
    else if a[0].0 == k then [(k, v)] + a[1..]
    else
      var rest := Store(a[1..], k, v);
      assert Find(a, k) == Find(a[1..], k);
      assert a == [a[0]] + a[1..];
      [a[0]] + rest
  }

  /** Overwriting an existing key keeps every key in its position. */
  lemma {:induction false} StoreKeepsPositions<V>(a: seq<(string, V)>, k: string, v: V)
    requires Find(a, k).Some?
    ensures |Store(a, k, v)| == |a|
    ensures forall i :: 0 <= i < |a| ==> Store(a, k, v)[i].0 == a[i].0
  {
    var r := Store(a, k, v);
    if a[0].0 != k {
      assert Find(a, k) == Find(a[1..], k);
      StoreKeepsPositions(a[1..], k, v);
      var rest := Store(a[1..], k, v);
      assert r == [a[0]] + rest;
      forall i | 0 <= i < |a| ensures r[i].0 == a[i].0 {
        if i > 0 {
          assert r[i] == rest[i - 1] && a[i] == a[1..][i - 1];
        }
      }
    } else {
      assert r == [(k, v)] + a[1..];
      forall i | 0 <= i < |a| ensures r[i].0 == a[i].0 {
        if i > 0 {
          assert r[i] == a[1..][i - 1] && a[i] == a[1..][i - 1];
        }
      }
    }
  }

  /** Looking a key up in front of a list: the first entry, or the rest. */
  lemma FindCons<V>(p: (string, V), t: seq<(string, V)>)
    ensures forall k :: Find([p] + t, k) == if p.0 == k then Some(p.1) else Find(t, k)
  {
    forall k ensures Find([p] + t, k) == if p.0 == k then Some(p.1) else Find(t, k) {
      assert ([p] + t)[1..] == t;
    }
  }

  /** Storing keeps keys unique. */
  lemma {:induction false} StoreKeepsUnique<V>(a: seq<(string, V)>, k: string, v: V)
    requires UniqueKeys(a)
    ensures UniqueKeys(Store(a, k, v))
  {
    var r := Store(a, k, v);
    if Find(a, k).None? {
      assert r == a + [(k, v)];
    } else {
      StoreKeepsPositions(a, k, v);
    }
  }

  /** Only keys whose entries are present are found: `k in d`. */
  function ValueOr<V>(a: seq<(string, V)>, k: string, default: V): V {
    Find(a, k).GetOr(default)
  }

  type Tally = seq<(string, int)>

  /** `by_date[date]` for each day: reps per exercise, both in first-seen order. */
  type Days = seq<(string, Tally)>

  /** `tally[exercise] += reps` on a `defaultdict(int)`. */
  function Bump(t: Tally, exercise: string, reps: int): (r: Tally)
    ensures Find(r, exercise) == Some(ValueOr(t, exercise, 0) + reps)
    ensures forall k :: k != exercise ==> Find(r, k) == Find(t, k)
  {
    Store(t, exercise, ValueOr(t, exercise, 0) + reps)
  }

  // ---------------------------------------------------------------------
  // Loading the exercise log

  /** One line of the log after `json.loads`: not JSON (skipped), JSON that is not an object, or a record's fields. */
  datatype LogLine =
    | NotJson
    | NotObject
    | Record(timestamp: Option<string>, exercise: Option<string>, reps: Option<int>)

  /**
   * The day of a timestamp: the part before the first "T" when there is
   * one, otherwise the first ten characters.
   */
  function DateKey(ts: string): (d: string)
    ensures |d| <= |ts| && d == ts[..|d|]
    ensures 'T' !in d
    ensures 'T' in ts ==> ts[|d|] == 'T'
    ensures 'T' !in ts ==> |d| == if |ts| < 10 then |ts| else 10
  {
    if 'T' in ts then
      SplitHead(ts, 'T');
      Split(ts, 'T')[0]
    else if |ts| < 10 then ts
    else ts[..10]
  }

  /** The record's day, exercise and reps, with the log reader's defaults. */
  function KeyOf(line: LogLine): (string, string, int)
    requires line.Record?
  {
    (DateKey(line.timestamp.GetOr("")), line.exercise.GetOr("unknown"), line.reps.GetOr(0))
  }

  /** Adds one record to the grouping. */
  function AddRecord(days: Days, date: string, exercise: string, reps: int): (r: Days)
    ensures Find(r, date) == Some(Bump(ValueOr(days, date, []), exercise, reps))
    ensures forall d :: d != date ==> Find(r, d) == Find(days, d)
  {
    Store(days, date, Bump(ValueOr(days, date, []), exercise, reps))
  }

  /** No line of the log is JSON other than an object. */
  predicate AllObjects(lines: seq<LogLine>) {
    forall i :: 0 <= i < |lines| ==> lines[i] != NotObject
  }

  /**
   * The grouping loop of `load_exercise_data`, line by line. Lines that are
   * not JSON are skipped; a JSON line that is not an object has no `.get`
   * and the exception escapes (`None`).
   */
  function Group(lines: seq<LogLine>): (r: Option<Days>)
    ensures r.Some? <==> AllObjects(lines)
    ensures r.Some? ==> UniqueKeys(r.value)
    decreases |lines|
  {
    if |lines| == 0 then Some([])
    else
      var init := lines[..|lines| - 1];
      var last := lines[|lines| - 1];
      assert AllObjects(lines) <==> AllObjects(init) && last != NotObject;
      match Group(init)
      case None => None
      case Some(days) =>
        if last == NotObject then None
        else if last == NotJson then Some(days)
        else
          var (date, exercise, reps) := KeyOf(last);
          StoreKeepsUnique(days, date, Bump(ValueOr(days, date, []), exercise, reps));
          Some(AddRecord(days, date, exercise, reps))
  }

  /** Reference: whether some record falls on `date` with `exercise`. */
  predicate Seen(lines: seq<LogLine>, date: string, exercise: string)
    decreases |lines|
  {
    |lines| > 0 &&
    (Seen(lines[..|lines| - 1], date, exercise)
     || (lines[|lines| - 1].Record? && KeyOf(lines[|lines| - 1]).0 == date && KeyOf(lines[|lines| - 1]).1 == exercise))
  }

  /** Reference: whether some record falls on `date`. */
  predicate SeenDay(lines: seq<LogLine>, date: string)
    decreases |lines|
  {
    |lines| > 0 &&
    (SeenDay(lines[..|lines| - 1], date) || (lines[|lines| - 1].Record? && KeyOf(lines[|lines| - 1]).0 == date))
  }

  /** Reference: the reps of all records on `date` with `exercise`. */
  function RepsFor(lines: seq<LogLine>, date: string, exercise: string): int
    decreases |lines|
  {
    if |lines| == 0 then 0
    else
      var last := lines[|lines| - 1];
      RepsFor(lines[..|lines| - 1], date, exercise)
        + (if last.Record? && KeyOf(last).0 == date && KeyOf(last).1 == exercise then KeyOf(last).2 else 0)
  }

  /**
   * The grouping is exactly the per-day, per-exercise sum of the records: a
   * day appears iff some record falls on it, an exercise appears under a day
   * iff some record has both, and its count is the sum of their reps.
   */
  lemma {:induction false} GroupSums(lines: seq<LogLine>, date: string, exercise: string)
    requires AllObjects(lines)
    ensures Find(Group(lines).value, date).Some? <==> SeenDay(lines, date)
    ensures Find(ValueOr(Group(lines).value, date, []), exercise).Some? <==> Seen(lines, date, exercise)
    ensures ValueOr(ValueOr(Group(lines).value, date, []), exercise, 0) == RepsFor(lines, date, exercise)
  {
    GroupDays(lines, date);
    GroupExercises(lines, date, exercise);
    GroupReps(lines, date, exercise);
  }

  /** Every line before the last is an object when all of them are. */
  lemma AllObjectsInit(lines: seq<LogLine>)
    requires |lines| > 0 && AllObjects(lines)
    ensures AllObjects(lines[..|lines| - 1])
  {
    var init := lines[..|lines| - 1];
    forall i | 0 <= i < |init| ensures init[i] != NotObject {
      assert init[i] == lines[i];
    }
  }

  /** A day is in the grouping iff some record falls on it. */
  lemma {:induction false} GroupDays(lines: seq<LogLine>, date: string)
    requires AllObjects(lines)
    ensures Find(Group(lines).value, date).Some? <==> SeenDay(lines, date)
    decreases |lines|
  {
    if |lines| > 0 {
      AllObjectsInit(lines);
      GroupDays(lines[..|lines| - 1], date);
    }
  }

  /** An exercise is listed under a day iff some record has both. */
  lemma {:induction false} GroupExercises(lines: seq<LogLine>, date: string, exercise: string)
    requires AllObjects(lines)
    ensures Find(ValueOr(Group(lines).value, date, []), exercise).Some? <==> Seen(lines, date, exercise)
    decreases |lines|
  {
    if |lines| > 0 {
      AllObjectsInit(lines);
      GroupExercises(lines[..|lines| - 1], date, exercise);
    }
  }

  /** The count under a day and exercise is the sum of the matching records' reps. */
  lemma {:induction false} GroupReps(lines: seq<LogLine>, date: string, exercise: string)
    requires AllObjects(lines)
    ensures ValueOr(ValueOr(Group(lines).value, date, []), exercise, 0) == RepsFor(lines, date, exercise)
    decreases |lines|
  {
    if |lines| > 0 {
      AllObjectsInit(lines);
      GroupReps(lines[..|lines| - 1], date, exercise);
    }
  }

  /** `load_exercise_data()`: no log file means no data. */
  function LoadExerciseData(logExists: bool, lines: seq<LogLine>): (r: Option<Days>)
    ensures !logExists ==> r == Some([])
    ensures logExists ==> r == Group(lines)
  {
    if logExists then Group(lines) else Some([])
  }

  // ---------------------------------------------------------------------
  // Rendering

  /** The name with every underscore turned into a space, character by character. */
  function Spaced(exercise: string): (r: string)
    ensures |r| == |exercise|
    ensures '_' !in r
  {
    seq(|exercise|, i requires 0 <= i < |exercise| => if exercise[i] == '_' then ' ' else exercise[i])
  }

  /**
   * The shortened exercise name: underscores to spaces, then every
   * "jumping jacks" to "JJ".
   */
  function ShortName(exercise: string): (r: string)
    ensures '_' !in r
    ensures r == ReplaceAll(Spaced(exercise), "jumping jacks", "JJ")
    ensures !IsInfix("jumping jacks", Spaced(exercise)) ==> r == Spaced(exercise)
  {
    var spaced := ReplaceAll(exercise, "_", " ");
    ReplaceCharMaps(exercise, '_', ' ');
    ReplaceAllChars(spaced, "jumping jacks", "JJ", '_');
    ReplaceAll(spaced, "jumping jacks", "JJ")
  }

  /** The jumping-jacks exercise is shown as "JJ". */
  lemma JumpingJacksIsJJ()
    ensures ShortName("jumping_jacks") == "JJ"
  {
    assert Spaced("jumping_jacks") == "jumping jacks";
    var s := "jumping jacks";
    assert s[..|s|] == s;
    assert s[|s|..] == "";
  }

  /** `f"{reps} {short}"`. */
  function Cell(entry: (string, int)): (r: string)
    ensures StartsWith(r, IntToString(entry.1) + " ")
    ensures r == IntToString(entry.1) + " " + ShortName(entry.0)
  {
    IntToString(entry.1) + " " + ShortName(entry.0)
  }

  /** The day's entries in the order they are shown: by exercise name. */
  function ShownOrder(t: Tally): (r: Tally)
    ensures SortedBy(r, (p: (string, int)) => p.0)
    ensures multiset(r) == multiset(t)
  {
    SortBy(t, (p: (string, int)) => p.0)
  }

  lemma JoinStartsWithFirst(parts: seq<string>, sep: string)
    requires |parts| >= 1
    ensures StartsWith(Join(parts, sep), parts[0])
  {
  }

  /**
   * `format_exercises`: empty for no exercises; otherwise one cell per
   * exercise in name order, joined by ", ".
   */
  function FormatExercises(t: Tally): (r: string)
    ensures r == "" <==> |t| == 0
    ensures |t| > 0 ==> r == Join(seq(|t|, i requires 0 <= i < |t| => Cell(ShownOrder(t)[i])), ", ")
    ensures |t| > 0 ==> StartsWith(r, Cell(ShownOrder(t)[0]))
  {
    if |t| == 0 then ""
    else
      var order := ShownOrder(t);
      assert |order| == |t| by {
        assert |multiset(order)| == |multiset(t)|;
      }
      var cells := seq(|order|, i requires 0 <= i < |order| => Cell(order[i]));
      JoinStartsWithFirst(cells, ", ");
      Join(cells, ", ")
  }

  /** The rendered day never shows an underscore in a name: every cell's name part is shortened. */
  lemma CellNameHasNoUnderscore(entry: (string, int))
    ensures '_' !in Cell(entry)[|IntToString(entry.1)| + 1..]
  {
    var r := Cell(entry);
    assert r[|IntToString(entry.1)| + 1..] == ShortName(entry.0);
  }

  // ---------------------------------------------------------------------
  // The model column

  /** A model name without the "claude-" prefix and the two release dates. */
  function ModelLabel(m: string): string {
    ReplaceAll(ReplaceAll(ReplaceAll(m, "claude-", ""), "-20251101", ""), "-20250929", "")
  }

  /** What the model column shows: at most two labels, and how many more there were. */
  datatype ModelCell = ModelCell(shown: seq<string>, more: nat)

  function SummariseModels(models: seq<string>): (c: ModelCell)
    ensures |c.shown| == if |models| <= 2 then |models| else 2
    ensures |c.shown| + c.more == |models|
    ensures c.more > 0 <==> |models| > 2
    ensures forall i :: 0 <= i < |c.shown| ==> c.shown[i] == ModelLabel(models[i])
  {
    var first := if |models| <= 2 then models else models[..2];
    ModelCell(seq(|first|, i requires 0 <= i < |first| => ModelLabel(first[i])), |models| - |first|)
  }

  /** The column text: the labels joined by ", ", then " +k" for the `k` not shown. */
  function ModelString(models: seq<string>): (r: string)
    ensures |models| <= 2 ==> r == Join(SummariseModels(models).shown, ", ")
    ensures |models| > 2 ==> EndsWith(r, " +" + IntToString(|models| - 2))
    ensures |models| > 2 ==> r == Join(SummariseModels(models).shown, ", ") + " +" + IntToString(|models| - 2)
  {
    var c := SummariseModels(models);
    var labels := Join(c.shown, ", ");
    if c.more > 0 then labels + " +" + IntToString(c.more) else labels
  }

  // ---------------------------------------------------------------------
  // The table

  /** A `ccusage` daily row, fields absent where the report left them out. */
  datatype Row = Row(date: Option<string>, models: Option<seq<string>>,
                     inputTokens: Option<int>, outputTokens: Option<int>, totalTokens: Option<int>)

  /**
   * The `ccusage` result: nothing usable (it failed, or printed a falsy
   * document), or a report object, with its `daily` rows if it has that key.
   */
  datatype CcUsage = NoUsage | Report(daily: Option<seq<Row>>)

  function DailyRows(c: CcUsage): seq<Row> {
    if c.Report? && c.daily.Some? then c.daily.value else []
  }

  function RowDate(row: Row): string {
    row.date.GetOr("")
  }

  function RowDates(rows: seq<Row>): (r: seq<string>)
    ensures |r| == |rows|
    ensures forall i :: 0 <= i < |rows| ==> r[i] == RowDate(rows[i])
  {
    seq(|rows|, i requires 0 <= i < |rows| => RowDate(rows[i]))
  }

  function DayKeys(days: Days): (r: seq<string>)
    ensures |r| == |days|
    ensures forall i :: 0 <= i < |days| ==> r[i] == days[i].0
  {
    seq(|days|, i requires 0 <= i < |days| => days[i].0)
  }

  /** The days printed: every day from either source, once each, in order. */
  function AllDates(c: CcUsage, days: Days): (r: seq<string>)
    ensures forall d :: d in r <==> d in RowDates(DailyRows(c)) || d in DayKeys(days)
    ensures Distinct(r)
    ensures forall i, j :: 0 <= i < j < |r| ==> LexLe(r[i], r[j])
  {
    var unique := Dedup(RowDates(DailyRows(c)) + DayKeys(days));
    var r := SortStrings(unique);
    PermutationKeepsDistinct(unique, r);
    SameElements(unique, r);
    r
  }

  lemma SameElements(s: seq<string>, r: seq<string>)
    requires multiset(r) == multiset(s)
    ensures forall d :: d in r <==> d in s
  {
    assert forall d :: d in r <==> d in multiset(r);
    assert forall d :: d in s <==> d in multiset(s);
  }

  /** `ccusage_by_date[date]`: the last row for a day wins. */
  function RowFor(rows: seq<Row>, date: string): (r: Option<Row>)
    ensures r.Some? ==> r.value in rows && RowDate(r.value) == date
    ensures r.None? <==> date !in RowDates(rows)
    ensures r.Some? ==> exists k :: (0 <= k < |rows| && rows[k] == r.value && RowDate(rows[k]) == date
      && forall j :: k < j < |rows| ==> RowDate(rows[j]) != date)
  {
    if |rows| == 0 then None
    else if RowDate(rows[|rows| - 1]) == date then Some(rows[|rows| - 1])
    else
      var init := rows[..|rows| - 1];
      var r := RowFor(init, date);
      assert RowDates(rows) == RowDates(init) + [RowDate(rows[|rows| - 1])];
      if r.Some? then
        LastMatchExtends(init, rows[|rows| - 1], date, r.value);
        assert init + [rows[|rows| - 1]] == rows;
        r
      else r
  }

  /** A last match stays the last match when a row of another day is appended. */
  lemma LastMatchExtends(init: seq<Row>, last: Row, date: string, v: Row)
    requires RowDate(last) != date
    requires exists k :: (0 <= k < |init| && init[k] == v && RowDate(init[k]) == date
      && forall j :: k < j < |init| ==> RowDate(init[j]) != date)
    ensures var rows := init + [last];
      exists k :: 0 <= k < |rows| && rows[k] == v && RowDate(rows[k]) == date
        && forall j :: k < j < |rows| ==> RowDate(rows[j]) != date
  {
    var rows := init + [last];
    var k :| 0 <= k < |init| && init[k] == v && RowDate(init[k]) == date
      && forall j :: k < j < |init| ==> RowDate(init[j]) != date;
    assert rows[k] == v;
    assert forall j :: k < j < |rows| ==> RowDate(rows[j]) != date by {
      forall j | k < j < |rows| ensures RowDate(rows[j]) != date {
        if j < |init| { assert rows[j] == init[j]; }
      }
    }
  }

  /** The input tokens the table adds up for one day (0 without a row). */
  function InputTokens(rows: seq<Row>, date: string): int {
    match RowFor(rows, date)
    case None => 0
    case Some(row) => row.inputTokens.GetOr(0)
  }

  /** `total_input` over the printed days. */
  function InputTotal(rows: seq<Row>, dates: seq<string>): int {
    if |dates| == 0 then 0 else InputTokens(rows, dates[0]) + InputTotal(rows, dates[1..])
  }

  /** Days with exercises but no usage row add nothing to the token totals. */
  lemma {:induction false} ExerciseOnlyDaysAddNoTokens(rows: seq<Row>, dates: seq<string>)
    ensures InputTotal(rows, dates) == InputTotal(rows, Filter(dates, (d: string) => d in RowDates(rows)))
  {
    if |dates| > 0 {
      ExerciseOnlyDaysAddNoTokens(rows, dates[1..]);
    }
  }

  /** `total_reps`: each printed day's tally added in, day by day. */
  function AddTally(acc: Tally, t: Tally): (r: Tally)
    decreases |t|
  {
    if |t| == 0 then acc else AddTally(Bump(acc, t[0].0, t[0].1), t[1..])
  }

  function TotalReps(days: Days, dates: seq<string>): Tally
    decreases |dates|
  {
    if |dates| == 0 then []
    else AddTally(TotalReps(days, dates[..|dates| - 1]), ValueOr(days, dates[|dates| - 1], []))
  }

  /** Reference: the reps of `exercise` listed in a tally (its value, when keys are unique). */
  function TallyReps(t: Tally, exercise: string): int {
    if |t| == 0 then 0 else (if t[0].0 == exercise then t[0].1 else 0) + TallyReps(t[1..], exercise)
  }

  predicate InTally(t: Tally, exercise: string) {
    Find(t, exercise).Some?
  }

  lemma {:induction false} AddTallySums(acc: Tally, t: Tally, exercise: string)
    ensures InTally(AddTally(acc, t), exercise) <==> InTally(acc, exercise) || InTally(t, exercise)
    ensures ValueOr(AddTally(acc, t), exercise, 0) == ValueOr(acc, exercise, 0) + TallyReps(t, exercise)
    decreases |t|
  {
    if |t| > 0 {
      AddTallySums(Bump(acc, t[0].0, t[0].1), t[1..], exercise);
      assert InTally(t, exercise) <==> t[0].0 == exercise || InTally(t[1..], exercise);
    }
  }

  /** Reference: the reps of `exercise` over the given days. */
  function RepsOver(days: Days, dates: seq<string>, exercise: string): int
    decreases |dates|
  {
    if |dates| == 0 then 0
    else RepsOver(days, dates[..|dates| - 1], exercise) + TallyReps(ValueOr(days, dates[|dates| - 1], []), exercise)
  }

  /** The total row's count for an exercise is the sum of its counts over the printed days. */
  lemma {:induction false} TotalsAreSums(days: Days, dates: seq<string>, exercise: string)
    ensures ValueOr(TotalReps(days, dates), exercise, 0) == RepsOver(days, dates, exercise)
    decreases |dates|
  {
    if |dates| > 0 {
      TotalsAreSums(days, dates[..|dates| - 1], exercise);
      AddTallySums(TotalReps(days, dates[..|dates| - 1]), ValueOr(days, dates[|dates| - 1], []), exercise);
    }
  }

  /** With unique keys, a tally's listed reps are its stored value. */
  lemma {:induction false} TallyRepsIsValue(t: Tally, exercise: string)
    requires UniqueKeys(t)
    ensures TallyReps(t, exercise) == ValueOr(t, exercise, 0)
  {
    if |t| > 0 {
      assert UniqueKeys(t[1..]) by {
        forall i, j | 0 <= i < j < |t[1..]| ensures t[1..][i].0 != t[1..][j].0 {
          assert t[1..][i] == t[i + 1] && t[1..][j] == t[j + 1];
        }
      }
      TallyRepsIsValue(t[1..], exercise);
      if t[0].0 == exercise {
        assert Find(t[1..], exercise).None? by {
          forall i | 0 <= i < |t[1..]| ensures t[1..][i].0 != exercise {
            assert t[1..][i] == t[i + 1];
          }
        }
      }
    }
  }

  // ---------------------------------------------------------------------
  // Command line

  /** What `main` did: the arguments `ccusage` was given (if it was run), and the exit status; or the loader raised. */
  datatype UsageRun = LoaderRaised | Ran(passedOn: Option<seq<string>>, code: int)

  /**
   * `main(args)`: with `--exercises-only`, `ccusage` is not run (so the
   * arguments it would have been given do not matter); otherwise it gets
   * every argument. The status is 1 when neither source has data.
   */
  function Main(args: seq<string>, logExists: bool, lines: seq<LogLine>, ccusage: CcUsage): (r: UsageRun)
    ensures r == LoaderRaised <==> LoadExerciseData(logExists, lines).None?
    ensures r.Ran? ==> (r.passedOn.None? <==> "--exercises-only" in args)
    ensures r.Ran? && r.passedOn.Some? ==> r.passedOn.value == args
    ensures r.Ran? && "--exercises-only" in args ==>
      (r.code == 1 <==> |LoadExerciseData(logExists, lines).value| == 0)
    ensures r.Ran? && "--exercises-only" !in args ==>
      (r.code == 1 <==> ccusage == NoUsage && |LoadExerciseData(logExists, lines).value| == 0)
    ensures r.Ran? ==> r.code == 0 || r.code == 1
  {
    var exercisesOnly := "--exercises-only" in args;
    match LoadExerciseData(logExists, lines)
    case None => LoaderRaised
    case Some(days) =>
      var report := if exercisesOnly then NoUsage else ccusage;
      var code := if report == NoUsage && |days| == 0 then 1 else 0;
      Ran(if exercisesOnly then None else Some(args), code)
  }
}

=== FILE: vibe_config.dfy ===
/**
 * The user configuration file (vibereps_config.py): loading it over the
 * defaults, deciding where remote sync goes with environment variables
 * taking precedence, and switching remote sync on and off.
 *
 * The file is given as its read-and-parse outcome; writing it back is
 * modelled as the document that would be written.
 */
module VibeConfig {
  import opened Common

  const DEFAULT_API_URL: string := "https://api.vibereps.com"

  datatype RemoteSync = RemoteSync(enabled: Value, apiUrl: Value, apiKey: Value, displayName: Value)

  /** A loaded configuration: always exactly these keys, whatever the file held. */
  datatype Config = Config(version: Value, localLogging: Value, remoteSync: RemoteSync)

  const DEFAULT_REMOTE: RemoteSync := RemoteSync(VBool(false), VStr(DEFAULT_API_URL), VNull, VNull)
  const DEFAULT_CONFIG: Config := Config(VInt(1), VBool(true), DEFAULT_REMOTE)

  /**
   * The configuration file: absent, unreadable, not JSON, not valid in the
   * text encoding it is read with, or a parsed document.
   */
  datatype ConfigFile = Missing | Unreadable | Malformed | Undecodable | Parsed(doc: Value)

  /**
   * Python's `key in container`: membership for dicts and lists, substring
   * for strings; `None` stands for the `TypeError` raised by other values.
   */
  function PyContains(container: Value, key: string): (r: Option<bool>)
    ensures container.VObj? ==> r == Some(key in container.fields)
    ensures container.VList? ==> r == Some(VStr(key) in container.items)
    ensures container.VStr? ==> r == Some(IsInfix(key, container.s))
    ensures r.None? <==> container.VNull? || container.VBool? || container.VInt?
  {
    match container
    case VObj(fields) => Some(key in fields)
    case VList(items) => Some(VStr(key) in items)
    case VStr(s) => Some(IsInfix(key, s))
    case _ => None
  }

  /** The remote-sync keys taken from a dict in the file over the defaults. */
  function MergeRemote(r: RemoteSync, fields: map<string, Value>): (m: RemoteSync)
    ensures m.enabled == GetOr(fields, "enabled", r.enabled)
    ensures m.apiUrl == GetOr(fields, "api_url", r.apiUrl)
    ensures m.apiKey == GetOr(fields, "api_key", r.apiKey)
    ensures m.displayName == GetOr(fields, "display_name", r.displayName)
  {
    RemoteSync(
      GetOr(fields, "enabled", r.enabled),
      GetOr(fields, "api_url", r.apiUrl),
      GetOr(fields, "api_key", r.apiKey),
      GetOr(fields, "display_name", r.displayName))
  }

  /** Whether any of the keys the loader looks up is "in" a non-dict document (which then fails to subscript it). */
  predicate MentionsKnownKey(doc: Value) {
    PyContains(doc, "version") == Some(true)
    || PyContains(doc, "local_logging") == Some(true)
    || PyContains(doc, "remote_sync") == Some(true)
  }

  /**
   * `load_config()`. Read and parse errors give the defaults, but a
   * decoding error is not among the caught exceptions and raises
   * (`None`). From a dict,
   * only `version`, `local_logging` and the four remote-sync keys of a
   * dict-valued `remote_sync` are taken. A document of another type either
   * raises an uncaught `TypeError` (`None`) — a scalar, or a list or
   * string for which one of the looked-up keys is "in" it — or gives the
   * defaults.
   */
  function LoadConfig(file: ConfigFile): (r: Option<Config>)
    ensures !file.Parsed? && !file.Undecodable? ==> r == Some(DEFAULT_CONFIG)
    ensures file.Undecodable? ==> r.None?
    ensures file.Parsed? && file.doc.VObj? ==> r.Some?
    ensures file.Parsed? && file.doc.VObj? ==>
      var f := file.doc.fields;
      r.value.version == GetOr(f, "version", VInt(1))
      && r.value.localLogging == GetOr(f, "local_logging", VBool(true))
      && (("remote_sync" in f && f["remote_sync"].VObj?) ==> r.value.remoteSync == MergeRemote(DEFAULT_REMOTE, f["remote_sync"].fields))
      && (!("remote_sync" in f && f["remote_sync"].VObj?) ==> r.value.remoteSync == DEFAULT_REMOTE)
    ensures file.Parsed? && (file.doc.VNull? || file.doc.VBool? || file.doc.VInt?) ==> r.None?
    ensures file.Parsed? && (file.doc.VList? || file.doc.VStr?) ==>
      (r.None? <==> MentionsKnownKey(file.doc)) && (r.Some? ==> r.value == DEFAULT_CONFIG)
  {
    match file
    case Parsed(doc) =>
      if doc.VObj? then
        var f := doc.fields;
        var remote := if "remote_sync" in f && f["remote_sync"].VObj? then MergeRemote(DEFAULT_REMOTE, f["remote_sync"].fields) else DEFAULT_REMOTE;
        Some(Config(GetOr(f, "version", VInt(1)), GetOr(f, "local_logging", VBool(true)), remote))
      else if PyContains(doc, "version").None? then None
      else if MentionsKnownKey(doc) then None
      else Some(DEFAULT_CONFIG)
    case Undecodable => None
    case _ => Some(DEFAULT_CONFIG)
  }

  /** The document `save_config` writes for a configuration. */
  function ToDocument(c: Config): (v: Value)
    ensures v.VObj? && v.fields.Keys == {"version", "local_logging", "remote_sync"}
  {
    VObj(map[
      "version" := c.version,
      "local_logging" := c.localLogging,
      "remote_sync" := VObj(map[
        "enabled" := c.remoteSync.enabled,
        "api_url" := c.remoteSync.apiUrl,
        "api_key" := c.remoteSync.apiKey,
        "display_name" := c.remoteSync.displayName])])
  }

  /** Saving a configuration and loading it again gives the same configuration. */
  lemma SaveLoadRoundTrip(c: Config)
    ensures LoadConfig(Parsed(ToDocument(c))) == Some(c)
  {
    var f := ToDocument(c).fields;
    assert f["remote_sync"].VObj?;
    assert MergeRemote(DEFAULT_REMOTE, f["remote_sync"].fields) == c.remoteSync;
  }

  /** Where remote sync goes: nowhere, somewhere, or the loader raised. */
  datatype RemoteTarget = LoadFailed | Disabled | Target(apiUrl: Value, apiKey: Value)

  /**
   * `get_remote_settings()`. Both (stripped) environment variables set:
   * they win outright, without reading the file. Otherwise a config whose
   * `enabled` is falsy gives no target; the URL is the environment's, else
   * a truthy file URL, else the default; the key is the environment's,
   * else the file's, and a falsy key gives no target.
   */
  function GetRemoteSettings(envUrl: string, envKey: string, file: ConfigFile): (r: RemoteTarget)
    ensures Strip(envUrl) != "" && Strip(envKey) != "" ==> r == Target(VStr(Strip(envUrl)), VStr(Strip(envKey)))
    ensures !(Strip(envUrl) != "" && Strip(envKey) != "") ==>
      (r == LoadFailed <==> LoadConfig(file).None?)
    ensures (!(Strip(envUrl) != "" && Strip(envKey) != "") && LoadConfig(file).Some?
      && !PyTruthy(LoadConfig(file).value.remoteSync.enabled)) ==> r == Disabled
    ensures r.Target? ==> PyTruthy(r.apiKey) && PyTruthy(r.apiUrl)
    ensures r.Target? && Strip(envUrl) != "" ==> r.apiUrl == VStr(Strip(envUrl))
    ensures r.Target? && Strip(envKey) != "" ==> r.apiKey == VStr(Strip(envKey))
    ensures r.Target? && Strip(envUrl) == "" ==>
      var u := LoadConfig(file).value.remoteSync.apiUrl;
      r.apiUrl == (if PyTruthy(u) then u else VStr(DEFAULT_API_URL))
    ensures r.Target? && Strip(envKey) == "" ==> r.apiKey == LoadConfig(file).value.remoteSync.apiKey
    ensures (!(Strip(envUrl) != "" && Strip(envKey) != "") && LoadConfig(file).Some?
      && PyTruthy(LoadConfig(file).value.remoteSync.enabled)) ==>
      var remote := LoadConfig(file).value.remoteSync;
      var url := if Strip(envUrl) != "" then VStr(Strip(envUrl))
                 else if PyTruthy(remote.apiUrl) then remote.apiUrl else VStr(DEFAULT_API_URL);
      var key := if Strip(envKey) != "" then VStr(Strip(envKey)) else remote.apiKey;
      (PyTruthy(key) ==> r == Target(url, key)) && (!PyTruthy(key) ==> r == Disabled)
  {
    var eu := Strip(envUrl);
    var ek := Strip(envKey);
    if eu != "" && ek != "" then Target(VStr(eu), VStr(ek))
    else match LoadConfig(file)
      case None => LoadFailed
      case Some(config) =>
        var remote := config.remoteSync;
        if !PyTruthy(remote.enabled) then Disabled
        else
          var apiUrl := if eu != "" then VStr(eu) else if PyTruthy(remote.apiUrl) then remote.apiUrl else VStr(DEFAULT_API_URL);
          var apiKey := if ek != "" then VStr(ek) else remote.apiKey;
          if !PyTruthy(apiKey) then Disabled else Target(apiUrl, apiKey)
  }

  /**
   * `enable_remote_sync(url, key, name)`: the document saved is the loaded
   * configuration with remote sync replaced by exactly the given values and
   * `enabled` true; `None` when loading raised. The key and name are JSON
   * values because callers pass what the account server answered.
   */
  function EnableRemoteSync(file: ConfigFile, apiUrl: string, apiKey: Value, displayName: Value): (r: Option<Config>)
    ensures r.Some? <==> LoadConfig(file).Some?
    ensures r.Some? ==> r.value.remoteSync == RemoteSync(VBool(true), VStr(apiUrl), apiKey, displayName)
    ensures r.Some? ==>
      r.value.version == LoadConfig(file).value.version
      && r.value.localLogging == LoadConfig(file).value.localLogging
  {
    match LoadConfig(file)
    case None => None
    case Some(c) => Some(c.(remoteSync := RemoteSync(VBool(true), VStr(apiUrl), apiKey, displayName)))
  }

  /** `disable_remote_sync()`: only `enabled` changes; the credentials are kept. */
  function DisableRemoteSync(file: ConfigFile): (r: Option<Config>)
    ensures r.Some? <==> LoadConfig(file).Some?
    ensures r.Some? ==> r.value == LoadConfig(file).value.(remoteSync := LoadConfig(file).value.remoteSync.(enabled := VBool(false)))
  {
    match LoadConfig(file)
    case None => None
    case Some(c) => Some(c.(remoteSync := c.remoteSync.(enabled := VBool(false))))
  }

  /** After enabling with a key, and without environment overrides, the saved file sends to that URL with that key. */
  lemma EnableThenSettings(file: ConfigFile, apiUrl: string, apiKey: Value, displayName: Value)
    requires apiUrl != "" && PyTruthy(apiKey)
    requires EnableRemoteSync(file, apiUrl, apiKey, displayName).Some?
    ensures GetRemoteSettings("", "", Parsed(ToDocument(EnableRemoteSync(file, apiUrl, apiKey, displayName).value)))
      == Target(VStr(apiUrl), apiKey)
  {
    var c := EnableRemoteSync(file, apiUrl, apiKey, displayName).value;
    SaveLoadRoundTrip(c);
    assert Strip("") == "";
  }

  /** After disabling, and without both environment variables, nothing is sent. */
  lemma DisableThenNoSettings(file: ConfigFile, envUrl: string)
    requires DisableRemoteSync(file).Some?
    ensures GetRemoteSettings(envUrl, "", Parsed(ToDocument(DisableRemoteSync(file).value))) == Disabled
  {
    var c := DisableRemoteSync(file).value;
    SaveLoadRoundTrip(c);
    assert Strip("") == "";
  }
}
